=== FILE: README.md ===
# HelloHand core, modelled in Dafny

HelloHand is a video-call service for sign-language users. Participants join a
room by its six-character code. A Django Channels consumer relays chat,
WebRTC signalling, camera/microphone status and sign translations between
the members of a room. A scikit-learn classifier turns a sequence of
MediaPipe landmark frames into a sign label. Spanish text-to-speech and
speech-to-text services complete the pipeline.

This project models that core as pure Dafny functions over immutable state
and proves what each operation promises. It covers:

- **`Rooms`** (`rooms.dfy`): the `Room` and `Participant` records and the
  room life cycle. A room goes from waiting to active to ended and never back.
  The module also covers the expiry policy and the id generator.
- **`RoomViews`** (`room_views.dfy`): the five REST endpoints, which create,
  join, report status, leave and list rooms. Each has its exact error replies.
- **`Channels`** and **`Consumer`** (`channels.dfy`, `consumer.dfy`):
  - the channel-layer groups;
  - the WebSocket consumer's connect and disconnect, its query-string parsing
    and its close codes;
  - its message dispatch, and who in a group receives which message.
- **`SignTranslator`** and **`TranslatorViews`** (`sign_translator.dfy`,
  `translator_views.dfy`):
  - the 204-number feature layout of a frame;
  - resampling a sequence to 16 frames;
  - the prediction reply cases;
  - the validation done by the HTTP views.
- **`SpeechService`** (`speech_service.dfy`): the bounded text-to-speech
  queue, the Spanish text preprocessing and post-processing, and the
  speech-to-text outcomes.
- **The browser services**:
  - **`WsClient`** (`ws_client.dfy`): the WebSocket client, with its
    listeners and its five-attempt reconnection.
  - **`MediaPipe`** (`mediapipe.dfy`): landmark extraction and the capture
    buffer.
  - **`WebRtc`** (`webrtc.dfy`): the peer-connection bookkeeping of the call
    service.
  - **`SpeechRecognition`** (`speech_recognition.dfy`): the browser and
    server recognisers.
  - **`ApiClient`** (`api_client.dfy`): the HTTP client payloads.
- **`Json`**, **`Text`** and **`Wrappers`** (`json.dfy`, `text.dfy`,
  `wrappers.dfy`): shared helpers.
  - `Json` holds a JSON value type and Python's and JavaScript's truthiness
    rules.
  - `Text` holds string stripping, replacement, splitting and ASCII case
    mapping.
  - `Wrappers` holds `Option`.

Several properties connect the backend and the frontend. Each is a lemma
about both models:

- **Frame features round-trip.** A frame built by the browser's landmark
  extraction and sent over the wire yields the same feature vector on the
  server. See `MediaPipe.WiresFeatures` and `MediaPipe.CapturedSequencePredicts`.
- **Client requests reach their handlers.** Each message the WebSocket client
  sends is routed by the consumer to the intended handler. See
  `WsClient.EnvelopesAreRouted`.
- **Call signalling is dropped.** The call service's signalling messages are
  dropped by the consumer. See the findings below.

Clocks, random draws and the trained classifier are parameters: `now`, a
sequence of candidate ids, and a `Classifier` function from feature vector to
class index and confidence.

Where the documentation of the system and its code disagree, the model
follows the code:

- Closing the WebSocket does not mark the participant disconnected. Only the
  REST `leave` endpoint does that (`Consumer.Disconnect`). The leave notice is
  sent even after a refused handshake (`Consumer.RefusedHandshakeAnnouncesLeave`).
- The channel group is named after the room id exactly as it appears in the
  URL. The database lookup upper-cases that id (`Consumer.CaseSplitsGroups`).
- The status endpoint ends an expired room only if the room is active. A
  waiting room past its two-hour limit is reported as expired but stays
  waiting (`RoomViews.ExpiredWaitingRoomStaysWaiting`).
- Request fields follow Python's duck typing rather than a declared schema.
  For example, `max_participants` must be an `int` in 2..50, a boolean is
  rejected, and a missing `landmarks` list is "falsy".
- An unknown room code makes the join, status and leave endpoints answer 500,
  not the documented 404 (`RoomViews.UnknownRoomIsServerError`; see the
  findings below).

## Model

| member | source | states |
|---|---|---|
| Rooms.Activate | backend/rooms/models.py:118-125 | only a waiting room changes: it becomes active with its start time set; every other room is returned unchanged and no other field moves; the status never goes backwards |
| Rooms.EndRoom | backend/rooms/models.py:127-134 | only an active room changes: it becomes ended with its end time set; a waiting or ended room is unchanged; the status never goes backwards |
| Rooms.TransitionsIdempotent | backend/rooms/models.py:118-134 | activating or ending a second time, at any later time, changes nothing (the first timestamp is kept) |
| Rooms.WaitingNeverJumpsToEnded | backend/rooms/models.py:127-134 | a waiting room cannot be ended directly |
| Rooms.ParticipantsCount | backend/rooms/models.py:136-146 | the count is the number of connected participants of the room, and is zero exactly when none of its participants is connected |
| Rooms.CanJoin | backend/rooms/models.py:148-158 | an ended room refuses with its reason, a full room refuses with its reason, otherwise "OK"; joining is allowed iff the room is not ended and below capacity |
| Rooms.LatestDisconnectDecides | backend/rooms/models.py:160-180 | testing only the most recent disconnect record (as the source does) is the same as requiring every record to be older than one hour |
| Rooms.ExpiryCases | backend/rooms/models.py:160-180 | an ended room is expired; a waiting room is expired iff older than two hours; an active room with a connected participant, or with no disconnect record, is not expired |
| Rooms.Disconnect | backend/rooms/models.py:260-270 | the participant is marked disconnected at `now`, no other participant or room changes, the room's connected set loses exactly that participant, and when nobody connected remains the room goes through `end_room`; the store stays well formed and room states only move forward |
| Rooms.DisconnectEndsRoomIffLast | backend/rooms/models.py:260-270 | disconnecting a connected participant leaves the room ended iff it was already ended or it was active and this was its last connected participant |
| Rooms.Reconnect | backend/rooms/models.py:272-282 | the participant is connected again with no disconnect time; the room is activated if waiting and an ended room stays ended; the connected set gains exactly that participant |
| Rooms.GenerateRoomId | backend/rooms/models.py:99-116 | returns a drawn id that is well formed and not in use, and returns none exactly when every draw collides |
| Rooms.Save | backend/rooms/models.py:90-97 | a room that has an id keeps it; a room without one gets a fresh, unused id from the draws, or none when all draws collide |
| RoomViews.MaxAcceptedOnlyIntegers | backend/rooms/views.py:50-54 | `max_participants` is accepted iff it is an integer from 2 to 50 |
| RoomViews.CreateRoom | backend/rooms/views.py:41-85 | a room is created iff `max_participants` (default 10) is accepted; a rejection leaves the store untouched and carries the error text; on success exactly the new id is added and no existing room or participant changes |
| RoomViews.CreateDefaults | backend/rooms/views.py:41-85 | an empty request creates a waiting room for ten participants, displayed as "Sala <id>", with all three features enabled and nobody in it |
| RoomViews.Truncate | backend/rooms/views.py:155 | the result is the longest prefix of at most `n` characters, and a short enough string is kept whole |
| RoomViews.JoinRoom | backend/rooms/views.py:127-210 | an unknown code (after upper-casing) answers 500 "Error uniéndose a la sala: No Room matches the given query." and changes nothing; a room that cannot be joined answers with the refusal reason, status and count and changes nothing; otherwise exactly one new connected participant is added, with the name cut to 50 characters or the default name, and nobody else changes |
| RoomViews.Admit | backend/rooms/views.py:141-200 | an admitted join adds exactly one connected participant, activates a waiting room, and replies active with the connected set including the newcomer and a count that stays within the maximum |
| RoomViews.Enrol | backend/rooms/views.py:142-164 | the new participant is connected, in the requested room, and the only change to the participants; the room's connected count grows by exactly one |
| RoomViews.JoinDependsOnJoiner | backend/rooms/views.py:142-155 | two join requests that describe the same participant record produce the same result |
| RoomViews.JoinRespectsCapacity | backend/rooms/views.py:133-139 | a join never takes a room above its maximum number of connected participants |
| RoomViews.JoinIgnoresIdCase | backend/rooms/views.py:130 | joining with a lower-case code has the same effect as joining with the upper-case one |
| RoomViews.RoomStatus | backend/rooms/views.py:234-287 | an unknown room answers 500 "Error obteniendo estado de sala: No Room matches the given query." and changes nothing; otherwise an expired room is ended (a no-op unless it is active) and the report gives its status, connected participants, their count and whether a join would be accepted |
| RoomViews.ExpiredWaitingRoomStaysWaiting | backend/rooms/views.py:239-241 | a waiting room older than two hours counts as expired, yet the status request leaves the store unchanged and reports it as waiting |
| RoomViews.AbandonedActiveRoomEnds | backend/rooms/views.py:239-241 | an active room whose participants all disconnected more than one hour ago is reported ended, cannot be joined, and is stored ended at `now` |
| RoomViews.RoomStatusIdempotent | backend/rooms/views.py:234-287 | asking for the status again at the same time changes nothing more and gives the same report |
| RoomViews.LeaveRoom | backend/rooms/views.py:309-357 | unknown room → 500 "Error saliendo de la sala: No Room matches the given query."; missing or empty participant id → 400; a participant who is not a connected member → 404; otherwise the participant is disconnected, the stored room ends iff they were the last one in an active room, and the reply gives the remaining count and the room status as it was before the disconnect |
| RoomViews.LastLeaverToldActive | backend/rooms/views.py:331-341 | the last participant leaving an active room is answered "active" while the store holds the room ended |
| RoomViews.LeaveRoomReloaded | backend/rooms/views.py:301-341 | with the status read after the disconnect, the store and every error reply are as in `LeaveRoom`, and the reported status is ended iff the room was ended or this was the last participant of an active room |
| RoomViews.UnknownRoomIsServerError | backend/rooms/views.py:127-357 | for a code that names no room, join, status and leave all answer 500 with their own prefix and Django's "No Room matches the given query.", and leave the store unchanged |
| RoomViews.JoinRoomChecked | backend/rooms/views.py:127-205 | with a lookup that raises `Room.DoesNotExist`, an unknown code answers 404 and a known one is exactly `JoinRoom`; never a 500 |
| RoomViews.RoomStatusChecked | backend/rooms/views.py:234-282 | with a lookup that raises `Room.DoesNotExist`, an unknown room answers 404 and a known one is exactly `RoomStatus`; never a 500 |
| RoomViews.LeaveRoomChecked | backend/rooms/views.py:309-352 | with a lookup that raises `Room.DoesNotExist`, an unknown room answers 404 and a known one is exactly `LeaveRoom`; never a 500 |
| RoomViews.UnknownRoomIsNotFound | backend/rooms/views.py:127-352 | with the intended lookup, each of the three views answers 404 "Sala <id> no encontrada" with the store unchanged exactly when the code names no room, and none answers 500 |
| RoomViews.LeaveTwice | backend/rooms/views.py:309-357 | leaving a second time finds nobody and changes nothing |
| RoomViews.ParseStatus | backend/rooms/views.py:394-395 | only the exact strings "waiting", "active" and "ended" select a status filter |
| RoomViews.Filter | backend/rooms/views.py:394-395 | keeps exactly the listed rooms that match the filter, preserving order and distinctness |
| RoomViews.ListRooms | backend/rooms/views.py:384-430 | an unparseable or negative limit is an error reply; otherwise the page holds the newest matching rooms, at most min(limit, 100) (default 20), newest first, with the total count of matching rooms |
| RoomViews.Page | backend/rooms/views.py:398-401 | the page is the first `cap` matching rooms, newest first, and no omitted room is newer than one listed |
| RoomViews.PageFacts | backend/rooms/views.py:398-401 | the total equals the number of matching rooms and the page is a distinct, newest-first prefix of them |
| RoomViews.ListedPrefixIsNewest | backend/rooms/views.py:401 | every room cut off by the slice is no newer than any room on the page |
| Channels.GroupAdd | backend/rooms/consumers.py:56-59 | the channel becomes a member of the group and no other group changes |
| Channels.GroupDiscard | backend/rooms/consumers.py:80-102 | the channel leaves the group and no other group changes |
| Channels.AddThenDiscard | backend/rooms/consumers.py:56-102 | joining and then leaving restores the group's members |
| Channels.GroupAddIdempotent | backend/rooms/consumers.py:56-59 | adding a channel twice is the same as adding it once |
| Consumer.ParamsOfLastWins | backend/rooms/consumers.py:25-31 | a query key is present iff some `key=value` segment names it, and its value comes from the last such segment |
| Consumer.ParamsOfStep | backend/rooms/consumers.py:25-31 | each further segment adds or overwrites its own key and leaves the others |
| Consumer.ParseQueryIgnoresGuard | backend/rooms/consumers.py:25-31 | the guard for an empty query string changes no result |
| Consumer.Wire | backend/rooms/consumers.py:288-352 | every message sent to a client is a JSON object whose `type` is that message's tag |
| Consumer.Deliver | backend/rooms/consumers.py:335-343 | a consumer forwards a group event unchanged, and drops it exactly when it is targeted at another participant |
| Consumer.GroupSend | backend/rooms/consumers.py:288-352 | exactly the group members with an open consumer that accepts the event receive it, each the same message |
| Consumer.BroadcastReachesAll | backend/rooms/consumers.py:288-333 | a broadcast reaches every open member of the group, the sender included |
| Consumer.TargetedReachesOnlyTarget | backend/rooms/consumers.py:335-343 | a targeted signal reaches exactly the members whose participant id equals the target, and nobody when the target is not a string |
| Consumer.GroupName | backend/rooms/consumers.py:22 | the group name is the prefix `room_` followed by the room id exactly as given |
| Consumer.CaseSplitsGroups | backend/rooms/consumers.py:22 | any two different spellings of a room code that upper-case to the same code (and so reach the same room) get different groups |
| Consumer.Connect | backend/rooms/consumers.py:18-78 | a missing or empty participant id closes without a code; an unknown room closes with 4404; a participant who is not a connected member closes with 4403; only the accepted case joins the group and announces the participant |
| Consumer.CloseCodesPrivate | backend/rooms/consumers.py:47-53 | every close code used lies in the private-use range 4000-4999 of section 7.4.2 of RFC 6455 |
| Consumer.Disconnect | backend/rooms/consumers.py:80-102 | for any connection attempt, the channel leaves the group of the room id in the URL, no other group changes, and that group is told that the attempt's participant id (possibly none) left; the participant record is not touched |
| Consumer.AcceptedLeaveUndoesJoin | backend/rooms/consumers.py:18-102 | closing an accepted connection announces the participant it was accepted for and restores the group's membership |
| Consumer.RefusedHandshakeAnnouncesLeave | backend/rooms/consumers.py:18-102 | after a refused handshake the room's group is still told that the presented participant id (or `None`) left, and its membership is unchanged |
| Consumer.Classify | backend/rooms/consumers.py:104-125 | each of `translation_request`, `chat_message`, `webrtc_signal` and `participant_status` selects its handler exactly when it is the message's `type`; a message that does not parse, is not an object or has any other `type` is dropped |
| Consumer.HandleTranslation | backend/rooms/consumers.py:127-166 | falsy landmarks do nothing; the sender alone receives the error exactly when the translator raises; otherwise the whole group receives the translator's sign, confidence, success and message for the requester; the store is unchanged |
| Consumer.ListLandmarksAlwaysBroadcast | backend/rooms/consumers.py:127-166 | a non-empty list of landmarks always yields a result broadcast to the group |
| Consumer.SenderName | backend/rooms/consumers.py:384-394 | the sender's stored name when the sender belongs to the room, otherwise "Participante"; a non-string sender never matches, since participant ids are `uuid4` texts |
| Consumer.HandleChat | backend/rooms/consumers.py:168-202 | a message that is blank after stripping is dropped; otherwise the group receives the stripped text, the sender id (default: the connection's) and the sender's name |
| Consumer.HandleSignal | backend/rooms/consumers.py:204-248 | the signal is always sent on; a falsy target broadcasts it and any other target addresses it to that participant |
| Consumer.ToBoolField | backend/rooms/consumers.py:396-411 | how the ORM reads a boolean field: booleans as themselves, 1 and 0 as true and false, the usual true and false strings, and no value for anything else |
| Consumer.UpdateStatus | backend/rooms/consumers.py:396-411 | only the named participant of this room changes, and only its camera and microphone flags; null keeps a flag; a value that does not convert fails the save; an unknown participant changes nothing |
| Consumer.HandleStatus | backend/rooms/consumers.py:250-284 | the status is broadcast, with the values as received, iff the save succeeds; a failed save changes nothing |
| Consumer.Receive | backend/rooms/consumers.py:104-125 | each of the four message types runs its own handler; unrecognised input does nothing; only a status message writes the store; only a translation request answers its own sender |
| Consumer.ChatFromConnection | backend/rooms/consumers.py:168-202 | a chat frame without a participant id is attributed to the connection that sent it |
| Consumer.ChatReachesWholeGroup | backend/rooms/consumers.py:168-202 | a non-blank chat message reaches every open connection of the group, the sender's own included |
| Consumer.SignalReachesOnlyTarget | backend/rooms/consumers.py:204-248 | a signal addressed to a participant reaches only that participant's connections |
| SignTranslator.PointsFeatures | backend/translator/services/sign_translator.py:109-118 | a part with fewer points than required contributes only zeros; otherwise triple `i` of the result is the coordinates of point `i`, extra points ignored |
| SignTranslator.PoseFeatures | backend/translator/services/sign_translator.py:120-127 | eighteen numbers: for each of the six named joints in order, its coordinates or three zeros when absent |
| SignTranslator.FrameToFeatures | backend/translator/services/sign_translator.py:103-141 | 204 numbers: 60 for the first 20 face points, 18 for the six pose joints, then 63 for each of the left and right hands |
| SignTranslator.PointsOf | backend/translator/services/sign_translator.py:113-114 | a list of points is read iff every entry has numeric `x`, `y` and `z`, entry by entry |
| SignTranslator.JsonFrameFeatures | backend/translator/services/sign_translator.py:103-141 | a frame that is not an object cannot be read; any frame that can be read gives 204 numbers |
| SignTranslator.PointRoundTrip | backend/translator/services/sign_translator.py:113-114 | reading back an encoded point gives the point |
| SignTranslator.PointsRoundTrip | backend/translator/services/sign_translator.py:113-114 | reading back an encoded list of points gives the list |
| SignTranslator.HandRoundTrip | backend/translator/services/sign_translator.py:129-139 | the features read from an encoded point list equal the features of the list itself |
| SignTranslator.PoseRoundTrip | backend/translator/services/sign_translator.py:120-127 | the features read from an encoded pose equal the pose's own features |
| SignTranslator.FrameRoundTrip | backend/translator/services/sign_translator.py:103-141 | reading the features of an encoded frame gives exactly the frame's own 204 features |
| SignTranslator.RoundHalfEven | backend/translator/services/sign_translator.py:97 | rounding a quotient gives its floor or the next integer, and an exact quotient unchanged |
| SignTranslator.SourceIndex | backend/translator/services/sign_translator.py:91-99 | each resampled position picks an existing frame; the first picks the first frame and the last picks the last |
| SignTranslator.NormalizeSequenceLength | backend/translator/services/sign_translator.py:83-101 | the result has the target length, keeps a sequence already of that length, only contains input frames, and starts and ends with the input's first and last frames |
| SignTranslator.ConcatRows | backend/translator/services/sign_translator.py:76-79 | concatenating rows of 204 numbers gives a vector whose `k`-th block of 204 is row `k` |
| SignTranslator.SequenceToFeatures | backend/translator/services/sign_translator.py:65-81 | fewer than five frames give no vector; otherwise the vector is 16 blocks of 204, block `k` being the features of the `k`-th resampled frame |
| SignTranslator.JsonRows | backend/translator/services/sign_translator.py:76-79 | the rows are read iff every frame can be read, row `k` being frame `k`'s features |
| SignTranslator.JsonSequenceFeatures | backend/translator/services/sign_translator.py:65-81 | too few frames is reported as such, and any vector has 16 x 204 numbers |
| SignTranslator.NormalizeEncoded | backend/translator/services/sign_translator.py:83-101 | resampling commutes with encoding frames |
| SignTranslator.RowsRoundTrip | backend/translator/services/sign_translator.py:76-79 | reading the rows of encoded frames gives each frame's own features |
| SignTranslator.SequenceRoundTrip | backend/translator/services/sign_translator.py:65-81 | the features read from encoded frames equal the features of the frames themselves |
| SignTranslator.LabelOf | backend/translator/services/sign_translator.py:193 | a class index without a label maps to "desconocido"; otherwise to a label registered for that index |
| SignTranslator.LabelOfRegistered | backend/translator/services/sign_translator.py:46-193 | when each index occurs once, as in the dictionary the table stands for, every registered index maps to its own label |
| SignTranslator.Predict | backend/translator/services/sign_translator.py:143-218 | not loaded → "Modelo no cargado"; empty or shorter than five → "Secuencia muy corta"; a length-less value raises; success only with the classifier's label and a confidence at or above the threshold; a low-confidence reply comes only from a readable list and carries the classifier's label and confidence without success; conversely, a readable list always gets the classifier's label and confidence, as a success iff the confidence reaches the threshold |
| SignTranslator.NoProcessingError | backend/translator/services/sign_translator.py:177-185 | the "Error procesando landmarks" branch is unreachable, because the length is checked before it |
| SignTranslator.ThresholdDecides | backend/translator/services/sign_translator.py:188-209 | for well-formed frames the reply carries the classifier's label and confidence, and succeeds iff the confidence reaches the threshold |
| SignTranslator.AvailableSigns | backend/translator/services/sign_translator.py:220-227 | no signs unless loaded; otherwise exactly the model's labels, in order |
| SignTranslator.GetModelInfo | backend/translator/services/sign_translator.py:229-249 | reports whether the model is loaded, its signs and their count (zero when not loaded) |
| SignTranslator.LoadModel | backend/translator/services/sign_translator.py:32-56 | succeeds iff the model loads, and then holds its labels; a load error marks the service unloaded; a missing file changes nothing |
| SignTranslator.ReloadModel | backend/translator/services/sign_translator.py:58-63 | the reply is whether the service is now loaded; a failure leaves it unloaded with its old labels |
| SignTranslator.FailedReloadHidesSigns | backend/translator/services/sign_translator.py:58-63 | after a failed reload no sign is offered and the model info reports nothing loaded |
| TranslatorViews.MissingKeys | backend/translator/views.py:76-82 | lists exactly the required frame keys absent from the frame |
| TranslatorViews.FrameProblemNoneIffShapeOk | backend/translator/views.py:68-82 | a frame passes validation iff it is an object holding all four landmark keys |
| TranslatorViews.FirstProblem | backend/translator/views.py:68-82 | no problem iff every frame from the start index is well shaped; otherwise the problem of the first bad frame |
| TranslatorViews.MinConfidence | backend/translator/views.py:63-65 | a number in [0, 1] is used as given; anything else is replaced by 0.4 |
| TranslatorViews.PredictSigns | backend/translator/views.py:43-118 | missing or falsy landmarks → 400; landmarks that are not a list → 400; a reply is produced iff the list is non-empty and every frame is well shaped, and it carries the frame count, the threshold used and the service's prediction |
| TranslatorViews.ShapedFramesPredict | backend/translator/views.py:68-110 | a non-empty list of well-shaped frames always gets a prediction reply |
| TranslatorViews.PredictReportsFirstBadFrame | backend/translator/views.py:68-82 | a frame error names the first frame that is not an object or lacks a key |
| TranslatorViews.ShortSequenceIsNotAnError | backend/translator/views.py:85-110 | fewer than five well-shaped frames give an ordinary reply, not an HTTP error, with success false and the "too short" message |
| TranslatorViews.TextToSpeech | backend/translator/views.py:275-284 | a falsy text → 400; otherwise the reply and the queue are those of `speak_text` with the given priority (default "normal"); a refused or failed request leaves the queue unchanged |
| TranslatorViews.SpeechToText | backend/translator/views.py:292-307 | no audio → 400; otherwise the transcription result, in the default language |
| TranslatorViews.HealthCheck | backend/translator/views.py:239-261 | healthy iff the model is loaded, with its number of signs, or zero when not loaded |
| TranslatorViews.AvailableSignsView | backend/translator/views.py:204-222 | the signs, their count, and whether the model is loaded; no signs when not loaded |
| TranslatorViews.ReloadView | backend/translator/views.py:163-188 | reports success iff the model loads, with its signs and their count; a failure leaves the model unloaded |
| SpeechService.InitialTts | backend/translator/services/speech_service.py:20-36 | a new engine has an empty queue within its capacity of ten and is not processing |
| SpeechService.ClearQueue | backend/translator/services/speech_service.py:287-294 | the queue is emptied and nothing else changes |
| SpeechService.SpeakText | backend/translator/services/speech_service.py:70-137 | unavailable or blank text is refused and nothing changes; a request succeeds iff it is high priority or the queue has room; on success the preprocessed item is appended (after clearing, for high priority) and the reply gives the new size; the queue never exceeds ten |
| SpeechService.Enqueue | backend/translator/services/speech_service.py:98-130 | the item is queued iff the queue (emptied first for high priority) holds fewer than ten; a full queue refuses and changes nothing |
| SpeechService.HighPriorityLeavesOnlyItself | backend/translator/services/speech_service.py:100-101 | with nothing draining the queue, a high-priority request leaves only itself queued |
| SpeechService.FullQueueRefuses | backend/translator/services/speech_service.py:125-130 | a normal request on a full queue is refused with the "queue full" reply and changes nothing |
| SpeechService.CleanChars | backend/translator/services/speech_service.py:144-146 | no double quote, back quote or dollar sign survives the clean-up |
| SpeechService.Preprocess | backend/translator/services/speech_service.py:139-168 | the text handed to the speech engine never holds a double quote, a back quote or a dollar sign, even after the abbreviations are expanded |
| SpeechService.AbbreviationsWellFormed | backend/translator/services/speech_service.py:149-163 | every abbreviation is a non-empty word starting with an upper-case letter, and no expansion holds a quote or a dollar sign |
| SpeechService.ExpansionsKeepAbsent | backend/translator/services/speech_service.py:165-166 | a character absent from the text and from every expansion is still absent after all replacements |
| SpeechService.PreprocessLowerCase | backend/translator/services/speech_service.py:149-166 | text without upper-case letters gets no abbreviation expanded: preprocessing only strips and cleans it |
| SpeechService.UpdateConfig | backend/translator/services/speech_service.py:307-313 | only existing keys are updated, to the given values; unknown keys are ignored and the key set never changes |
| SpeechService.UpdateConfigIdempotent | backend/translator/services/speech_service.py:307-313 | applying the same update twice equals applying it once, and the default key set is kept |
| SpeechService.InitialStt | backend/translator/services/speech_service.py:327-337 | a new recogniser defaults to a supported language |
| SpeechService.SetDefaultLanguage | backend/translator/services/speech_service.py:471-476 | the default changes iff the language is supported; otherwise nothing changes |
| SpeechService.ChooseLanguage | backend/translator/services/speech_service.py:370-375 | a supported requested language is used, any other request falls back to the default, and the result is always supported |
| SpeechService.TranscribeMessageText | backend/translator/services/speech_service.py:361-431 | every failure reply carries a non-empty message |
| SpeechService.Transcribe | backend/translator/services/speech_service.py:350-431 | unavailable → failure with no language; otherwise the chosen language is reported, success iff speech was recognised, and the text is the post-processed transcript (empty on failure) |
| SpeechService.PostprocessSpanish | backend/translator/services/speech_service.py:433-460 | empty text stays empty |
| SpeechService.NoCorrectionApplies | backend/translator/services/speech_service.py:453-458 | when no listed word occurs in the lower-cased text, the correction loop changes nothing |
| SpeechService.PostprocessPlain | backend/translator/services/speech_service.py:433-460 | text without any listed word comes back only stripped and capitalised |
| WsClient.On | FRONTEND/src/services/websocket.js:101-106 | the callback is appended to that event's listeners; other events and the connection are untouched |
| WsClient.Without | FRONTEND/src/services/websocket.js:113-117 | every occurrence of the callback is removed and each other callback keeps its number of occurrences |
| WsClient.WithoutAppend | FRONTEND/src/services/websocket.js:113-117 | removing a callback from two joined lists is removing it from each |
| WsClient.Off | FRONTEND/src/services/websocket.js:113-117 | the callback no longer listens to that event; other events and the connection are untouched |
| WsClient.OffUndoesOn | FRONTEND/src/services/websocket.js:101-117 | registering a new callback and then removing it restores the listener list |
| WsClient.Emit | FRONTEND/src/services/websocket.js:124-134 | every listener of the event is called in order, and exactly those that throw are reported, without stopping the others |
| WsClient.HandleMessage | FRONTEND/src/services/websocket.js:140-176 | a message is dispatched iff its `type` is one of the seven server message types (`participant_joined`, `participant_left`, `chat_message`, `translation_result`, `webrtc_signal`, `participant_status_update`, `error`), and under that event name |
| WsClient.ServerMessagesAreHandled | FRONTEND/src/services/websocket.js:140-176 | every message the consumer sends is dispatched under its own type |
| WsClient.Connect | FRONTEND/src/services/websocket.js:20-36 | a socket is opened with the room and participant ids stored; the connected flag, the listeners and the attempt count are kept as they were |
| WsClient.SwitchingRoomsStaysConnected | FRONTEND/src/services/websocket.js:20-36 | connecting again without disconnecting leaves the client connected, so `send` hands messages to the socket that is still opening |
| WsClient.QueryRoundTrip | FRONTEND/src/services/websocket.js:27 | the consumer reads back the participant id the client put in the URL |
| WsClient.OnOpen | FRONTEND/src/services/websocket.js:31-36 | the client is connected and the attempt counter is reset |
| WsClient.OnClose | FRONTEND/src/services/websocket.js:47-51 | the client is disconnected; a retry is scheduled iff fewer than five attempts were made and both ids are set, after 2 s times the new attempt number |
| WsClient.AttemptsBounded | FRONTEND/src/services/websocket.js:181-195 | the attempt counter never exceeds five and no retry waits more than 10 s |
| WsClient.AtMostFiveRetries | FRONTEND/src/services/websocket.js:181-195 | however many times the socket closes, at most five retries follow in total |
| WsClient.Disconnect | FRONTEND/src/services/websocket.js:74-82 | the socket and both ids are dropped; listeners are kept |
| WsClient.DisconnectStopsReconnecting | FRONTEND/src/services/websocket.js:74-82 | after an explicit disconnect a close event schedules no retry |
| WsClient.Send | FRONTEND/src/services/websocket.js:88-94 | a message goes out unchanged iff the client counts as connected and holds a socket; otherwise nothing is sent |
| WsClient.Envelope | FRONTEND/src/services/websocket.js:203-221 | a chat message or translation request carries exactly its type, its payload field and the client's participant id |
| WsClient.StatusEnvelope | FRONTEND/src/services/websocket.js:227-233 | a status update carries every given field; its type and participant id are the defaults unless the fields override them |
| WsClient.EnvelopesAreRouted | FRONTEND/src/services/websocket.js:203-233 | the consumer routes the chat, translation and status envelopes to their own handlers |
| WsClient.StatusTypeOverridden | FRONTEND/src/services/websocket.js:227-233 | a status whose fields include another `type` overrides the default and is dropped by the consumer |
| MediaPipe.ToPoint | FRONTEND/src/services/mediapipe.js:264-317 | a landmark keeps `x` and `y`; a missing `z` becomes 0 |
| MediaPipe.ToPoints | FRONTEND/src/services/mediapipe.js:264-317 | converts a landmark list point by point |
| MediaPipe.PoseNamesAgree | FRONTEND/src/services/mediapipe.js:276-296 | the browser sends exactly the six pose joints the server reads, taken from landmarks 11 to 16 |
| MediaPipe.FacePart | FRONTEND/src/services/mediapipe.js:264-273 | no face points unless at least 20 are detected, and then exactly the first 20 |
| MediaPipe.PosePart | FRONTEND/src/services/mediapipe.js:276-296 | a joint is present iff the pose has its landmark, with that landmark's coordinates |
| MediaPipe.HandPart | FRONTEND/src/services/mediapipe.js:299-317 | all detected hand points, or none without a hand |
| MediaPipe.Extract | FRONTEND/src/services/mediapipe.js:251-326 | no frame when every part is empty; otherwise the frame made of the four parts |
| MediaPipe.FaceTruncationHarmless | FRONTEND/src/services/mediapipe.js:264-273 | cutting the face to 20 points gives the server the same face features as sending them all |
| MediaPipe.Wire | FRONTEND/src/services/mediapipe.js:332-339 | every buffered frame passes the server's shape check and carries its timestamp in seconds |
| MediaPipe.WireFeatures | FRONTEND/src/services/mediapipe.js:332-339 | the server reads from a sent frame exactly the features of the frame captured |
| MediaPipe.AddToBuffer | FRONTEND/src/services/mediapipe.js:332-339 | the frame is appended; at 25 frames the oldest is dropped first, so the buffer never grows past 25 |
| MediaPipe.BufferKeepsNewest | FRONTEND/src/services/mediapipe.js:332-339 | the buffer holds the newest frames, up to 25, ending with the one just added |
| MediaPipe.CheckForPrediction | FRONTEND/src/services/mediapipe.js:344-359 | a hand-over is due iff a second has passed and at least ten frames are buffered; then the time is recorded and, if a callback is set, the whole buffer is sent |
| MediaPipe.OnResults | FRONTEND/src/services/mediapipe.js:121-140 | results are ignored unless capturing and non-empty; otherwise the frame is buffered and a hand-over checked; the buffer stays within 25 |
| MediaPipe.HandOverShape | FRONTEND/src/services/mediapipe.js:121-140 | a hand-over carries ten to twenty-five frames, the newest last, at least a second after the previous one |
| MediaPipe.SameSequenceFeatures | backend/translator/services/sign_translator.py:65-81 | two frame lists whose frames read the same give the same sequence features |
| MediaPipe.WiresFeatures | FRONTEND/src/services/mediapipe.js:344-359 | the server's features for a sent buffer are exactly the features of the captured frames |
| MediaPipe.CapturedSequencePredicts | FRONTEND/src/services/mediapipe.js:344-359 | every buffer the browser sends passes the server's validation and gets a prediction reply |
| MediaPipe.Initialize | FRONTEND/src/services/mediapipe.js:33-80 | the service is initialised iff it already was or the setup succeeds; capture state is untouched |
| MediaPipe.StartCapture | FRONTEND/src/services/mediapipe.js:86-103 | refused when not initialised; starts capturing iff the camera starts, and otherwise reports the camera failure |
| MediaPipe.StopCapture | FRONTEND/src/services/mediapipe.js:108-115 | capturing stops and the buffer is emptied |
| MediaPipe.StoppedIgnoresResults | FRONTEND/src/services/mediapipe.js:108-140 | after stopping, incoming results change nothing and send nothing |
| MediaPipe.Cleanup | FRONTEND/src/services/mediapipe.js:389-403 | not capturing, not initialised, empty buffer |
| MediaPipe.CleanupNeedsInitialize | FRONTEND/src/services/mediapipe.js:389-403 | after clean-up, capture cannot start until the service is initialised again |
| MediaPipe.SetCallbacks | FRONTEND/src/services/mediapipe.js:380-384 | a given callback is installed, an omitted one is kept, and capture state is untouched |
| MediaPipe.GetStatus | FRONTEND/src/services/mediapipe.js:365-374 | reports capturing and the buffer size, which never exceeds the maximum of 25 |
| SpeechRecognition.CollectPartitions | FRONTEND/src/services/speechRecognition.js:50-73 | every result from the given index lands in exactly one of the final or interim transcripts: the two transcripts' characters, taken together as a multiset, are exactly those of all the results' text |
| SpeechRecognition.AllFinal | FRONTEND/src/services/speechRecognition.js:50-73 | when every result is final, the final transcript is all the text and the interim one is empty |
| SpeechRecognition.OnResult | FRONTEND/src/services/speechRecognition.js:50-73 | final and interim text are the trimmed concatenations of the final and non-final results from the index; the confidence is the first result's, or 0 when there is none |
| SpeechRecognition.Init | FRONTEND/src/services/speechRecognition.js:23-42 | not listening, language es-ES; a recogniser exists iff the browser supports one |
| SpeechRecognition.StartListening | FRONTEND/src/services/speechRecognition.js:95-110 | unsupported, already listening, or a start request, and exactly one of the three |
| SpeechRecognition.OnStart | FRONTEND/src/services/speechRecognition.js:44-48 | the recogniser is listening; language and callbacks are untouched |
| SpeechRecognition.StartedRefusesStart | FRONTEND/src/services/speechRecognition.js:95-110 | once started, a second start is refused, and after the end event a start is accepted again |
| SpeechRecognition.OnEnd | FRONTEND/src/services/speechRecognition.js:84-88 | the recogniser stops listening; language and callbacks are untouched |
| SpeechRecognition.OnError | FRONTEND/src/services/speechRecognition.js:75-82 | listening stops, and the error callback, if set, receives the Spanish message for the code |
| SpeechRecognition.Abort | FRONTEND/src/services/speechRecognition.js:124-129 | with a recogniser, listening stops; without one, nothing changes |
| SpeechRecognition.SetLanguage | FRONTEND/src/services/speechRecognition.js:135-140 | the current language is set, and passed to the recogniser when there is one |
| SpeechRecognition.SetCallbacks | FRONTEND/src/services/speechRecognition.js:146-151 | given callbacks are installed and omitted ones kept |
| SpeechRecognition.ErrorMessage | FRONTEND/src/services/speechRecognition.js:158-171 | a known code gives its fixed text; any other code gives the "unknown error" prefix followed by the code |
| SpeechRecognition.KnownTextLacksPrefix | FRONTEND/src/services/speechRecognition.js:158-171 | no fixed text starts with the "unknown error" prefix |
| SpeechRecognition.ErrorMessagesDistinguishable | FRONTEND/src/services/speechRecognition.js:158-171 | a known code and an unknown code never give the same message |
| SpeechRecognition.ServerReply | FRONTEND/src/services/speechRecognition.js:289-314 | missing audio reports the upload error; a successful transcription goes to the result callback with confidence 1; any other reply reports the server's message |
| SpeechRecognition.DefaultErrorNeverShown | FRONTEND/src/services/speechRecognition.js:300-308 | the client's fallback "error en transcripción" text is never shown, because the server always supplies a message |
| SpeechRecognition.MessageIsNotDefault | backend/translator/services/speech_service.py:361-431 | no server failure message equals the client's fallback text |
| SpeechRecognition.RecognizedReachesCallback | FRONTEND/src/services/speechRecognition.js:289-314 | recognised speech reaches the result callback as the server's post-processed transcript |
| SpeechRecognition.Create | FRONTEND/src/services/speechRecognition.js:342-353 | the browser recogniser is chosen iff the browser supports it, freshly initialised; otherwise the server-side service |
| ApiClient.StrOr | FRONTEND/src/services/api.js:33-39 | a non-empty string is kept; a missing or empty one is replaced by the default |
| ApiClient.CreatePayload | FRONTEND/src/services/api.js:31-44 | every field is sent; the name is never empty; the capacity is the given one unless falsy, then 10; each feature is enabled unless explicitly false |
| ApiClient.ClientCreate | FRONTEND/src/services/api.js:31-44 | the server creates the room iff the client's capacity is accepted, under the client's name, with the client's feature choices |
| ApiClient.ZeroCapacityBecomesTen | FRONTEND/src/services/api.js:33-39 | a capacity of 0 sent through the client creates a ten-person room, while 0 sent directly is refused |
| ApiClient.JoinPayload | FRONTEND/src/services/api.js:52-65 | every field is sent: a non-empty name; camera and microphone on unless explicitly false; deaf and mute off unless explicitly true |
| ApiClient.JoinDefaultsAgree | FRONTEND/src/services/api.js:54-60 | filling in the client's defaults gives the same join result as sending the raw request, unless the name is empty |
| ApiClient.ListQuery | FRONTEND/src/services/api.js:103-114 | an empty status is omitted; a zero limit is omitted; any other limit is sent as given |
| ApiClient.ClientListing | FRONTEND/src/services/api.js:103-114 | a listing through the client fails iff the limit is negative, and a zero limit yields the default page of twenty |
| ApiClient.PredictBody | FRONTEND/src/services/api.js:124-134 | the landmarks are sent with the given threshold, or 0.4 when none is given |
| ApiClient.DefaultThresholdAgrees | FRONTEND/src/services/api.js:124-134 | the client's default threshold is the one the server uses |
| ApiClient.CapturedBufferAccepted | FRONTEND/src/services/api.js:124-134 | a captured buffer posted through the client always gets a prediction reply, at the default threshold |
| ApiClient.ErrorText | FRONTEND/src/services/api.js:42 | the message is the operation's prefix followed by the server's error when there is one, else the transport error |
| ApiClient.RefusedJoinExplained | FRONTEND/src/services/api.js:52-65 | a refused join shows the prefix and the server's reason, which is "room ended" or "room full" |
| Json.Get | backend/translator/views.py:49 | a key is found iff the value is an object holding it |
| Json.GetOr | backend/rooms/views.py:142-146 | the field's value when present, otherwise the default |
| Json.JsOr | FRONTEND/src/services/api.js:33-39 | the left value when it is truthy in JavaScript, otherwise the right one |
| Json.PyNumber | backend/translator/views.py:63-65 | ints, floats and booleans read as numbers the way Python compares them |
| Json.PyLen | backend/translator/services/sign_translator.py:167 | only strings, lists and objects have a length, and a list's length is its item count |
| Json.SizedTruthiness | backend/translator/services/sign_translator.py:167 | a value with a length is truthy in Python iff that length is positive |
| WebRtc.Find | FRONTEND/src/services/webrtcService.js:240-295 | a found peer is in the map under that id; no peer means no entry has the id |
| WebRtc.Remove | FRONTEND/src/services/webrtcService.js:366-388 | exactly the peers with another id remain, with no duplicates created |
| WebRtc.Put | FRONTEND/src/services/webrtcService.js:173-178 | the new peer is stored, the peers with other ids are kept, and nothing else is added |
| WebRtc.FindPut | FRONTEND/src/services/webrtcService.js:173-178 | a peer just stored is the one found under its id |
| WebRtc.ClosePeer | FRONTEND/src/services/webrtcService.js:366-388 | the peer and its stream are gone and nothing else is removed; a removal is reported only if it had a stream; when no peer remains the call ends and that is reported; other settings are unchanged |
| WebRtc.ClosingAbsentPeerOfEmptyMap | FRONTEND/src/services/webrtcService.js:366-388 | closing an unknown peer when no peer is left still reports the end of the call |
| WebRtc.CloseEachFacts | FRONTEND/src/services/webrtcService.js:393-397 | after closing a list of ids exactly the other peers and streams remain, and the call is over once no peer is left |
| WebRtc.CloseAll | FRONTEND/src/services/webrtcService.js:393-397 | no peer remains, their streams are gone, and an active call ends; with no peers nothing happens |
| WebRtc.CloseEachEvents | FRONTEND/src/services/webrtcService.js:393-397 | closing every peer reports one removal per peer with a stream, in map order, then a single end of call |
| WebRtc.EndCall | FRONTEND/src/services/webrtcService.js:344-360 | with a target: that peer is told the call ended and closed; without one: every peer is told, in order, and all are closed |
| WebRtc.EndedToEach | FRONTEND/src/services/webrtcService.js:344-360 | one "call ended" message per peer id, in order, and none without a WebSocket |
| WebRtc.EndAllTellsEveryPeer | FRONTEND/src/services/webrtcService.js:344-360 | ending all calls leaves no peer, and every former peer was sent "call ended" |
| WebRtc.CreatePeer | FRONTEND/src/services/webrtcService.js:173-222 | looking up the id afterwards finds exactly a fresh peer without a description, whatever was registered under it before; other peers are kept |
| WebRtc.StartCall | FRONTEND/src/services/webrtcService.js:105-138 | without a local stream only the error callback fires; otherwise the target is registered with the offer as its local description, the others are kept, and a call request is sent |
| WebRtc.AcceptedCallSendsOffer | FRONTEND/src/services/webrtcService.js:105-138 | when a started call is accepted, exactly the stored offer is sent to that peer and the call starts |
| WebRtc.RefusedCallClosesPeer | FRONTEND/src/services/webrtcService.js:240-259 | when a started call is refused, no peer with that id remains |
| WebRtc.RespondToCall | FRONTEND/src/services/webrtcService.js:145-167 | a refusal only answers "not accepted"; an acceptance answers, registers the caller as a peer and starts the call |
| WebRtc.HandleCallResponse | FRONTEND/src/services/webrtcService.js:240-259 | a falsy answer closes the peer; a truthy one sends the stored offer and starts the call, and does nothing when there is no peer or no offer |
| WebRtc.HandleOffer | FRONTEND/src/services/webrtcService.js:266-295 | the caller always ends up registered; with a local stream its description becomes the answer and the answer is sent; without one the error callback fires; the call flag is untouched |
| WebRtc.OnTrack | FRONTEND/src/services/webrtcService.js:181-190 | the peer's stream is recorded and reported; the peers are untouched |
| WebRtc.OnIceCandidate | FRONTEND/src/services/webrtcService.js:193-200 | a candidate is sent to the peer; the end-of-candidates event sends nothing |
| WebRtc.OnConnectionState | FRONTEND/src/services/webrtcService.js:203-214 | every state change is reported; only "failed" and "disconnected" also close the peer; no peer is ever added |
| WebRtc.HandleCallEnded | FRONTEND/src/services/webrtcService.js:335-338 | the remote peer that hung up is closed |
| WebRtc.Toggle | FRONTEND/src/services/webrtcService.js:403-427 | without a local stream nothing changes; otherwise the track's flag is set to the given state, or flipped, and nothing else changes, the other track included; the new flag is returned |
| WebRtc.ToggleTwice | FRONTEND/src/services/webrtcService.js:403-427 | toggling twice restores the state |
| WebRtc.SetCallbacks | FRONTEND/src/services/webrtcService.js:458-460 | given callbacks replace the old ones, the others are kept, and the peers are untouched |
| WebRtc.SignalingMessage | FRONTEND/src/services/webrtcService.js:434-452 | a message is sent iff there is a WebSocket: the type, the room and participant ids, the target, then the extra fields, which may override the type |
| WebRtc.SignalingDroppedByServer | FRONTEND/src/services/webrtcService.js:434-452 | every signalling message the service sends is dropped by the consumer, and no client would dispatch it either |
| WebRtc.HangUpIsLost | FRONTEND/src/services/webrtcService.js:344-360 | hanging up on peer "B" sends a message the consumer drops |
| WebRtc.RoutedSignal | backend/rooms/consumers.py:204-248 | the corrected message is a `webrtc_signal` whose target is the peer |
| WebRtc.Outgoing | FRONTEND/src/services/webrtcService.js:434-452 | in the corrected form every message sent is a `webrtc_signal`, at most one per event |
| WebRtc.RoutedSignalReachesTarget | backend/rooms/consumers.py:204-248 | the corrected message is routed as a targeted signal, reaches exactly the named peer's connections, is dispatched there as `webrtc_signal`, and carries the original type and data |
| WebRtc.GetStatus | FRONTEND/src/services/webrtcService.js:493-501 | reports the call, mute and video flags and the number of peers |
| WebRtc.Cleanup | FRONTEND/src/services/webrtcService.js:506-515 | no peer, no stream, no WebSocket and no ids remain |
| Text.Strip | backend/rooms/consumers.py:180 | the result is the input with its leading and trailing white space removed: empty iff the input is all white space, otherwise starting and ending with non-space |
| Text.StripIdempotent | backend/translator/services/speech_service.py:139-141 | stripping twice equals stripping once |
| Text.ReplaceKeepsAbsent | backend/translator/services/speech_service.py:144-146 | a replacement cannot introduce a character found in neither the text nor the replacement |
| Text.ReplaceCharRemoves | backend/translator/services/speech_service.py:144-146 | replacing a character by text that lacks it removes every occurrence |
| Text.Split | backend/rooms/consumers.py:25-31 | splitting gives at least one part, and no part holds the separator |
| Text.JoinSplit | backend/rooms/consumers.py:25-31 | joining the parts with the separator gives back the original string |
| Text.Upper | backend/rooms/views.py:130 | upper-cases character by character and keeps the length |
| Text.UpperIdempotent | backend/rooms/views.py:130 | upper-casing an upper-cased code changes nothing |
| Text.Capitalize | backend/translator/services/speech_service.py:439 | the first character upper-cased and all the others lower-cased, length kept |

## Left out

- Persistence: the Django ORM, the database, migrations and admin are left out. The store is a pair of maps, and `created_at` ordering is a given sequence.
- Timestamps are integer seconds, or milliseconds in the browser. ISO formatting of dates in replies is left out.
- Python exception texts are left out. A 500 reply, or an "Error interno" message, keeps only its fixed prefix, because the exception text depends on library internals. The one exception is the unknown-room 500 of the join, status and leave views, whose text is the fixed message of Django's `get_object_or_404`.
- Case mapping is ASCII only. `str.upper`, `str.lower` and `str.capitalize` do full Unicode mapping.
- Randomness is a parameter: the candidate room ids are given as draws. `uuid4` session ids are also given.
- Concurrency and async execution are left out: Channels' async handlers, `database_sync_to_async`, and the TTS worker thread. Each handler is one atomic step.
- Model loading is left out: the pickle file and scikit-learn. The classifier is a function parameter. `LoadModel` receives the outcome of reading the file.
- Floating-point probabilities and `max(probabilities)` are left out. The confidence is a real number returned by the classifier.
- The formatted confidence number in the low-confidence message is left out. The model keeps the two numbers, not their `%.2f` text.
- Processing time in the translator views is left out. It is a clock reading.
- The temporary-file handling and the audio decoding in `SpeechToTextView` and `transcribe_audio_file` are left out. The recogniser's outcome is a parameter.
- The TTS synthesis worker, the `espeak` subprocess, `test_voice`, and the `get_status` of both speech services are left out: they are I/O with no decision of their own.
- The join request's `has_camera`, `has_microphone`, `is_deaf` and `is_mute` are booleans in the model. A non-boolean value, which the ORM would convert or reject when saving, is not modelled.
- RoomViews.CreateRoom: the create request's `translation_enabled`, `stt_enabled` and `tts_enabled` are absent or booleans in the model. An explicit JSON `null` or a non-boolean value reaches `Room.objects.create`, where the non-nullable boolean column converts it or makes the save fail with a 500 reply; that path is not modelled, because the ORM's conversion rules are outside the model.
- WebSocket client: the connect timeout and the Promise wrapper are left out. The URL is modelled as its path and query, without percent-encoding.
- WsClient.Connect: the socket replaced by a second `connect` is not closed, and its later `onclose` (which clears the connected flag and may schedule a reconnection) is not modelled, because socket events are inputs to the model rather than consequences of earlier calls.
- API client: axios transport and HTTP status handling are left out. The pass-through calls `getRoomStatus`, `leaveRoom`, `textToSpeech`, `speechToText`, `getModelInfo`, `getAvailableSigns` and `healthCheck` only forward to the server endpoints modelled above. Their error text is `ApiClient.ErrorText`.
- MediaPipe:
  - The Holistic and camera options and the drawing on the canvas are left out.
  - The `Date.now()` of the frame timestamp and that of `checkForPrediction` are one `now`.
  - `initialize` is reduced to whether setup succeeds.
- Speech recognition:
  - The browser recogniser and `MediaRecorder` are left out. Only their events are modelled.
  - `stopListening` of both services, `checkMicrophonePermission`, `getSupportedLanguages` and `getStatus` only forward to browser APIs.
  - The `getErrorMessage` lookup through the object prototype is left out: a code such as `toString` is treated as unknown.
- WsClient.On, WsClient.Off, WsClient.Emit: the listener table is a plain object, so an event named after an `Object.prototype` key (`toString`, `constructor`) finds an inherited function instead of a list, and `on`, `off` and `_emit` throw. The model treats every event name as an ordinary key, because the client only ever uses its own event names.
- WebRTC:
  - `RTCPeerConnection`, ICE, SDP and media tracks are left out. A peer is its id and local description.
  - `initialize` and `setupSignalingListeners` only store their arguments and register listeners.
  - `handleAnswer` and `handleIceCandidate` only call into `RTCPeerConnection`.
  - `handleIncomingCall` is `respondToCall` with acceptance (`WebRtc.RespondToCall`).
  - `getRemoteStream` and `emitError` are lookups and callbacks without decisions.
- SignTranslator.PointsOf: a point whose coordinates are not numbers makes the source raise. Here it yields no vector and the "internal error" reply.
- SpeechService.PostprocessSpanish: the contract states only the empty case. The shape of the output is stated by `SpeechService.PostprocessPlain`, and by `SpeechService.NoCorrectionApplies` for text with no listed word. Corrections that do apply are left to the function's definition.
- SpeechService.Transcribe: the text of an unexpected exception is not modelled. Only the fixed prefix of the message is kept.

## Findings

| source | as written | input that shows it | evidently intended | confidence | as-written member | corrected member |
|---|---|---|---|---|---|---|
| backend/rooms/views.py:130-312 | the join, status and leave views (views.py:130, 237, 312) look the room up with `get_object_or_404`, which raises `Http404`; their `except Room.DoesNotExist` branches (views.py:202-205, 279-282, 349-352) never run and `except Exception` answers 500 | `POST /rooms/NOEXIS/join/` on an empty store: 500 "Error uniéndose a la sala: No Room matches the given query." | answer 404 "Sala NOEXIS no encontrada", as the dedicated branches are written to | high, not executed | RoomViews.UnknownRoomIsServerError | RoomViews.UnknownRoomIsNotFound |
| backend/rooms/views.py:331-341 | `room_status` is read from the view's `room` object, loaded before `participant.disconnect()`; the disconnect ends a separately loaded copy of the room through `participant.room` | the only connected participant of an active room leaves: the room is stored ended, the reply says `"room_status": "active"` | read the status after the disconnect (`room.refresh_from_db()`), as the view's docstring promises "ended" for the last participant | high, not executed | RoomViews.LastLeaverToldActive | RoomViews.LeaveRoomReloaded |
| FRONTEND/src/services/webrtcService.js:434-452 | the call service sends its signalling on the WebSocket with types such as `webrtc_call_request` and `webrtc_offer`, but the consumer (backend/rooms/consumers.py:104-125) handles only `webrtc_signal` and drops every other type | hanging up on peer "B": `{type: "webrtc_call_ended", to_participant_id: "B", …}` is dropped by the consumer, so B never learns of it | send one `webrtc_signal` naming the peer as `target_participant`, with the signalling type and data as `signal_type` and `signal_data` | high, not executed | WebRtc.SignalingDroppedByServer | WebRtc.RoutedSignalReachesTarget |

=== FILE: api_client.dfy ===
/**
 * The HTTP client of the frontend (FRONTEND/src/services/api.js): the
 * bodies and query strings it builds from the caller's data, the defaults
 * it fills in, and the error text it raises. Each builder is connected to
 * the backend view that reads what it sends. Transport (axios, the base
 * URL, the timeout) is left out.
 */
module ApiClient {
  import opened Wrappers
  import opened Json
  import Text
  import Rooms
  import RoomViews
  import SignTranslator
  import TranslatorViews
  import MediaPipe

  // ---------------------------------------------------------------- create

  /** `roomData` as the caller passes it; `None` is an absent property. */
  datatype RoomData = RoomData(
    name: Option<string>,
    maxParticipants: Option<Json>,
    translationEnabled: Option<bool>,
    sttEnabled: Option<bool>,
    ttsEnabled: Option<bool>)

  const DefaultRoomName: string := "Sala HelloHand"
  const DefaultMaxParticipants: int := 10

  /** JavaScript `s || d` on a possibly-undefined string. */
  function StrOr(s: Option<string>, d: string): (r: string)
    ensures s.Some? && s.value != "" ==> r == s.value
    ensures !(s.Some? && s.value != "") ==> r == d
  {
    if s.Some? && s.value != "" then s.value else d
  }

  /**
   * `createRoom`: every key is sent, so the server's own defaults never
   * apply; a flag is on unless the caller set it to `false`.
   */
  function CreatePayload(d: RoomData): (req: RoomViews.CreateRequest)
    ensures req.name.Some? && req.maxParticipants.Some?
    ensures req.translationEnabled.Some? && req.sttEnabled.Some? && req.ttsEnabled.Some?
    ensures req.name.value != ""
    ensures req.maxParticipants.value == JsOr(d.maxParticipants, JInt(DefaultMaxParticipants))
    ensures req.translationEnabled.value <==> d.translationEnabled != Some(false)
    ensures req.sttEnabled.value <==> d.sttEnabled != Some(false)
    ensures req.ttsEnabled.value <==> d.ttsEnabled != Some(false)
  {
    RoomViews.CreateRequest(
      Some(StrOr(d.name, DefaultRoomName)),
      Some(JsOr(d.maxParticipants, JInt(DefaultMaxParticipants))),
      Some(d.translationEnabled != Some(false)),
      Some(d.sttEnabled != Some(false)),
      Some(d.ttsEnabled != Some(false)))
  }

  /**
   * What the server makes of a create request from this client: created
   * exactly when the capacity after the client's default is accepted, and
   * always under a real name, never the server's `Sala <id>` fallback.
   */
  lemma ClientCreate(st: Rooms.Store, d: RoomData, newId: Rooms.RoomId, now: Rooms.Time)
    requires Rooms.Valid(st) && Rooms.ValidRoomId(newId) && newId !in st.rooms
    ensures var res := RoomViews.CreateRoom(st, CreatePayload(d), newId, now);
      && (res.1.Created? <==> RoomViews.MaxAccepted(JsOr(d.maxParticipants, JInt(DefaultMaxParticipants))))
      && (res.1.Created? ==>
            && res.1.roomName == StrOr(d.name, DefaultRoomName)
            && res.0.rooms[newId].name == res.1.roomName != ""
            && res.1.features == RoomViews.Features(d.translationEnabled != Some(false),
                                                    d.sttEnabled != Some(false),
                                                    d.ttsEnabled != Some(false)))
  {
  }

  /**
   * A capacity of 0 is falsy, so the client replaces it by 10 and the room
   * is created, while the same 0 sent straight to the server is refused.
   */
  lemma ZeroCapacityBecomesTen(st: Rooms.Store, d: RoomData, newId: Rooms.RoomId, now: Rooms.Time)
    requires Rooms.Valid(st) && Rooms.ValidRoomId(newId) && newId !in st.rooms
    requires d.maxParticipants == Some(JInt(0))
    ensures RoomViews.CreateRoom(st, CreatePayload(d), newId, now).1.Created?
    ensures RoomViews.CreateRoom(st, CreatePayload(d), newId, now).1.maxParticipants == DefaultMaxParticipants
    ensures RoomViews.CreateRoom(st, CreatePayload(d).(maxParticipants := Some(JInt(0))), newId, now).1.CreateRejected?
  {
  }

  // ------------------------------------------------------------------ join

  /** `participantData` as the caller passes it. */
  datatype JoinData = JoinData(
    name: Option<string>,
    hasCamera: Option<bool>,
    hasMicrophone: Option<bool>,
    isDeaf: Option<bool>,
    isMute: Option<bool>)

  const DefaultParticipantName: string := "Participante"

  /** `joinRoom`: every key is sent; camera and microphone default on, deaf and mute off. */
  function JoinPayload(d: JoinData): (req: RoomViews.JoinRequest)
    ensures req.participantName.Some? && req.participantName.value != ""
    ensures req.hasCamera.Some? && req.hasMicrophone.Some? && req.isDeaf.Some? && req.isMute.Some?
    ensures req.hasCamera.value <==> d.hasCamera != Some(false)
    ensures req.hasMicrophone.value <==> d.hasMicrophone != Some(false)
    ensures req.isDeaf.value <==> d.isDeaf == Some(true)
    ensures req.isMute.value <==> d.isMute == Some(true)
  {
    RoomViews.JoinRequest(
      Some(StrOr(d.name, DefaultParticipantName)),
      Some(d.hasCamera != Some(false)),
      Some(d.hasMicrophone != Some(false)),
      Some(d.isDeaf == Some(true)),
      Some(d.isMute == Some(true)))
  }

  /**
   * The client's defaults are the server's: apart from an empty name (which
   * the client replaces and the server would keep), joining through the
   * client is joining with the caller's data as given.
   */
  lemma JoinDefaultsAgree(st: Rooms.Store, rawId: string, d: JoinData, sid: Rooms.SessionId, now: Rooms.Time)
    requires Rooms.Valid(st) && sid !in st.participants
    requires d.name != Some("")
    ensures RoomViews.JoinRoom(st, rawId, JoinPayload(d), sid, now)
         == RoomViews.JoinRoom(st, rawId, RoomViews.JoinRequest(d.name, d.hasCamera, d.hasMicrophone, d.isDeaf, d.isMute), sid, now)
  {
    var req := JoinPayload(d);
    var raw := RoomViews.JoinRequest(d.name, d.hasCamera, d.hasMicrophone, d.isDeaf, d.isMute);
    assert RoomViews.Joiner(Text.Upper(rawId), req, sid, now) == RoomViews.Joiner(Text.Upper(rawId), raw, sid, now);
    RoomViews.JoinDependsOnJoiner(st, rawId, req, raw, sid, now);
  }

  // ------------------------------------------------------------------ list

  datatype ListFilters = ListFilters(status: Option<string>, limit: Option<int>)

  /**
   * `listRooms`: a filter goes into the query string only when it is
   * truthy, so an empty status and a zero limit are not sent. The result is
   * the status and limit the server reads back from that query string.
   */
  function ListQuery(f: ListFilters): (q: (Option<string>, RoomViews.LimitParam))
    ensures q.0.Some? <==> f.status.Some? && f.status.value != ""
    ensures q.0.Some? ==> q.0 == f.status
    ensures q.1.LimitValue? <==> f.limit.Some? && f.limit.value != 0
    ensures q.1.LimitValue? ==> q.1.n == f.limit.value
    ensures !q.1.LimitUnparseable?
  {
    (if f.status.Some? && f.status.value != "" then f.status else None,
     if f.limit.Some? && f.limit.value != 0 then RoomViews.LimitValue(f.limit.value) else RoomViews.NoLimit)
  }

  /**
   * Listing through the client fails only for a negative limit, and a zero
   * limit yields the server's default page of 20 rather than no rooms.
   */
  lemma ClientListing(st: Rooms.Store, order: seq<Rooms.RoomId>, f: ListFilters)
    requires RoomViews.Listing(st, order)
    ensures var q := ListQuery(f);
      RoomViews.ListRooms(st, order, q.0, q.1).ListFailed? <==> f.limit.Some? && f.limit.value < 0
    ensures var q := ListQuery(f);
      var res := RoomViews.ListRooms(st, order, q.0, q.1);
      f.limit == Some(0) ==>
        res.Listed? && res.returnedCount == (if res.totalCount < RoomViews.DefaultLimit then res.totalCount else RoomViews.DefaultLimit)
  {
  }

  // -------------------------------------------------------------- predict

  const ClientMinConfidence: real := 0.4

  /** `predictSigns`: the frames and the threshold, which defaults to 0.4 when not passed. */
  function PredictBody(landmarks: Json, minConfidence: Option<Json>): (body: Json)
    ensures Get(body, "landmarks") == Some(landmarks)
    ensures minConfidence.Some? ==> Get(body, "min_confidence") == minConfidence
    ensures minConfidence.None? ==> Get(body, "min_confidence") == Some(JReal(ClientMinConfidence))
  {
    JObj(map["landmarks" := landmarks, "min_confidence" := minConfidence.GetOr(JReal(ClientMinConfidence))])
  }

  /** The client's default threshold is one the server accepts and is the server's own default. */
  lemma DefaultThresholdAgrees(landmarks: Json)
    ensures TranslatorViews.MinConfidence(Get(PredictBody(landmarks, None), "min_confidence"))
         == JReal(SignTranslator.DefaultMinConfidence)
  {
  }

  /**
   * A buffer of captured frames posted through the client is always
   * accepted by the prediction endpoint, at the default threshold.
   */
  lemma CapturedBufferAccepted(svc: SignTranslator.Service, classify: SignTranslator.Classifier,
                               buf: seq<MediaPipe.Stamped>)
    requires MediaPipe.MinBufferedFrames <= |buf|
    ensures var r := TranslatorViews.PredictSigns(svc, classify, PredictBody(JList(MediaPipe.Wires(buf)), None));
      r.PredictOk? && r.body.minConfidenceUsed == JReal(SignTranslator.DefaultMinConfidence)
      && r.body.framesProcessed == |buf|
  {
    MediaPipe.CapturedSequencePredicts(svc, classify, buf);
    var bare := JObj(map["landmarks" := JList(MediaPipe.Wires(buf))]);
    assert GetOr(bare, "landmarks", JNull) == JList(MediaPipe.Wires(buf));
    assert GetOr(PredictBody(JList(MediaPipe.Wires(buf)), None), "landmarks", JNull) == JList(MediaPipe.Wires(buf));
  }

  // --------------------------------------------------------------- errors

  const CreatePrefix: string := "Error creando sala: "
  const JoinPrefix: string := "Error uniéndose a sala: "
  const StatusPrefix: string := "Error obteniendo estado: "
  const LeavePrefix: string := "Error saliendo de sala: "
  const ListPrefix: string := "Error listando salas: "
  const PredictPrefix: string := "Error en traducción: "
  const TtsPrefix: string := "Error en TTS: "
  const SttPrefix: string := "Error en STT: "
  const ModelInfoPrefix: string := "Error obteniendo info del modelo: "
  const SignsPrefix: string := "Error obteniendo señas: "
  const HealthPrefix: string := "Error en health check: "

  /**
   * The message every call raises on failure: its own prefix, then the
   * server's `error` field when the reply carries a non-empty one, else the
   * transport's message.
   */
  function ErrorText(prefix: string, serverError: Option<string>, transport: string): (t: string)
    ensures |prefix| <= |t| && t[..|prefix|] == prefix
    ensures serverError.Some? && serverError.value != "" ==> t[|prefix|..] == serverError.value
    ensures !(serverError.Some? && serverError.value != "") ==> t[|prefix|..] == transport
  {
    prefix + StrOr(serverError, transport)
  }

  /** A refused join reaches the caller with the server's reason after the join prefix. */
  lemma RefusedJoinExplained(st: Rooms.Store, rawId: string, d: JoinData, sid: Rooms.SessionId,
                             now: Rooms.Time, transport: string)
    requires Rooms.Valid(st) && sid !in st.participants
    requires RoomViews.JoinRoom(st, rawId, JoinPayload(d), sid, now).1.JoinRejected?
    ensures var reply := RoomViews.JoinRoom(st, rawId, JoinPayload(d), sid, now).1;
      ErrorText(JoinPrefix, Some(reply.error), transport) == JoinPrefix + reply.error
      && (reply.error == Rooms.EndedReason || reply.error == Rooms.FullReason)
  {
    var reply := RoomViews.JoinRoom(st, rawId, JoinPayload(d), sid, now).1;
    assert reply.error != "" by {
      assert reply.error == Rooms.EndedReason || reply.error == Rooms.FullReason;
      assert |Rooms.EndedReason| > 0 && |Rooms.FullReason| > 0;
    }
  }
}

=== FILE: channels.dfy ===
/**
 * The channel layer the consumer relies on: named groups of channels, with
 * `group_add` and `group_discard`. Delivery of a group message to each
 * member is modelled with the consumer, since what a member does with it
 * depends on that member's connection.
 */
module Channels {

  /** A channel name, unique per open WebSocket connection. */
  type Channel = string

  datatype Layer = Layer(groups: map<string, set<Channel>>)

  function Empty(): Layer {
    Layer(map[])
  }

  /** The channels currently in group `g` (none for a group never used). */
  function Members(l: Layer, g: string): set<Channel> {
    if g in l.groups then l.groups[g] else {}
  }

  /** `group_add`: adds one channel to one group. */
  function GroupAdd(l: Layer, g: string, c: Channel): (l': Layer)
    ensures Members(l', g) == Members(l, g) + {c}
    ensures forall h :: h != g ==> Members(l', h) == Members(l, h)
  {
    Layer(l.groups[g := Members(l, g) + {c}])
  }

  /** `group_discard`: removes one channel from one group; discarding a non-member is harmless. */
  function GroupDiscard(l: Layer, g: string, c: Channel): (l': Layer)
    ensures Members(l', g) == Members(l, g) - {c}
    ensures forall h :: h != g ==> Members(l', h) == Members(l, h)
  {
    Layer(l.groups[g := Members(l, g) - {c}])
  }

  /** Joining then leaving a group restores its membership. */
  lemma AddThenDiscard(l: Layer, g: string, c: Channel)
    requires c !in Members(l, g)
    ensures Members(GroupDiscard(GroupAdd(l, g, c), g, c), g) == Members(l, g)
  {
  }

  /** Membership is a set: adding twice is adding once. */
  lemma GroupAddIdempotent(l: Layer, g: string, c: Channel)
    ensures Members(GroupAdd(GroupAdd(l, g, c), g, c), g) == Members(GroupAdd(l, g, c), g)
  {
  }
}

=== FILE: consumer.dfy ===
/**
 * The room WebSocket consumer (backend/rooms/consumers.py): admission of a
 * connection, routing of incoming messages to the four handlers, the group
 * messages each handler emits, and what each member of the group then sends
 * to its own client. Timestamps are an input; logging is left out.
 */
module Consumer {
  import opened Wrappers
  import opened Json
  import opened Text
  import opened Rooms
  import opened Channels
  import SignTranslator

  // -------------------------------------------------------- query string

  /** Key of a `key=value` segment: everything before the first `=`. */
  function ParamKey(seg: string): string
    requires '=' in seg
  {
    seg[..IndexOf(seg, '=')]
  }

  /** Value of a `key=value` segment: everything after the first `=`. */
  function ParamValue(seg: string): string
    requires '=' in seg
  {
    seg[IndexOf(seg, '=') + 1..]
  }

  predicate HasKey(seg: string, key: string) {
    '=' in seg && ParamKey(seg) == key
  }

  /** The segments in order; a later one with the same key overwrites an earlier one. */
  function ParamsOf(segs: seq<string>): map<string, string>
    decreases |segs|
  {
    if segs == [] then map[]
    else
      var last := segs[|segs| - 1];
      var m := ParamsOf(segs[..|segs| - 1]);
      if '=' in last then m[ParamKey(last) := ParamValue(last)] else m
  }

  /**
   * The consumer's hand-written query-string parser: split on `&`, skip
   * segments without `=`, split the rest at the first `=`. No percent-decoding.
   */
  function ParseQuery(qs: string): map<string, string> {
    if qs == "" then map[] else ParamsOf(Split(qs, '&'))
  }

  /** A key is present iff some segment names it, and its value is the one from the last such segment. */
  lemma {:induction false} ParamsOfLastWins(segs: seq<string>, key: string)
    ensures key in ParamsOf(segs) <==> exists i :: 0 <= i < |segs| && HasKey(segs[i], key)
    ensures key in ParamsOf(segs) ==> exists i :: (0 <= i < |segs| && HasKey(segs[i], key)
      && ParamsOf(segs)[key] == ParamValue(segs[i])
      && forall j :: i < j < |segs| ==> !HasKey(segs[j], key))
  {
    ParamsOfKeys(segs, key);
    ParamsOfValue(segs, key);
  }

  /** One segment more: its key is added, overwriting an earlier value, and nothing else changes. */
  lemma ParamsOfStep(segs: seq<string>, key: string)
    requires segs != []
    ensures var last := segs[|segs| - 1]; var m := ParamsOf(segs[..|segs| - 1]);
      && (key in ParamsOf(segs) <==> key in m || HasKey(last, key))
      && (HasKey(last, key) ==> ParamsOf(segs)[key] == ParamValue(last))
      && (!HasKey(last, key) && key in m ==> ParamsOf(segs)[key] == m[key])
  {
  }

  lemma {:induction false} ParamsOfKeys(segs: seq<string>, key: string)
    ensures key in ParamsOf(segs) <==> exists i :: 0 <= i < |segs| && HasKey(segs[i], key)
    decreases |segs|
  {
    if segs != [] {
      var n := |segs| - 1;
      var init := segs[..n];
      ParamsOfStep(segs, key);
      ParamsOfKeys(init, key);
      if i :| 0 <= i < |segs| && HasKey(segs[i], key) {
        if i < n { assert HasKey(init[i], key); }
      }
      if i :| 0 <= i < n && HasKey(init[i], key) {
        assert HasKey(segs[i], key);
      }
    }
  }

  lemma {:induction false} ParamsOfValue(segs: seq<string>, key: string)
    ensures key in ParamsOf(segs) ==> exists i :: (0 <= i < |segs| && HasKey(segs[i], key)
      && ParamsOf(segs)[key] == ParamValue(segs[i])
      && forall j :: i < j < |segs| ==> !HasKey(segs[j], key))
    decreases |segs|
  {
    if segs != [] {
      var n := |segs| - 1;
      var init := segs[..n];
      var m := ParamsOf(init);
      ParamsOfStep(segs, key);
      if !HasKey(segs[n], key) && key in m {
        ParamsOfValue(init, key);
        var i :| 0 <= i < n && HasKey(init[i], key) && m[key] == ParamValue(init[i])
          && forall j :: i < j < n ==> !HasKey(init[j], key);
        assert segs[i] == init[i];
        assert forall j :: i < j < |segs| ==> !HasKey(segs[j], key) by {
          forall j | i < j < |segs| ensures !HasKey(segs[j], key) {
            if j < n { assert segs[j] == init[j]; }
          }
        }
      }
    }
  }

  /** The `if query_string` guard changes nothing: the empty string has no `key=value` segment. */
  lemma ParseQueryIgnoresGuard(qs: string)
    ensures ParseQuery(qs) == ParamsOf(Split(qs, '&'))
  {
    if qs == "" {
      assert Split(qs, '&') == [""];
    }
  }

  // ----------------------------------------------------------- messages

  /** A message the consumer sends to its own WebSocket client. */
  datatype ClientMessage =
    | JoinedMsg(participantId: string, text: string)
    | LeftMsg(leaverId: Option<string>, text: string)
    | TranslationMsg(requesterId: Json, prediction: Option<string>, confidence: real, success: bool,
                     message: SignTranslator.Message, timestamp: string)
    | ChatMsg(senderId: Json, senderName: string, text: string, timestamp: string)
    | SignalMsg(signalType: Json, signalData: Json, senderId: Json)
    | StatusMsg(subject: Json, hasCamera: Json, hasMicrophone: Json)
    | ErrorMsg(text: string)

  /** The `type` field of the JSON the client receives. */
  function TypeTag(m: ClientMessage): string {
    match m
    case JoinedMsg(_, _) => "participant_joined"
    case LeftMsg(_, _) => "participant_left"
    case TranslationMsg(_, _, _, _, _, _) => "translation_result"
    case ChatMsg(_, _, _, _) => "chat_message"
    case SignalMsg(_, _, _) => "webrtc_signal"
    case StatusMsg(_, _, _) => "participant_status_update"
    case ErrorMsg(_) => "error"
  }

  /**
   * The `message` text of a translation result. The low-confidence and
   * internal-error texts embed formatted numbers and exception text; only
   * their fixed prefix is kept.
   */
  function PredictionText(m: SignTranslator.Message): string {
    match m
    case LowConfidenceMsg(_, _) => "Confianza muy baja"
    case InternalMsg => "Error interno"
    case _ => SignTranslator.MessageText(m)
  }

  /** The JSON object the consumer's `send(text_data=json.dumps(...))` puts on the wire. */
  function Wire(m: ClientMessage): (j: Json)
    ensures j.JObj? && Get(j, "type") == Some(JStr(TypeTag(m)))
  {
    match m
    case JoinedMsg(pid, text) =>
      JObj(map["type" := JStr(TypeTag(m)), "participant_id" := JStr(pid), "message" := JStr(text)])
    case LeftMsg(pid, text) =>
      JObj(map["type" := JStr(TypeTag(m)), "participant_id" := (if pid.Some? then JStr(pid.value) else JNull),
               "message" := JStr(text)])
    case TranslationMsg(requester, prediction, confidence, success, message, stamp) =>
      JObj(map["type" := JStr(TypeTag(m)), "requester_id" := requester,
               "prediction" := (if prediction.Some? then JStr(prediction.value) else JNull),
               "confidence" := JReal(confidence), "success" := JBool(success),
               "message" := JStr(PredictionText(message)), "timestamp" := JStr(stamp)])
    case ChatMsg(sender, name, text, stamp) =>
      JObj(map["type" := JStr(TypeTag(m)), "sender_id" := sender, "sender_name" := JStr(name),
               "message" := JStr(text), "timestamp" := JStr(stamp)])
    case SignalMsg(signalType, signalData, sender) =>
      JObj(map["type" := JStr(TypeTag(m)), "signal_type" := signalType, "signal_data" := signalData,
               "sender_id" := sender])
    case StatusMsg(pid, camera, mic) =>
      JObj(map["type" := JStr(TypeTag(m)), "participant_id" := pid, "has_camera" := camera,
               "has_microphone" := mic])
    case ErrorMsg(text) =>
      JObj(map["type" := JStr(TypeTag(m)), "message" := JStr(text)])
  }

  /**
   * A group message. Every group handler but one forwards its event
   * unchanged; `webrtc_signal_targeted` forwards only on the target's own
   * connection.
   */
  datatype GroupEvent = Broadcast(msg: ClientMessage) | Targeted(msg: ClientMessage, target: Json)

  /** What the consumer holding participant `self` sends its client for a group event. */
  function Deliver(self: string, ev: GroupEvent): (r: Option<ClientMessage>)
    ensures r.Some? ==> r.value == ev.msg
    ensures r.None? <==> ev.Targeted? && ev.target != JStr(self)
  {
    match ev
    case Broadcast(m) => Some(m)
    case Targeted(m, target) => if JStr(self) == target then Some(m) else None
  }

  /** One open, accepted connection: its channel, the room id from the URL, the participant from the query. */
  datatype Conn = Conn(channel: Channel, rawRoomId: string, participantId: string)

  /** `group_send`: each member with an open consumer receives what its `Deliver` produces. */
  function GroupSend(l: Layer, conns: map<Channel, Conn>, g: string, ev: GroupEvent): (out: map<Channel, ClientMessage>)
    ensures forall c :: c in out <==> c in Members(l, g) && c in conns && Deliver(conns[c].participantId, ev).Some?
    ensures forall c :: c in out ==> out[c] == ev.msg
  {
    map c | c in Members(l, g) && c in conns && Deliver(conns[c].participantId, ev).Some? :: ev.msg
  }

  /** A broadcast reaches every member of the group, the sender included. */
  lemma BroadcastReachesAll(l: Layer, conns: map<Channel, Conn>, g: string, m: ClientMessage)
    ensures GroupSend(l, conns, g, Broadcast(m)).Keys == Members(l, g) * conns.Keys
  {
  }

  /** A targeted signal reaches exactly the members whose participant id equals the target. */
  lemma TargetedReachesOnlyTarget(l: Layer, conns: map<Channel, Conn>, g: string, m: ClientMessage, target: Json)
    ensures forall c :: c in GroupSend(l, conns, g, Targeted(m, target)) <==>
      c in Members(l, g) && c in conns && target == JStr(conns[c].participantId)
    ensures !target.JStr? ==> GroupSend(l, conns, g, Targeted(m, target)) == map[]
  {
  }

  // ------------------------------------------------------------- connect

  const RoomNotFoundCode: int := 4404
  const ParticipantNotFoundCode: int := 4403

  /**
   * The group name, built from the room id exactly as written in the URL,
   * while every store lookup upper-cases it.
   */
  function GroupName(rawRoomId: string): (g: string)
    ensures |g| == 5 + |rawRoomId| && g[..5] == "room_" && g[5..] == rawRoomId
  {
    "room_" + rawRoomId
  }

  /**
   * Two spellings of one room id pass the same room checks but get two
   * different groups, so their messages never cross.
   */
  lemma CaseSplitsGroups(a: string, b: string)
    requires a != b && Upper(a) == Upper(b)
    ensures GroupName(a) != GroupName(b)
  {
    assert GroupName(a)[5..] == a;
    assert GroupName(b)[5..] == b;
  }

  datatype Admission = Accepted(conn: Conn) | Closed(code: Option<int>)

  /**
   * `connect`. A missing or empty participant id closes the handshake with no
   * code; an unknown room closes with 4404 and a participant who is not a
   * connected member of it with 4403; otherwise the channel joins the room's
   * group, the connection is accepted and the group is told who joined.
   */
  function Connect(st: Store, l: Layer, channel: Channel, rawRoomId: string, queryString: string)
    : (res: (Layer, Admission, Option<GroupEvent>))
    ensures var q := ParseQuery(queryString);
      && ("participant_id" !in q || q["participant_id"] == "") ==> res == (l, Closed(None), None)
    ensures res.1.Accepted? <==>
      && var q := ParseQuery(queryString);
      && "participant_id" in q && q["participant_id"] != ""
      && Upper(rawRoomId) in st.rooms
      && q["participant_id"] in st.participants
      && st.participants[q["participant_id"]].room == Upper(rawRoomId)
      && st.participants[q["participant_id"]].isConnected
    ensures res.1.Closed? && res.1.code == Some(RoomNotFoundCode) <==>
      && var q := ParseQuery(queryString);
      && "participant_id" in q && q["participant_id"] != "" && Upper(rawRoomId) !in st.rooms
    ensures res.1 == Closed(Some(ParticipantNotFoundCode)) <==>
      && var q := ParseQuery(queryString);
      && "participant_id" in q && q["participant_id"] != "" && Upper(rawRoomId) in st.rooms
      && !(&& q["participant_id"] in st.participants
           && st.participants[q["participant_id"]].room == Upper(rawRoomId)
           && st.participants[q["participant_id"]].isConnected)
    ensures res.1.Closed? ==> res.0 == l && res.2.None?
    ensures res.1.Accepted? ==>
      && var pid := ParseQuery(queryString)["participant_id"];
      && res.1.conn == Conn(channel, rawRoomId, pid)
      && res.0 == GroupAdd(l, GroupName(rawRoomId), channel)
      && res.2 == Some(Broadcast(JoinedMsg(pid, "Participante " + pid + " se conectó")))
  {
    var q := ParseQuery(queryString);
    if "participant_id" !in q || q["participant_id"] == "" then (l, Closed(None), None)
    else
      var pid := q["participant_id"];
      var rid := Upper(rawRoomId);
      if rid !in st.rooms then (l, Closed(Some(RoomNotFoundCode)), None)
      else if !(pid in st.participants && st.participants[pid].room == rid && st.participants[pid].isConnected) then
        (l, Closed(Some(ParticipantNotFoundCode)), None)
      else
        (GroupAdd(l, GroupName(rawRoomId), channel), Accepted(Conn(channel, rawRoomId, pid)),
         Some(Broadcast(JoinedMsg(pid, "Participante " + pid + " se conectó"))))
  }

  /** Every close code used lies in the 4000-4999 private-use range of section 7.4.2 of RFC 6455. */
  lemma CloseCodesPrivate(st: Store, l: Layer, channel: Channel, rawRoomId: string, queryString: string)
    ensures var a := Connect(st, l, channel, rawRoomId, queryString).1;
      a.Closed? && a.code.Some? ==> 4000 <= a.code.value <= 4999
  {
  }

  /**
   * What `connect` stores on the consumer before any check, and so what
   * `disconnect` sees whether the handshake was accepted or refused: the
   * channel, the room id from the URL and `query_params.get('participant_id')`.
   */
  datatype Attempt = Attempt(channel: Channel, rawRoomId: string, participantId: Option<string>)

  function Attempted(channel: Channel, rawRoomId: string, queryString: string): Attempt {
    var q := ParseQuery(queryString);
    Attempt(channel, rawRoomId, if "participant_id" in q then Some(q["participant_id"]) else None)
  }

  /** The text of a leave notice; Python formats a missing id as "None". */
  function LeftText(pid: Option<string>): string {
    "Participante " + (if pid.Some? then pid.value else "None") + " se desconectó"
  }

  /**
   * `disconnect`, which Channels runs after every connection attempt, a
   * refused handshake included: the group named in the URL hears who left
   * (the leaving channel is still a member), then the channel leaves it.
   */
  function Disconnect(l: Layer, a: Attempt): (res: (Layer, GroupEvent))
    ensures Members(res.0, GroupName(a.rawRoomId)) == Members(l, GroupName(a.rawRoomId)) - {a.channel}
    ensures forall g :: g != GroupName(a.rawRoomId) ==> Members(res.0, g) == Members(l, g)
    ensures res.1.Broadcast? && res.1.msg.LeftMsg? && res.1.msg.leaverId == a.participantId
  {
    (GroupDiscard(l, GroupName(a.rawRoomId), a.channel), Broadcast(LeftMsg(a.participantId, LeftText(a.participantId))))
  }

  /**
   * Closing an accepted connection announces the participant it was
   * accepted for and takes its channel back out of the group it joined.
   */
  lemma AcceptedLeaveUndoesJoin(st: Store, l: Layer, channel: Channel, rawRoomId: string, queryString: string)
    requires channel !in Members(l, GroupName(rawRoomId))
    requires Connect(st, l, channel, rawRoomId, queryString).1.Accepted?
    ensures var (l', adm, _) := Connect(st, l, channel, rawRoomId, queryString);
      var (l'', ev) := Disconnect(l', Attempted(channel, rawRoomId, queryString));
      && Attempted(channel, rawRoomId, queryString) == Attempt(channel, rawRoomId, Some(adm.conn.participantId))
      && Members(l'', GroupName(rawRoomId)) == Members(l, GroupName(rawRoomId))
      && ev == Broadcast(LeftMsg(Some(adm.conn.participantId), LeftText(Some(adm.conn.participantId))))
  {
  }

  /**
   * A refused handshake still runs `disconnect`: the group of the room id in
   * the URL is told that the presented participant id (or `None`) left,
   * although that connection never joined, and its membership is unchanged.
   */
  lemma RefusedHandshakeAnnouncesLeave(st: Store, l: Layer, channel: Channel, rawRoomId: string, queryString: string)
    requires channel !in Members(l, GroupName(rawRoomId))
    requires Connect(st, l, channel, rawRoomId, queryString).1.Closed?
    ensures var q := ParseQuery(queryString);
      var (l'', ev) := Disconnect(Connect(st, l, channel, rawRoomId, queryString).0, Attempted(channel, rawRoomId, queryString));
      && Members(l'', GroupName(rawRoomId)) == Members(l, GroupName(rawRoomId))
      && ev.Broadcast? && ev.msg.LeftMsg?
      && ("participant_id" in q ==> ev.msg.leaverId == Some(q["participant_id"]))
      && ("participant_id" !in q ==> ev.msg == LeftMsg(None, "Participante None se desconectó"))
  {
  }

  // ------------------------------------------------------------- receive

  datatype Kind = TranslationRequest | ChatMessage | WebrtcSignal | ParticipantStatus | Dropped

  /** The message parsed as JSON and its `type` field is the string `t`. */
  predicate TypeIs(data: Option<Json>, t: string) {
    data.Some? && Get(data.value, "type") == Some(JStr(t))
  }

  /**
   * The routing in `receive`: text that is not JSON, JSON that is not an
   * object, and an absent or unknown `type` are all dropped.
   */
  function Classify(data: Option<Json>): (k: Kind)
    ensures k != Dropped ==> data.Some? && data.value.JObj? && Get(data.value, "type").Some?
    ensures k == TranslationRequest <==> TypeIs(data, "translation_request")
    ensures k == ChatMessage <==> TypeIs(data, "chat_message")
    ensures k == WebrtcSignal <==> TypeIs(data, "webrtc_signal")
    ensures k == ParticipantStatus <==> TypeIs(data, "participant_status")
    ensures k == Dropped <==>
      !TypeIs(data, "translation_request") && !TypeIs(data, "chat_message")
      && !TypeIs(data, "webrtc_signal") && !TypeIs(data, "participant_status")
  {
    if data.None? || !data.value.JObj? then Dropped
    else match Get(data.value, "type")
      case Some(JStr("translation_request")) => TranslationRequest
      case Some(JStr("chat_message")) => ChatMessage
      case Some(JStr("webrtc_signal")) => WebrtcSignal
      case Some(JStr("participant_status")) => ParticipantStatus
      case _ => Dropped
  }

  /** What one incoming message makes the consumer do: update the store, send to the group, reply to its own client. */
  datatype Effect = Effect(store: Store, toGroup: Option<GroupEvent>, toSelf: Option<ClientMessage>)

  function Nothing(st: Store): Effect {
    Effect(st, None, None)
  }

  const TranslationError: string := "Error en traducción de señas"

  /**
   * `handle_translation_request`: falsy landmarks are ignored; the result,
   * successful or not, goes to the whole group; only an exception raised by
   * the translator produces an error, sent to the requester alone.
   */
  function HandleTranslation(st: Store, conn: Conn, data: Json, svc: SignTranslator.Service,
                             classify: SignTranslator.Classifier, stamp: string): (e: Effect)
    ensures e.store == st
    ensures !PyTruthy(GetOr(data, "landmarks", JList([]))) ==> e == Nothing(st)
    ensures e.toSelf.Some? ==> e.toSelf.value == ErrorMsg(TranslationError) && e.toGroup.None?
    ensures e.toGroup.Some? ==> (e.toGroup.value.Broadcast? && e.toGroup.value.msg.TranslationMsg?
      && e.toGroup.value.msg.requesterId == GetOr(data, "participant_id", JStr(conn.participantId)))
    ensures PyTruthy(GetOr(data, "landmarks", JList([]))) ==> (e.toGroup.Some? <==> e.toSelf.None?)
    ensures e.toSelf.Some? <==>
      && PyTruthy(GetOr(data, "landmarks", JList([])))
      && SignTranslator.Predict(svc, classify, GetOr(data, "landmarks", JList([])), SignTranslator.DefaultMinConfidence).Raised?
    ensures e.toGroup.Some? ==>
      && var o := SignTranslator.Predict(svc, classify, GetOr(data, "landmarks", JList([])), SignTranslator.DefaultMinConfidence);
      && var msg := e.toGroup.value.msg;
      && o.Returned?
      && msg.prediction == o.p.sign && msg.confidence == o.p.confidence
      && msg.success == o.p.success && msg.message == o.p.message && msg.timestamp == stamp
  {
    var landmarks := GetOr(data, "landmarks", JList([]));
    var requester := GetOr(data, "participant_id", JStr(conn.participantId));
    if !PyTruthy(landmarks) then Nothing(st)
    else match SignTranslator.Predict(svc, classify, landmarks, SignTranslator.DefaultMinConfidence)
      case Raised => Effect(st, None, Some(ErrorMsg(TranslationError)))
      case Returned(p) =>
        Effect(st, Some(Broadcast(TranslationMsg(requester, p.sign, p.confidence, p.success, p.message, stamp))), None)
  }

  /** Landmarks that are a list are always answered with a result for the whole group. */
  lemma ListLandmarksAlwaysBroadcast(st: Store, conn: Conn, data: Json, svc: SignTranslator.Service,
                                     classify: SignTranslator.Classifier, stamp: string)
    requires GetOr(data, "landmarks", JList([])).JList? && |GetOr(data, "landmarks", JList([])).items| > 0
    ensures HandleTranslation(st, conn, data, svc, classify, stamp).toGroup.Some?
    ensures HandleTranslation(st, conn, data, svc, classify, stamp).toSelf.None?
  {
  }

  const DefaultSenderName: string := "Participante"

  /**
   * `get_participant_name`: the sender's name when the sender belongs to the
   * room (connected or not), otherwise the default. A sender id that is not
   * a string never names a participant: Django would look it up by its
   * `str()` form, but participant ids are `uuid4` texts, which no `str()` of
   * a number, boolean, list or object spells.
   */
  function SenderName(st: Store, rid: RoomId, sender: Json): (name: string)
    ensures sender.JStr? && sender.s in st.participants && st.participants[sender.s].room == rid ==>
      name == st.participants[sender.s].name
    ensures !(sender.JStr? && sender.s in st.participants && st.participants[sender.s].room == rid) ==>
      name == DefaultSenderName
  {
    match sender
    case JStr(sid) =>
      if sid in st.participants && st.participants[sid].room == rid then st.participants[sid].name
      else DefaultSenderName
    case _ => DefaultSenderName
  }

  /**
   * `handle_chat_message`: the text is stripped; an empty one, or one that is
   * not a string (whose `strip` raises inside the handler), sends nothing.
   */
  function HandleChat(st: Store, conn: Conn, data: Json, stamp: string): (e: Effect)
    ensures e.store == st && e.toSelf.None?
    ensures e.toGroup.Some? <==>
      GetOr(data, "message", JStr("")).JStr? && Strip(Python, GetOr(data, "message", JStr("")).s) != ""
    ensures e.toGroup.Some? ==>
      && var sender := GetOr(data, "participant_id", JStr(conn.participantId));
      && e.toGroup.value == Broadcast(ChatMsg(sender, SenderName(st, Upper(conn.rawRoomId), sender),
                                              Strip(Python, GetOr(data, "message", JStr("")).s), stamp))
  {
    match GetOr(data, "message", JStr(""))
    case JStr(raw) =>
      var text := Strip(Python, raw);
      if text == "" then Nothing(st)
      else
        var sender := GetOr(data, "participant_id", JStr(conn.participantId));
        Effect(st, Some(Broadcast(ChatMsg(sender, SenderName(st, Upper(conn.rawRoomId), sender), text, stamp))), None)
    case _ => Nothing(st)
  }

  /** `handle_webrtc_signal`: a falsy target broadcasts to the group, any other is targeted. */
  function HandleSignal(st: Store, conn: Conn, data: Json): (e: Effect)
    ensures e.store == st && e.toSelf.None? && e.toGroup.Some?
    ensures e.toGroup.value.msg == SignalMsg(GetOr(data, "signal_type", JNull), GetOr(data, "signal_data", JNull),
                                             GetOr(data, "sender_id", JStr(conn.participantId)))
    ensures e.toGroup.value.Broadcast? <==> !PyTruthy(GetOr(data, "target_participant", JNull))
    ensures e.toGroup.value.Targeted? ==> e.toGroup.value.target == GetOr(data, "target_participant", JNull)
  {
    var msg := SignalMsg(GetOr(data, "signal_type", JNull), GetOr(data, "signal_data", JNull),
                         GetOr(data, "sender_id", JStr(conn.participantId)));
    var target := GetOr(data, "target_participant", JNull);
    if !PyTruthy(target) then Effect(st, Some(Broadcast(msg)), None)
    else Effect(st, Some(Targeted(msg, target)), None)
  }

  /**
   * The boolean-field conversion applied when the participant is saved:
   * booleans and the numbers 0 and 1, and the strings "t", "True", "1",
   * "f", "False", "0"; anything else is a validation error.
   */
  function ToBoolField(j: Json): (r: Option<bool>)
    ensures j.JBool? ==> r == Some(j.b)
    ensures j.JStr? ==> (r == Some(true) <==> j.s in ["t", "True", "1"]) && (r == Some(false) <==> j.s in ["f", "False", "0"])
    ensures j.JInt? ==> (r == Some(true) <==> j.i == 1) && (r == Some(false) <==> j.i == 0)
    ensures j.JReal? ==> (r == Some(true) <==> j.r == 1.0) && (r == Some(false) <==> j.r == 0.0)
    ensures j.JList? || j.JObj? || j.JNull? ==> r.None?
  {
    match j
    case JBool(b) => Some(b)
    case JInt(i) => if i == 1 then Some(true) else if i == 0 then Some(false) else None
    case JReal(x) => if x == 1.0 then Some(true) else if x == 0.0 then Some(false) else None
    case JStr(s) =>
      if s == "t" || s == "True" || s == "1" then Some(true)
      else if s == "f" || s == "False" || s == "0" then Some(false)
      else None
    case _ => None
  }

  /** One field of `update_participant_status`: `null` keeps the old value, anything else must convert. */
  function NewFlag(current: bool, j: Json): Option<bool> {
    if j.JNull? then Some(current) else ToBoolField(j)
  }

  /**
   * `update_participant_status`: `None` when the save raises. A participant
   * not in the room is not an error, and nothing changes.
   */
  function UpdateStatus(st: Store, rid: RoomId, pid: Json, camera: Json, mic: Json): (r: Option<Store>)
    requires Valid(st)
    ensures r.Some? ==> Valid(r.value) && Evolves(st, r.value) && r.value.rooms == st.rooms
    ensures r.Some? ==> r.value.participants.Keys == st.participants.Keys
    ensures r.Some? ==> forall sid :: sid in st.participants && JStr(sid) != pid ==>
      r.value.participants[sid] == st.participants[sid]
    ensures !(pid.JStr? && pid.s in st.participants && st.participants[pid.s].room == rid) ==> r == Some(st)
    ensures pid.JStr? && pid.s in st.participants && st.participants[pid.s].room == rid ==>
      && var p := st.participants[pid.s];
      && (r.Some? <==> NewFlag(p.hasCamera, camera).Some? && NewFlag(p.hasMicrophone, mic).Some?)
      && (r.Some? ==> (r.value.participants[pid.s] ==
            p.(hasCamera := NewFlag(p.hasCamera, camera).value, hasMicrophone := NewFlag(p.hasMicrophone, mic).value)))
  {
    match pid
    case JStr(sid) =>
      if !(sid in st.participants && st.participants[sid].room == rid) then Some(st)
      else
        var p := st.participants[sid];
        (match (NewFlag(p.hasCamera, camera), NewFlag(p.hasMicrophone, mic))
         case (Some(cam), Some(m)) =>
           var p' := p.(hasCamera := cam, hasMicrophone := m);
           SetParticipantFacts(st, p');
           Some(SetParticipant(st, p'))
         case _ => None)
    case _ => Some(st)
  }

  /**
   * `handle_participant_status`: the update is broadcast with the values as
   * received, unless saving raised, in which case nothing is sent.
   */
  function HandleStatus(st: Store, conn: Conn, data: Json): (e: Effect)
    requires Valid(st)
    ensures Valid(e.store) && Evolves(st, e.store) && e.toSelf.None?
    ensures e.toGroup.Some? <==>
      UpdateStatus(st, Upper(conn.rawRoomId), GetOr(data, "participant_id", JStr(conn.participantId)),
                   GetOr(data, "has_camera", JNull), GetOr(data, "has_microphone", JNull)).Some?
    ensures e.toGroup.None? ==> e.store == st
    ensures e.toGroup.Some? ==> e.toGroup.value == Broadcast(StatusMsg(
      GetOr(data, "participant_id", JStr(conn.participantId)),
      GetOr(data, "has_camera", JNull), GetOr(data, "has_microphone", JNull)))
  {
    var pid := GetOr(data, "participant_id", JStr(conn.participantId));
    var camera := GetOr(data, "has_camera", JNull);
    var mic := GetOr(data, "has_microphone", JNull);
    match UpdateStatus(st, Upper(conn.rawRoomId), pid, camera, mic)
    case None => Nothing(st)
    case Some(st') => Effect(st', Some(Broadcast(StatusMsg(pid, camera, mic))), None)
  }

  /** `receive`: classify the message and run its handler; only the status handler writes the store. */
  function Receive(st: Store, conn: Conn, data: Option<Json>, svc: SignTranslator.Service,
                   classify: SignTranslator.Classifier, stamp: string): (e: Effect)
    requires Valid(st)
    ensures Valid(e.store) && Evolves(st, e.store)
    ensures Classify(data) == Dropped ==> e == Nothing(st)
    ensures Classify(data) != ParticipantStatus ==> e.store == st
    ensures e.toSelf.Some? ==> Classify(data) == TranslationRequest
    ensures TypeIs(data, "translation_request") ==> e == HandleTranslation(st, conn, data.value, svc, classify, stamp)
    ensures TypeIs(data, "chat_message") ==> e == HandleChat(st, conn, data.value, stamp)
    ensures TypeIs(data, "webrtc_signal") ==> e == HandleSignal(st, conn, data.value)
    ensures TypeIs(data, "participant_status") ==> e == HandleStatus(st, conn, data.value)
  {
    match Classify(data)
    case Dropped => Nothing(st)
    case TranslationRequest => HandleTranslation(st, conn, data.value, svc, classify, stamp)
    case ChatMessage => HandleChat(st, conn, data.value, stamp)
    case WebrtcSignal => HandleSignal(st, conn, data.value)
    case ParticipantStatus => HandleStatus(st, conn, data.value)
  }

  /** A chat frame carrying only its type and text. */
  function ChatFrame(text: string): Json {
    JObj(map["type" := JStr("chat_message"), "message" := JStr(text)])
  }

  /** A chat frame without a `participant_id` is attributed to the connection that sent it. */
  lemma ChatFromConnection(st: Store, conn: Conn, text: string, stamp: string)
    requires Strip(Python, text) != ""
    ensures HandleChat(st, conn, ChatFrame(text), stamp).toGroup
         == Some(Broadcast(ChatMsg(JStr(conn.participantId), SenderName(st, Upper(conn.rawRoomId), JStr(conn.participantId)),
                                   Strip(Python, text), stamp)))
  {
    assert Get(ChatFrame(text), "message") == Some(JStr(text));
    assert Get(ChatFrame(text), "participant_id") == None;
  }

  /** A chat message from a connection reaches every open connection in its group, the sender's own included. */
  lemma ChatReachesWholeGroup(st: Store, l: Layer, conns: map<Channel, Conn>, conn: Conn, text: string, stamp: string)
    requires Strip(Python, text) != ""
    ensures
      && var e := HandleChat(st, conn, ChatFrame(text), stamp);
      && e.toGroup.Some?
      && e.toGroup.value.msg.ChatMsg? && e.toGroup.value.msg.senderId == JStr(conn.participantId)
      && GroupSend(l, conns, GroupName(conn.rawRoomId), e.toGroup.value).Keys
           == Members(l, GroupName(conn.rawRoomId)) * conns.Keys
  {
    ChatFromConnection(st, conn, text, stamp);
    var msg := ChatMsg(JStr(conn.participantId), SenderName(st, Upper(conn.rawRoomId), JStr(conn.participantId)),
                       Strip(Python, text), stamp);
    BroadcastReachesAll(l, conns, GroupName(conn.rawRoomId), msg);
  }

  /** A signal addressed to a participant reaches only that participant's connections in the group. */
  lemma SignalReachesOnlyTarget(st: Store, l: Layer, conns: map<Channel, Conn>, conn: Conn, target: string)
    requires target != ""
    ensures
      && var data := JObj(map["type" := JStr("webrtc_signal"), "target_participant" := JStr(target)]);
      && var e := HandleSignal(st, conn, data);
      && var out := GroupSend(l, conns, GroupName(conn.rawRoomId), e.toGroup.value);
      && forall c :: c in out <==> c in Members(l, GroupName(conn.rawRoomId)) && c in conns && conns[c].participantId == target
  {
    var data := JObj(map["type" := JStr("webrtc_signal"), "target_participant" := JStr(target)]);
    assert Get(data, "target_participant") == Some(JStr(target));
  }
}

=== FILE: json.dfy ===
/**
 * Structured message values as both the Python backend and the JavaScript
 * frontend see them once a JSON body has been parsed, together with the two
 * languages' (different) notions of truthiness and of "is a number".
 */
module Json {
  import opened Wrappers

  datatype Json =
    | JNull
    | JBool(b: bool)
    | JInt(i: int)
    | JReal(r: real)
    | JStr(s: string)
    | JList(items: seq<Json>)
    | JObj(fields: map<string, Json>)

  /** `obj.get(key)`: the value under `key` when `j` is an object holding it. */
  function Get(j: Json, key: string): (r: Option<Json>)
    ensures r.Some? <==> j.JObj? && key in j.fields
    ensures r.Some? ==> r.value == j.fields[key]
  {
    if j.JObj? && key in j.fields then Some(j.fields[key]) else None
  }

  /** Python `dict.get(key, default)`. */
  function GetOr(j: Json, key: string, default: Json): (r: Json)
    ensures j.JObj? && key in j.fields ==> r == j.fields[key]
    ensures !(j.JObj? && key in j.fields) ==> r == default
  {
    Get(j, key).GetOr(default)
  }

  /** Python `bool(x)`: None, False, zero and empty containers are false. */
  predicate PyTruthy(j: Json) {
    match j
    case JNull => false
    case JBool(b) => b
    case JInt(i) => i != 0
    case JReal(r) => r != 0.0
    case JStr(s) => |s| > 0
    case JList(items) => |items| > 0
    case JObj(fields) => |fields| > 0
  }

  /**
   * JavaScript `Boolean(x)` for a present value (`undefined` is `None` at the
   * call sites): unlike Python, empty arrays and objects are truthy.
   */
  predicate JsTruthy(j: Json) {
    match j
    case JNull => false
    case JBool(b) => b
    case JInt(i) => i != 0
    case JReal(r) => r != 0.0
    case JStr(s) => |s| > 0
    case JList(_) => true
    case JObj(_) => true
  }

  /** JavaScript truthiness of a possibly-undefined value. */
  predicate JsTruthyOpt(v: Option<Json>) {
    v.Some? && JsTruthy(v.value)
  }

  /** JavaScript `a || b`: `a` when it is truthy, otherwise `b`. */
  function JsOr(a: Option<Json>, b: Json): (r: Json)
    ensures JsTruthyOpt(a) ==> r == a.value
    ensures !JsTruthyOpt(a) ==> r == b
  {
    if JsTruthyOpt(a) then a.value else b
  }

  /** Python `isinstance(x, (int, float))`; `bool` is a subclass of `int`. */
  predicate IsPyNumber(j: Json) {
    j.JInt? || j.JReal? || j.JBool?
  }

  /** The numeric value Python compares with; `True == 1`, `False == 0`. */
  function PyNumber(j: Json): (r: real)
    requires IsPyNumber(j)
    ensures j.JInt? ==> r == j.i as real
    ensures j.JReal? ==> r == j.r
    ensures j.JBool? ==> r == (if j.b then 1.0 else 0.0)
  {
    match j
    case JInt(i) => i as real
    case JReal(r) => r
    case JBool(b) => if b then 1.0 else 0.0
  }

  /** Python `len(x)`: defined on strings, lists and dicts, a `TypeError` otherwise. */
  function PyLen(j: Json): (r: Option<nat>)
    ensures r.Some? <==> j.JStr? || j.JList? || j.JObj?
    ensures j.JList? ==> r == Some(|j.items|)
  {
    match j
    case JStr(s) => Some(|s|)
    case JList(items) => Some(|items|)
    case JObj(fields) => Some(|fields|)
    case _ => None
  }

  /** For sized values Python truthiness is "non-empty". */
  lemma SizedTruthiness(j: Json)
    requires PyLen(j).Some?
    ensures PyTruthy(j) <==> PyLen(j).value > 0
  {
  }
}

=== FILE: mediapipe.dfy ===
/**
 * The browser's landmark capture service (FRONTEND/src/services/mediapipe.js):
 * turning one MediaPipe Holistic result into the frame object the backend
 * reads, the rolling buffer of recent frames, and the throttled hand-over of
 * that buffer for prediction. Holistic, the camera and the canvas drawing
 * are left out; the clock is a parameter in milliseconds.
 */
module MediaPipe {
  import opened Wrappers
  import opened Json
  import opened SignTranslator
  import TranslatorViews

  /** A MediaPipe landmark; `z` may be absent. */
  datatype MpPoint = MpPoint(x: real, y: real, z: Option<real>)

  /** A Holistic result: each part is absent when that part was not detected. */
  datatype Results = Results(
    face: Option<seq<MpPoint>>,
    pose: Option<seq<MpPoint>>,
    leftHand: Option<seq<MpPoint>>,
    rightHand: Option<seq<MpPoint>>)

  /** `{x, y, z: point.z || 0}`. */
  function ToPoint(p: MpPoint): (q: Point)
    ensures q.x == p.x && q.y == p.y
    ensures q.z == (if p.z.Some? then p.z.value else 0.0)
  {
    Point(p.x, p.y, if p.z.Some? then p.z.value else 0.0)
  }

  function ToPoints(ps: seq<MpPoint>): (qs: seq<Point>)
    ensures |qs| == |ps| && forall k :: 0 <= k < |ps| ==> qs[k] == ToPoint(ps[k])
  {
    seq(|ps|, k requires 0 <= k < |ps| => ToPoint(ps[k]))
  }

  /** The number of face points kept, and where each named pose point comes from in MediaPipe's 33. */
  const FaceKept: nat := 20
  const PoseIndex: map<string, nat> := map[
    "hombro_izq" := 11, "hombro_der" := 12,
    "codo_izq" := 13, "codo_der" := 14,
    "muneca_izq" := 15, "muneca_der" := 16]

  /** The client fills exactly the six pose names the backend reads. */
  lemma PoseNamesAgree()
    ensures PoseIndex.Keys == set k | 0 <= k < 6 :: PoseNames[k]
    ensures forall name :: name in PoseIndex ==> 11 <= PoseIndex[name] <= 16
  {
    assert PoseNames[0] == "hombro_der" && PoseNames[1] == "hombro_izq";
    assert PoseNames[2] == "codo_der" && PoseNames[3] == "codo_izq";
    assert PoseNames[4] == "muneca_der" && PoseNames[5] == "muneca_izq";
  }

  function FacePart(face: Option<seq<MpPoint>>): (pts: seq<Point>)
    ensures |pts| == 0 || |pts| == FaceKept
    ensures |pts| == FaceKept <==> face.Some? && |face.value| >= FaceKept
    ensures |pts| == FaceKept ==> pts == ToPoints(face.value)[..FaceKept]
  {
    if face.Some? && |face.value| >= FaceKept then ToPoints(face.value[..FaceKept]) else []
  }

  function PosePart(pose: Option<seq<MpPoint>>): (m: map<string, Point>)
    ensures forall name :: name in m <==> name in PoseIndex && pose.Some? && PoseIndex[name] < |pose.value|
    ensures forall name :: name in m ==> m[name] == ToPoint(pose.value[PoseIndex[name]])
  {
    if pose.None? then map[]
    else map name | name in PoseIndex && PoseIndex[name] < |pose.value| :: ToPoint(pose.value[PoseIndex[name]])
  }

  function HandPart(hand: Option<seq<MpPoint>>): (pts: seq<Point>)
    ensures hand.None? ==> pts == []
    ensures hand.Some? ==> pts == ToPoints(hand.value)
  {
    if hand.Some? then ToPoints(hand.value) else []
  }

  /**
   * `extractLandmarks`: the face only when at least twenty points came,
   * each named pose point whose index exists, every hand point; nothing at
   * all when every part came out empty.
   */
  function Extract(r: Results): (f: Option<Frame>)
    ensures f.None? <==> (FacePart(r.face) == [] && PosePart(r.pose) == map[]
      && HandPart(r.leftHand) == [] && HandPart(r.rightHand) == [])
    ensures f.Some? ==> f.value == Frame(FacePart(r.face), PosePart(r.pose), HandPart(r.leftHand), HandPart(r.rightHand))
  {
    var frame := Frame(FacePart(r.face), PosePart(r.pose), HandPart(r.leftHand), HandPart(r.rightHand));
    if frame.face == [] && frame.pose == map[] && frame.leftHand == [] && frame.rightHand == [] then None
    else Some(frame)
  }

  /** Truncating the face to twenty points loses nothing the backend would read. */
  lemma FaceTruncationHarmless(face: seq<MpPoint>)
    ensures PointsFeatures(FacePart(Some(face)), FacePoints) == PointsFeatures(ToPoints(face), FacePoints)
  {
    if |face| >= FaceKept {
      var pts := FacePart(Some(face));
      assert pts[..FacePoints] == ToPoints(face)[..FacePoints];
    }
  }

  /** A frame with its capture time, as it sits in the buffer. */
  datatype Stamped = Stamped(frame: Frame, now: int)

  /** The object sent to the backend: the encoded frame plus `timestamp` in seconds. */
  function Wire(s: Stamped): (j: Json)
    ensures TranslatorViews.FrameShapeOk(j)
    ensures Get(j, "timestamp") == Some(JReal(s.now as real / 1000.0))
  {
    var enc := EncodeFrame(s.frame);
    JObj(enc.fields["timestamp" := JReal(s.now as real / 1000.0)])
  }

  /** The extra `timestamp` key is ignored: the backend reads the same features as from the bare frame. */
  lemma WireFeatures(s: Stamped)
    ensures JsonFrameFeatures(Wire(s)) == Some(FrameToFeatures(s.frame))
  {
    var enc := EncodeFrame(s.frame);
    var j := Wire(s);
    assert GetOr(j, "face", JNull) == GetOr(enc, "face", JNull);
    assert GetOr(j, "pose", JNull) == GetOr(enc, "pose", JNull);
    assert GetOr(j, "left_hand", JNull) == GetOr(enc, "left_hand", JNull);
    assert GetOr(j, "right_hand", JNull) == GetOr(enc, "right_hand", JNull);
    FrameRoundTrip(s.frame);
  }

  function Wires(buf: seq<Stamped>): (js: seq<Json>)
    ensures |js| == |buf| && forall k :: 0 <= k < |buf| ==> js[k] == Wire(buf[k])
  {
    seq(|buf|, k requires 0 <= k < |buf| => Wire(buf[k]))
  }

  function FramesOf(buf: seq<Stamped>): (fs: seq<Frame>)
    ensures |fs| == |buf| && forall k :: 0 <= k < |buf| ==> fs[k] == buf[k].frame
  {
    seq(|buf|, k requires 0 <= k < |buf| => buf[k].frame)
  }

  // --------------------------------------------------------------- state

  const BufferSize: nat := 25
  const PredictionIntervalMs: int := 1000
  const MinBufferedFrames: nat := 10

  datatype Capture = Capture(
    initialized: bool,
    capturing: bool,
    buffer: seq<Stamped>,
    lastPredictionTime: int,
    hasOnLandmarks: bool,
    hasOnError: bool)

  function InitialCapture(): Capture {
    Capture(false, false, [], 0, false, false)
  }

  predicate Bounded(c: Capture) {
    |c.buffer| <= BufferSize
  }

  /** `addToBuffer`: push, then drop the oldest once when over twenty-five. */
  function AddToBuffer(buf: seq<Stamped>, s: Stamped): (r: seq<Stamped>)
    ensures |buf| < BufferSize ==> r == buf + [s]
    ensures |buf| >= BufferSize ==> r == buf[1..] + [s]
    ensures |buf| <= BufferSize ==> |r| <= BufferSize
  {
    var pushed := buf + [s];
    if |pushed| > BufferSize then pushed[1..] else pushed
  }

  /** With a bounded buffer, the result is the newest twenty-five at most, ending with the new frame. */
  lemma BufferKeepsNewest(buf: seq<Stamped>, s: Stamped)
    requires |buf| <= BufferSize
    ensures var r := AddToBuffer(buf, s);
      && |r| == (if |buf| == BufferSize then BufferSize else |buf| + 1)
      && r == (buf + [s])[|buf| + 1 - |r|..]
      && r[|r| - 1] == s
  {
  }

  /**
   * `checkForPrediction`: at least a second since the last hand-over and at
   * least ten buffered frames; the time is recorded even with no callback
   * set, and the callback receives a copy of the whole buffer.
   */
  function CheckForPrediction(c: Capture, now: int): (res: (Capture, Option<seq<Json>>))
    ensures var due := now - c.lastPredictionTime >= PredictionIntervalMs && |c.buffer| >= MinBufferedFrames;
      && res.0 == (if due then c.(lastPredictionTime := now) else c)
      && (res.1.Some? <==> due && c.hasOnLandmarks)
      && (res.1.Some? ==> res.1.value == Wires(c.buffer))
  {
    if now - c.lastPredictionTime >= PredictionIntervalMs && |c.buffer| >= MinBufferedFrames then
      (c.(lastPredictionTime := now), if c.hasOnLandmarks then Some(Wires(c.buffer)) else None)
    else (c, None)
  }

  /** `onHolisticResults`: ignored unless capturing; a frame with data is buffered and may trigger a hand-over. */
  function OnResults(c: Capture, r: Results, now: int): (res: (Capture, Option<seq<Json>>))
    ensures !c.capturing || Extract(r).None? ==> res == (c, None)
    ensures c.capturing && Extract(r).Some? ==>
      res == CheckForPrediction(c.(buffer := AddToBuffer(c.buffer, Stamped(Extract(r).value, now))), now)
    ensures Bounded(c) ==> Bounded(res.0)
  {
    if !c.capturing then (c, None)
    else match Extract(r)
      case None => (c, None)
      case Some(f) => CheckForPrediction(c.(buffer := AddToBuffer(c.buffer, Stamped(f, now))), now)
  }

  /** A hand-over carries ten to twenty-five frames, the newest last, at least a second after the previous one. */
  lemma HandOverShape(c: Capture, r: Results, now: int)
    requires Bounded(c)
    requires OnResults(c, r, now).1.Some?
    ensures var sent := OnResults(c, r, now).1.value;
      && MinBufferedFrames <= |sent| <= BufferSize
      && sent[|sent| - 1] == Wire(Stamped(Extract(r).value, now))
      && now - c.lastPredictionTime >= PredictionIntervalMs
      && OnResults(c, r, now).0.lastPredictionTime == now
  {
  }

  /** Two JSON sequences whose frames read the same give the same feature vector. */
  lemma {:induction false} SameRows(a: seq<Json>, b: seq<Json>)
    requires |a| == |b|
    requires forall k :: 0 <= k < |a| ==> JsonFrameFeatures(a[k]) == JsonFrameFeatures(b[k])
    ensures JsonRows(a) == JsonRows(b)
    decreases |a|
  {
    if a != [] {
      SameRows(a[1..], b[1..]);
    }
  }

  lemma SameSequenceFeatures(a: seq<Json>, b: seq<Json>)
    requires |a| == |b|
    requires forall k :: 0 <= k < |a| ==> JsonFrameFeatures(a[k]) == JsonFrameFeatures(b[k])
    ensures JsonSequenceFeatures(a) == JsonSequenceFeatures(b)
  {
    if |a| >= MinFrames {
      var na := NormalizeSequenceLength(a, SequenceFrames);
      var nb := NormalizeSequenceLength(b, SequenceFrames);
      forall k | 0 <= k < SequenceFrames ensures JsonFrameFeatures(na[k]) == JsonFrameFeatures(nb[k]) {
        if |a| != SequenceFrames {
          assert na[k] == a[SourceIndex(k, |a|, SequenceFrames)];
          assert nb[k] == b[SourceIndex(k, |b|, SequenceFrames)];
        }
      }
      SameRows(na, nb);
    }
  }

  /**
   * A hand-over posted to the prediction endpoint is always accepted, and the
   * classifier sees exactly the features of the captured frames.
   */
  lemma CapturedSequencePredicts(svc: Service, classify: Classifier, buf: seq<Stamped>)
    requires MinBufferedFrames <= |buf|
    ensures var body := JObj(map["landmarks" := JList(Wires(buf))]);
      TranslatorViews.PredictSigns(svc, classify, body).PredictOk?
    ensures JsonSequenceFeatures(Wires(buf)) == Vector(SequenceToFeatures(FramesOf(buf)).value)
  {
    var ws := Wires(buf);
    assert forall k :: 0 <= k < |ws| ==> TranslatorViews.FrameShapeOk(ws[k]);
    TranslatorViews.ShapedFramesPredict(svc, classify, ws);
    WiresFeatures(buf);
  }

  /** The backend reads from the buffer's wire objects the features of the buffered frames. */
  lemma WiresFeatures(buf: seq<Stamped>)
    requires MinBufferedFrames <= |buf|
    ensures JsonSequenceFeatures(Wires(buf)) == Vector(SequenceToFeatures(FramesOf(buf)).value)
  {
    var ws := Wires(buf);
    var enc := EncodeFrames(FramesOf(buf));
    forall k | 0 <= k < |ws| ensures JsonFrameFeatures(ws[k]) == JsonFrameFeatures(enc[k]) {
      WireFeatures(buf[k]);
      FrameRoundTrip(buf[k].frame);
    }
    SameSequenceFeatures(ws, enc);
    SequenceRoundTrip(FramesOf(buf));
  }

  // ----------------------------------------------------------- lifecycle

  /** `initialize`: marks the service ready when Holistic and the camera were set up. */
  function Initialize(c: Capture, setupSucceeds: bool): (c': Capture)
    ensures c'.initialized == (c.initialized || setupSucceeds)
    ensures c'.capturing == c.capturing && c'.buffer == c.buffer
  {
    if setupSucceeds then c.(initialized := true) else c
  }

  datatype StartResult = NotInitialized | Started | CameraFailed

  /** `startCapture`: throws before initialisation; captures only once the camera started. */
  function StartCapture(c: Capture, cameraStarts: bool): (res: (Capture, StartResult))
    ensures !c.initialized ==> res == (c, NotInitialized)
    ensures c.initialized && cameraStarts ==> res == (c.(capturing := true), Started)
    ensures c.initialized && !cameraStarts ==> res == (c, CameraFailed)
  {
    if !c.initialized then (c, NotInitialized)
    else if cameraStarts then (c.(capturing := true), Started)
    else (c, CameraFailed)
  }

  /** `stopCapture`: stops and empties the buffer. */
  function StopCapture(c: Capture): (c': Capture)
    ensures !c'.capturing && c'.buffer == []
    ensures c'.initialized == c.initialized && c'.lastPredictionTime == c.lastPredictionTime
  {
    c.(capturing := false, buffer := [])
  }

  /** After a stop, results are ignored until capture starts again. */
  lemma StoppedIgnoresResults(c: Capture, r: Results, now: int)
    ensures OnResults(StopCapture(c), r, now) == (StopCapture(c), None)
  {
  }

  /** `cleanup`: stops and forgets the set-up, so capture cannot restart without a new `initialize`. */
  function Cleanup(c: Capture): (c': Capture)
    ensures !c'.capturing && !c'.initialized && c'.buffer == []
  {
    StopCapture(c).(initialized := false)
  }

  lemma CleanupNeedsInitialize(c: Capture, cameraStarts: bool)
    ensures StartCapture(Cleanup(c), cameraStarts).1 == NotInitialized
  {
  }

  /** `setCallbacks`: only callbacks passed in are replaced; none can be removed. */
  function SetCallbacks(c: Capture, onLandmarks: bool, onError: bool): (c': Capture)
    ensures c'.hasOnLandmarks == (c.hasOnLandmarks || onLandmarks)
    ensures c'.hasOnError == (c.hasOnError || onError)
    ensures c'.buffer == c.buffer && c'.capturing == c.capturing
  {
    c.(hasOnLandmarks := c.hasOnLandmarks || onLandmarks, hasOnError := c.hasOnError || onError)
  }

  datatype Status = Status(isInitialized: bool, isCapturing: bool, bufferSize: nat, maxBufferSize: nat)

  function GetStatus(c: Capture): (s: Status)
    ensures Bounded(c) ==> s.bufferSize <= s.maxBufferSize == BufferSize
    ensures s.isCapturing == c.capturing && s.bufferSize == |c.buffer|
  {
    Status(c.initialized, c.capturing, |c.buffer|, BufferSize)
  }
}

=== FILE: room_views.dfy ===
/**
 * The room HTTP endpoints (backend/rooms/views.py) as pure functions from a
 * store and a request to a new store and a reply. Status codes are the reply
 * constructors: `Created` is 201, the `...Rejected`/`...BadRequest` replies
 * are 400, `...NotFound` replies are 404, `...Failed` replies are 500.
 *
 * The join, status and leave views look the room up with
 * `get_object_or_404`, which raises `Http404` rather than
 * `Room.DoesNotExist`; their `except Room.DoesNotExist` branches never run
 * and an unknown room reaches the generic `except Exception`, a 500 reply.
 * The `...Checked` variants answer the intended 404 instead.
 */
module RoomViews {
  import opened Wrappers
  import opened Json
  import opened Text
  import opened Rooms

  datatype Features = Features(translation: bool, stt: bool, tts: bool)

  function RoomFeatures(r: Room): Features {
    Features(r.translationEnabled, r.sttEnabled, r.ttsEnabled)
  }

  /** The displayed name: the stored name, or `Sala <id>` when it is empty. */
  function DisplayName(r: Room): string {
    if r.name != "" then r.name else "Sala " + r.roomId
  }

  /** The 404 message quotes the id exactly as it appeared in the URL. */
  function RoomNotFoundMessage(rawId: string): string {
    "Sala " + rawId + " no encontrada"
  }

  /** `str()` of the `Http404` that `get_object_or_404(Room, ...)` raises. */
  const NoRoomMatches: string := "No Room matches the given query."

  const JoinErrorPrefix: string := "Error uniéndose a la sala: "
  const StatusErrorPrefix: string := "Error obteniendo estado de sala: "
  const LeaveErrorPrefix: string := "Error saliendo de la sala: "

  // ---------------------------------------------------------------- create

  /** Body of a create request; `None` is an absent key. A null or non-boolean feature flag is not modelled. */
  datatype CreateRequest = CreateRequest(
    name: Option<string>,
    maxParticipants: Option<Json>,
    translationEnabled: Option<bool>,
    sttEnabled: Option<bool>,
    ttsEnabled: Option<bool>)

  datatype CreateReply =
    | Created(roomId: RoomId, roomName: string, maxParticipants: int, features: Features,
              participantsCount: nat)
    | CreateRejected(error: string)

  const DefaultMaxParticipants: int := 10
  const MaxParticipantsError: string := "max_participants debe ser un número entre 2 y 50"

  /** The integer Python sees in `isinstance(v, int)`: booleans are integers too. */
  function PyIntValue(j: Json): Option<int> {
    match j
    case JInt(i) => Some(i)
    case JBool(b) => Some(if b then 1 else 0)
    case _ => None
  }

  /** The capacity check of the create endpoint. */
  predicate MaxAccepted(j: Json) {
    PyIntValue(j).Some? && 2 <= PyIntValue(j).value <= 50
  }

  /** Booleans pass the `int` test but are 0 or 1, so only a JSON integer in [2, 50] is accepted. */
  lemma MaxAcceptedOnlyIntegers(j: Json)
    ensures MaxAccepted(j) <==> j.JInt? && 2 <= j.i <= 50
  {
  }

  /**
   * `CreateRoomView.post`. The new id stands for the random choice made
   * by `Room.save`; the room starts waiting, with nobody in it.
   */
  function CreateRoom(st: Store, req: CreateRequest, newId: RoomId, now: Time): (res: (Store, CreateReply))
    requires Valid(st) && ValidRoomId(newId) && newId !in st.rooms
    ensures Valid(res.0) && Evolves(st, res.0)
    ensures var max := req.maxParticipants.GetOr(JInt(DefaultMaxParticipants));
      && (res.1.Created? <==> MaxAccepted(max))
      && (res.1.CreateRejected? ==> res.0 == st && res.1.error == MaxParticipantsError)
    ensures res.1.Created? ==>
      && res.1.roomId == newId
      && res.0.participants == st.participants
      && res.0.rooms.Keys == st.rooms.Keys + {newId}
      && (forall rid :: rid in st.rooms ==> res.0.rooms[rid] == st.rooms[rid])
      && res.0.rooms[newId].status == Waiting
      && res.0.rooms[newId].createdAt == now
      && res.0.rooms[newId].startedAt.None? && res.0.rooms[newId].endedAt.None?
      && res.0.rooms[newId].maxParticipants == res.1.maxParticipants
      && 2 <= res.1.maxParticipants <= 50
      && res.1.features == Features(req.translationEnabled.GetOr(true), req.sttEnabled.GetOr(true),
                                    req.ttsEnabled.GetOr(true))
      && res.1.roomName == DisplayName(res.0.rooms[newId])
      && res.1.participantsCount == 0 == ParticipantsCount(res.0, newId)
  {
    var max := req.maxParticipants.GetOr(JInt(DefaultMaxParticipants));
    if !MaxAccepted(max) then (st, CreateRejected(MaxParticipantsError))
    else
      var room := Room(newId, Waiting, req.name.GetOr(""), now, None, None, PyIntValue(max).value,
                       req.translationEnabled.GetOr(true), req.sttEnabled.GetOr(true),
                       req.ttsEnabled.GetOr(true));
      var st' := st.(rooms := st.rooms[newId := room]);
      assert ConnectedIn(st', newId) == {};
      (st', Created(newId, DisplayName(room), room.maxParticipants, RoomFeatures(room), 0))
  }

  /** An empty body creates a waiting room for ten. */
  lemma CreateDefaults(st: Store, newId: RoomId, now: Time)
    requires Valid(st) && ValidRoomId(newId) && newId !in st.rooms
    ensures var res := CreateRoom(st, CreateRequest(None, None, None, None, None), newId, now);
      && res.1 == Created(newId, "Sala " + newId, 10, Features(true, true, true), 0)
      && res.0.rooms[newId].status == Waiting
  {
  }

  // ------------------------------------------------------------------ join

  datatype JoinRequest = JoinRequest(
    participantName: Option<string>,
    hasCamera: Option<bool>,
    hasMicrophone: Option<bool>,
    isDeaf: Option<bool>,
    isMute: Option<bool>)

  datatype JoinReply =
    | Joined(roomId: RoomId, participantId: SessionId, roomName: string, status: Status,
             participantsCount: nat, maxParticipants: int, participants: set<SessionId>)
    | JoinRejected(error: string, roomStatus: Status, participantsCount: nat)
    | JoinNotFound(error: string)
    | JoinFailed(error: string)

  const DefaultParticipantName: string := "Participante"
  const NameLimit: nat := 50

  /** Python `s[:n]`. */
  function Truncate(s: string, n: nat): (r: string)
    ensures |r| <= n && |r| <= |s| && r == s[..|r|]
    ensures |s| <= n ==> r == s
  {
    if |s| <= n then s else s[..n]
  }

  /**
   * `JoinRoomView.post`. The URL id is upper-cased before the lookup; the
   * new session id stands for `uuid4()`. An unknown room is a 500.
   */
  function JoinRoom(st: Store, rawId: string, req: JoinRequest, sid: SessionId, now: Time)
    : (res: (Store, JoinReply))
    requires Valid(st) && sid !in st.participants
    ensures Valid(res.0) && Evolves(st, res.0)
    ensures Upper(rawId) !in st.rooms ==> res == (st, JoinFailed(JoinErrorPrefix + NoRoomMatches))
    ensures var rid := Upper(rawId);
      rid in st.rooms && !CanJoin(st.rooms[rid], ParticipantsCount(st, rid)).0 ==>
        res == (st, JoinRejected(CanJoin(st.rooms[rid], ParticipantsCount(st, rid)).1,
                                 st.rooms[rid].status, ParticipantsCount(st, rid)))
    ensures var rid := Upper(rawId);
      rid in st.rooms && CanJoin(st.rooms[rid], ParticipantsCount(st, rid)).0 ==>
        && res.1.Joined?
        && res.1.roomId == rid && res.1.participantId == sid
        && res.0.participants.Keys == st.participants.Keys + {sid}
        && (forall s :: s in st.participants ==> res.0.participants[s] == st.participants[s])
        && res.0.participants[sid].room == rid
        && res.0.participants[sid].isConnected
        && res.0.participants[sid].disconnectedAt.None?
        && res.0.participants[sid].joinedAt == now
        && res.0.participants[sid].name == Truncate(req.participantName.GetOr(DefaultParticipantName), NameLimit)
        && res.0.rooms == st.rooms[rid := Activate(st.rooms[rid], now)]
        && res.1.status == Active
        && res.1.participants == ConnectedIn(res.0, rid) == ConnectedIn(st, rid) + {sid}
        && res.1.participantsCount == ParticipantsCount(st, rid) + 1 <= res.1.maxParticipants
  {
    var rid := Upper(rawId);
    if rid !in st.rooms then (st, JoinFailed(JoinErrorPrefix + NoRoomMatches))
    else
      var room := st.rooms[rid];
      var count := ParticipantsCount(st, rid);
      var (ok, message) := CanJoin(room, count);
      if !ok then (st, JoinRejected(message, room.status, count))
      else Admit(st, rid, req, sid, now)
  }

  /** The admitting branch of `JoinRoomView.post`: record the participant, then activate the room. */
  function Admit(st: Store, rid: RoomId, req: JoinRequest, sid: SessionId, now: Time): (res: (Store, JoinReply))
    requires Valid(st) && sid !in st.participants && rid in st.rooms
    requires CanJoin(st.rooms[rid], ParticipantsCount(st, rid)).0
    ensures Valid(res.0) && Evolves(st, res.0)
    ensures && res.1.Joined?
            && res.1.roomId == rid && res.1.participantId == sid
            && res.0.participants.Keys == st.participants.Keys + {sid}
            && (forall s :: s in st.participants ==> res.0.participants[s] == st.participants[s])
            && res.0.participants[sid].room == rid
            && res.0.participants[sid].isConnected
            && res.0.participants[sid].disconnectedAt.None?
            && res.0.participants[sid].joinedAt == now
            && res.0.participants[sid].name == Truncate(req.participantName.GetOr(DefaultParticipantName), NameLimit)
            && res.0.rooms == st.rooms[rid := Activate(st.rooms[rid], now)]
            && res.1.status == Active
            && res.1.participants == ConnectedIn(res.0, rid) == ConnectedIn(st, rid) + {sid}
            && res.1.participantsCount == ParticipantsCount(st, rid) + 1 <= res.1.maxParticipants
  {
    var st1 := Enrol(st, rid, req, sid, now);
    var room' := Activate(st.rooms[rid], now);
    var st' := SetRoom(st1, room');
    SetRoomFacts(st1, room');
    EvolvesTransitive(st, st1, st');
    assert ConnectedIn(st', rid) == ConnectedIn(st1, rid);
    (st', Joined(rid, sid, DisplayName(room'), room'.status, ParticipantsCount(st', rid),
                 room'.maxParticipants, ConnectedIn(st', rid)))
  }

  /** The record `Participant.objects.create` stores for a join request, the defaults filled in. */
  function Joiner(rid: RoomId, req: JoinRequest, sid: SessionId, now: Time): Participant {
    Participant(rid, sid, Truncate(req.participantName.GetOr(DefaultParticipantName), NameLimit),
                true, req.hasCamera.GetOr(true), req.hasMicrophone.GetOr(true),
                req.isDeaf.GetOr(false), req.isMute.GetOr(false), now, None)
  }

  /** The new participant's record: connected, in room `rid`, with the request's settings or their defaults. */
  function Enrol(st: Store, rid: RoomId, req: JoinRequest, sid: SessionId, now: Time): (st': Store)
    requires Valid(st) && sid !in st.participants && rid in st.rooms
    ensures Valid(st') && Evolves(st, st') && st'.rooms == st.rooms
    ensures st'.participants.Keys == st.participants.Keys + {sid}
    ensures forall s :: s in st.participants ==> st'.participants[s] == st.participants[s]
    ensures && st'.participants[sid].room == rid
            && st'.participants[sid].isConnected
            && st'.participants[sid].disconnectedAt.None?
            && st'.participants[sid].joinedAt == now
            && st'.participants[sid].name == Truncate(req.participantName.GetOr(DefaultParticipantName), NameLimit)
    ensures ConnectedIn(st', rid) == ConnectedIn(st, rid) + {sid}
    ensures ParticipantsCount(st', rid) == ParticipantsCount(st, rid) + 1
  {
    var p := Joiner(rid, req, sid, now);
    var st' := SetParticipant(st, p);
    AddParticipantFacts(st, p);
    assert sid !in ConnectedIn(st, rid);
    st'
  }

  /** A join reads the request only through the record it creates: requests giving the same record join alike. */
  lemma JoinDependsOnJoiner(st: Store, rawId: string, req: JoinRequest, req': JoinRequest, sid: SessionId, now: Time)
    requires Valid(st) && sid !in st.participants
    requires Joiner(Upper(rawId), req, sid, now) == Joiner(Upper(rawId), req', sid, now)
    ensures JoinRoom(st, rawId, req, sid, now) == JoinRoom(st, rawId, req', sid, now)
  {
    var rid := Upper(rawId);
    if rid in st.rooms && CanJoin(st.rooms[rid], ParticipantsCount(st, rid)).0 {
      assert Enrol(st, rid, req, sid, now) == Enrol(st, rid, req', sid, now);
    }
  }

  /** Whatever the request, a join never pushes a room past its capacity. */
  lemma JoinRespectsCapacity(st: Store, rawId: string, req: JoinRequest, sid: SessionId, now: Time)
    requires Valid(st) && sid !in st.participants
    requires Upper(rawId) in st.rooms
    requires ParticipantsCount(st, Upper(rawId)) <= st.rooms[Upper(rawId)].maxParticipants
    ensures var st' := JoinRoom(st, rawId, req, sid, now).0;
      ParticipantsCount(st', Upper(rawId)) <= st'.rooms[Upper(rawId)].maxParticipants
  {
  }

  /** A room id looks up the same room however it is cased. */
  lemma JoinIgnoresIdCase(st: Store, rawId: string, req: JoinRequest, sid: SessionId, now: Time)
    requires Valid(st) && sid !in st.participants
    ensures JoinRoom(st, rawId, req, sid, now).0 == JoinRoom(st, Upper(rawId), req, sid, now).0
  {
    UpperIdempotent(rawId);
  }

  // ---------------------------------------------------------------- status

  datatype StatusReply =
    | StatusReport(roomId: RoomId, status: Status, participantsCount: nat, maxParticipants: int,
                   participants: set<SessionId>, canJoin: bool, roomName: string)
    | StatusNotFound(error: string)
    | StatusFailed(error: string)

  /**
   * `RoomStatusView.get`: an expired room is handed to `end_room` before the
   * report is built; nothing else changes.
   */
  function RoomStatus(st: Store, rawId: string, now: Time): (res: (Store, StatusReply))
    requires Valid(st)
    ensures Valid(res.0) && Evolves(st, res.0)
    ensures Upper(rawId) !in st.rooms ==> res == (st, StatusFailed(StatusErrorPrefix + NoRoomMatches))
    ensures var rid := Upper(rawId);
      rid in st.rooms ==>
        var r' := if IsExpired(st, rid, now) then EndRoom(st.rooms[rid], now) else st.rooms[rid];
        && res.0 == st.(rooms := st.rooms[rid := r'])
        && res.1.StatusReport?
        && res.1.status == r'.status
        && res.1.participants == ConnectedIn(st, rid)
        && res.1.participantsCount == ParticipantsCount(st, rid)
        && res.1.canJoin == (r'.status != Ended && ParticipantsCount(st, rid) < r'.maxParticipants)
  {
    var rid := Upper(rawId);
    if rid !in st.rooms then (st, StatusFailed(StatusErrorPrefix + NoRoomMatches))
    else
      var r := st.rooms[rid];
      var r' := if IsExpired(st, rid, now) then EndRoom(r, now) else r;
      var st' := SetRoom(st, r');
      SetRoomFacts(st, r');
      (st', StatusReport(rid, r'.status, ParticipantsCount(st', rid), r'.maxParticipants,
                         ConnectedIn(st', rid), CanJoin(r', ParticipantsCount(st', rid)).0,
                         DisplayName(r')))
  }

  /**
   * Expiry only ends active rooms: an expired waiting room is reported as
   * still waiting and still joinable while it has room.
   */
  lemma ExpiredWaitingRoomStaysWaiting(st: Store, rawId: string, now: Time)
    requires Valid(st) && Upper(rawId) in st.rooms
    requires st.rooms[Upper(rawId)].status == Waiting
    requires now - st.rooms[Upper(rawId)].createdAt > WaitingTimeout
    ensures IsExpired(st, Upper(rawId), now)
    ensures RoomStatus(st, rawId, now).0 == st
    ensures RoomStatus(st, rawId, now).1.status == Waiting
  {
  }

  /** An active room left empty for over an hour is reported ended and no longer joinable. */
  lemma AbandonedActiveRoomEnds(st: Store, rawId: string, now: Time, latest: SessionId)
    requires Valid(st) && Upper(rawId) in st.rooms
    requires st.rooms[Upper(rawId)].status == Active
    requires ParticipantsCount(st, Upper(rawId)) == 0
    requires DisconnectedIn(st, Upper(rawId), latest)
    requires forall sid :: DisconnectedIn(st, Upper(rawId), sid) ==>
      now - st.participants[sid].disconnectedAt.value > EmptyTimeout
    ensures RoomStatus(st, rawId, now).1.status == Ended
    ensures !RoomStatus(st, rawId, now).1.canJoin
    ensures RoomStatus(st, rawId, now).0.rooms[Upper(rawId)].endedAt == Some(now)
  {
  }

  /** Asking for the status twice at the same instant changes the store at most once. */
  lemma RoomStatusIdempotent(st: Store, rawId: string, now: Time)
    requires Valid(st)
    ensures var st' := RoomStatus(st, rawId, now).0;
      RoomStatus(st', rawId, now) == (st', RoomStatus(st, rawId, now).1)
  {
    var rid := Upper(rawId);
    if rid in st.rooms {
      var r := st.rooms[rid];
      var r' := if IsExpired(st, rid, now) then EndRoom(r, now) else r;
      var st' := RoomStatus(st, rawId, now).0;
      assert st' == SetRoom(st, r');
      SetRoomFacts(st, r');
      if r' == r {
        assert st'.rooms == st.rooms;
      } else {
        assert r'.status == Ended && IsExpired(st', rid, now);
        assert EndRoom(r', now) == r';
        assert SetRoom(st', r') == st';
      }
    }
  }

  // ----------------------------------------------------------------- leave

  datatype LeaveReply =
    | Left(roomId: RoomId, participantsCount: nat, roomStatus: Status)
    | LeaveBadRequest(error: string)
    | LeaveNotFound(error: string)
    | LeaveFailed(error: string)

  const ParticipantIdRequired: string := "participant_id es requerido"
  const ParticipantGone: string := "Participante no encontrado o ya desconectado"

  /** The participant is connected and belongs to the room. */
  predicate ConnectedMember(st: Store, rid: RoomId, sid: SessionId) {
    sid in st.participants && st.participants[sid].room == rid && st.participants[sid].isConnected
  }

  /**
   * `LeaveRoomView.post`: the room lookup comes first, then the id check,
   * then the connected-member lookup; only then is the participant
   * disconnected (which may end the room). The count is queried afresh, but
   * `room_status` is read from the view's own room object, loaded before the
   * disconnect: `participant.disconnect()` ends a separately loaded copy.
   */
  function LeaveRoom(st: Store, rawId: string, participantId: Option<string>, now: Time)
    : (res: (Store, LeaveReply))
    requires Valid(st)
    ensures Valid(res.0) && Evolves(st, res.0)
    ensures Upper(rawId) !in st.rooms ==> res == (st, LeaveFailed(LeaveErrorPrefix + NoRoomMatches))
    ensures Upper(rawId) in st.rooms && participantId.GetOr("") == "" ==>
      res == (st, LeaveBadRequest(ParticipantIdRequired))
    ensures (Upper(rawId) in st.rooms && participantId.GetOr("") != ""
             && !ConnectedMember(st, Upper(rawId), participantId.value)) ==>
      res == (st, LeaveNotFound(ParticipantGone))
    ensures var rid := Upper(rawId);
      rid in st.rooms && participantId.Some? && participantId.value != ""
      && ConnectedMember(st, rid, participantId.value) ==>
        && res.0 == Disconnect(st, participantId.value, now)
        && res.1 == Left(rid, ParticipantsCount(st, rid) - 1, st.rooms[rid].status)
        && (res.0.rooms[rid].status == Ended <==>
              (st.rooms[rid].status == Ended || (st.rooms[rid].status == Active && ParticipantsCount(st, rid) == 1)))
  {
    var rid := Upper(rawId);
    if rid !in st.rooms then (st, LeaveFailed(LeaveErrorPrefix + NoRoomMatches))
    else if participantId.GetOr("") == "" then (st, LeaveBadRequest(ParticipantIdRequired))
    else
      var sid := participantId.value;
      if !ConnectedMember(st, rid, sid) then (st, LeaveNotFound(ParticipantGone))
      else
        var st' := Disconnect(st, sid, now);
        assert sid in ConnectedIn(st, rid);
        DisconnectEndsRoomIffLast(st, sid, now);
        (st', Left(rid, ParticipantsCount(st', rid), st.rooms[rid].status))
  }

  /**
   * The last participant leaving an active room is told the room is still
   * active, although the store now holds it ended.
   */
  lemma LastLeaverToldActive(st: Store, rawId: string, sid: SessionId, now: Time)
    requires Valid(st) && sid != ""
    requires Upper(rawId) in st.rooms && st.rooms[Upper(rawId)].status == Active
    requires ConnectedMember(st, Upper(rawId), sid) && ParticipantsCount(st, Upper(rawId)) == 1
    ensures var (st', reply) := LeaveRoom(st, rawId, Some(sid), now);
      && reply == Left(Upper(rawId), 0, Active)
      && st'.rooms[Upper(rawId)].status == Ended
  {
  }

  /**
   * The leave reply as documented: `room_status` is read after the
   * disconnect, so it says "ended" exactly when the room ended. Everything
   * else, the store included, is as in `LeaveRoom`.
   */
  function LeaveRoomReloaded(st: Store, rawId: string, participantId: Option<string>, now: Time)
    : (res: (Store, LeaveReply))
    requires Valid(st)
    ensures res.0 == LeaveRoom(st, rawId, participantId, now).0
    ensures !res.1.Left? ==> res.1 == LeaveRoom(st, rawId, participantId, now).1
    ensures var rid := Upper(rawId);
      rid in st.rooms && participantId.Some? && participantId.value != ""
      && ConnectedMember(st, rid, participantId.value) ==>
        && rid in res.0.rooms
        && res.1 == Left(rid, ParticipantsCount(st, rid) - 1, res.0.rooms[rid].status)
        && (res.1.roomStatus == Ended <==>
              (st.rooms[rid].status == Ended || (st.rooms[rid].status == Active && ParticipantsCount(st, rid) == 1)))
  {
    var (st', reply) := LeaveRoom(st, rawId, participantId, now);
    match reply
    case Left(rid, n, _) => (st', Left(rid, n, st'.rooms[rid].status))
    case _ => (st', reply)
  }

  // ------------------------------------------------------ unknown room

  /**
   * An unknown room code is a server error in all three views that look a
   * room up by its code: the 404 written for it is never produced.
   */
  lemma UnknownRoomIsServerError(st: Store, rawId: string, req: JoinRequest, sid: SessionId,
                                 participantId: Option<string>, now: Time)
    requires Valid(st) && sid !in st.participants && Upper(rawId) !in st.rooms
    ensures JoinRoom(st, rawId, req, sid, now) == (st, JoinFailed(JoinErrorPrefix + NoRoomMatches))
    ensures RoomStatus(st, rawId, now) == (st, StatusFailed(StatusErrorPrefix + NoRoomMatches))
    ensures LeaveRoom(st, rawId, participantId, now) == (st, LeaveFailed(LeaveErrorPrefix + NoRoomMatches))
  {
  }

  /** The join view with the room lookup that `except Room.DoesNotExist` expects. */
  function JoinRoomChecked(st: Store, rawId: string, req: JoinRequest, sid: SessionId, now: Time)
    : (res: (Store, JoinReply))
    requires Valid(st) && sid !in st.participants
    ensures Upper(rawId) in st.rooms ==> res == JoinRoom(st, rawId, req, sid, now)
    ensures !res.1.JoinFailed?
  {
    if Upper(rawId) !in st.rooms then (st, JoinNotFound(RoomNotFoundMessage(rawId)))
    else JoinRoom(st, rawId, req, sid, now)
  }

  /** The status view with the room lookup that `except Room.DoesNotExist` expects. */
  function RoomStatusChecked(st: Store, rawId: string, now: Time): (res: (Store, StatusReply))
    requires Valid(st)
    ensures Upper(rawId) in st.rooms ==> res == RoomStatus(st, rawId, now)
    ensures !res.1.StatusFailed?
  {
    if Upper(rawId) !in st.rooms then (st, StatusNotFound(RoomNotFoundMessage(rawId)))
    else RoomStatus(st, rawId, now)
  }

  /** The leave view with the room lookup that `except Room.DoesNotExist` expects. */
  function LeaveRoomChecked(st: Store, rawId: string, participantId: Option<string>, now: Time)
    : (res: (Store, LeaveReply))
    requires Valid(st)
    ensures Upper(rawId) in st.rooms ==> res == LeaveRoom(st, rawId, participantId, now)
    ensures !res.1.LeaveFailed?
  {
    if Upper(rawId) !in st.rooms then (st, LeaveNotFound(RoomNotFoundMessage(rawId)))
    else LeaveRoom(st, rawId, participantId, now)
  }

  /**
   * With the intended lookup, each view answers 404 "Sala <id> no encontrada"
   * exactly when the upper-cased code names no room, changes nothing then,
   * and never answers 500.
   */
  lemma UnknownRoomIsNotFound(st: Store, rawId: string, req: JoinRequest, sid: SessionId,
                              participantId: Option<string>, now: Time)
    requires Valid(st) && sid !in st.participants
    ensures var res := JoinRoomChecked(st, rawId, req, sid, now);
      (res == (st, JoinNotFound(RoomNotFoundMessage(rawId))) <==> Upper(rawId) !in st.rooms)
      && !res.1.JoinFailed?
    ensures var res := RoomStatusChecked(st, rawId, now);
      (res == (st, StatusNotFound(RoomNotFoundMessage(rawId))) <==> Upper(rawId) !in st.rooms)
      && !res.1.StatusFailed?
    ensures var res := LeaveRoomChecked(st, rawId, participantId, now);
      (res == (st, LeaveNotFound(RoomNotFoundMessage(rawId))) <==> Upper(rawId) !in st.rooms)
      && !res.1.LeaveFailed?
  {
    RoomMessagesDiffer(rawId);
  }

  /** The two 404 texts of the leave view never coincide. */
  lemma RoomMessagesDiffer(rawId: string)
    ensures RoomNotFoundMessage(rawId) != ParticipantGone
  {
    assert RoomNotFoundMessage(rawId)[0] == 'S';
    assert ParticipantGone[0] == 'P';
  }

  /** Leaving twice: the second request finds nobody to disconnect and changes nothing. */
  lemma LeaveTwice(st: Store, rawId: string, sid: SessionId, now: Time, later: Time)
    requires Valid(st) && sid != ""
    ensures var st' := LeaveRoom(st, rawId, Some(sid), now).0;
      Upper(rawId) in st.rooms ==> LeaveRoom(st', rawId, Some(sid), later) == (st', LeaveNotFound(ParticipantGone))
  {
  }

  // ------------------------------------------------------------------ list

  /** The `limit` query parameter: absent, an integer, or text `int()` rejects. */
  datatype LimitParam = NoLimit | LimitValue(n: int) | LimitUnparseable

  datatype ListReply =
    | Listed(rooms: seq<RoomId>, totalCount: nat, returnedCount: nat)
    | ListFailed(error: string)

  const DefaultLimit: int := 20
  const MaxLimit: int := 100

  /** The three status names the filter recognises. */
  function ParseStatus(s: string): (r: Option<Status>)
    ensures r == Some(Waiting) <==> s == "waiting"
    ensures r == Some(Active) <==> s == "active"
    ensures r == Some(Ended) <==> s == "ended"
  {
    if s == "waiting" then Some(Waiting)
    else if s == "active" then Some(Active)
    else if s == "ended" then Some(Ended)
    else None
  }

  predicate Matches(st: Store, rid: RoomId, f: Option<Status>) {
    rid in st.rooms && (f.None? || st.rooms[rid].status == f.value)
  }

  ghost predicate Distinct<T>(s: seq<T>) {
    forall i, j :: 0 <= i < j < |s| ==> s[i] != s[j]
  }

  /** Newest first, as `order_by('-created_at')` lists them. */
  predicate NewestFirst(st: Store, ids: seq<RoomId>) {
    && (forall k :: 0 <= k < |ids| ==> ids[k] in st.rooms)
    && (forall i, j :: 0 <= i < j < |ids| ==> st.rooms[ids[i]].createdAt >= st.rooms[ids[j]].createdAt)
  }

  /** The store's listing order: every room once, newest first. */
  ghost predicate Listing(st: Store, order: seq<RoomId>) {
    Distinct(order) && NewestFirst(st, order) && st.rooms.Keys == set x | x in order
  }

  /** `rooms_query.filter(status=...)` on an ordered listing. */
  function Filter(st: Store, ids: seq<RoomId>, f: Option<Status>): (r: seq<RoomId>)
    ensures forall x :: x in r <==> x in ids && Matches(st, x, f)
    ensures |r| <= |ids|
    ensures Distinct(ids) ==> Distinct(r)
    ensures NewestFirst(st, ids) ==> NewestFirst(st, r)
    decreases |ids|
  {
    if ids == [] then []
    else
      var rest := Filter(st, ids[1..], f);
      assert forall x :: x in ids <==> x == ids[0] || x in ids[1..];
      if Matches(st, ids[0], f) then
        PrependKeepsOrder(st, ids, rest);
        [ids[0]] + rest
      else rest
  }

  /** Putting a listing's head in front of a sub-listing of its tail keeps it distinct and newest-first. */
  lemma PrependKeepsOrder(st: Store, ids: seq<RoomId>, rest: seq<RoomId>)
    requires |ids| > 0 && forall x :: x in rest ==> x in ids[1..]
    requires Distinct(ids) ==> Distinct(rest)
    requires NewestFirst(st, ids) ==> NewestFirst(st, rest)
    ensures Distinct(ids) ==> Distinct([ids[0]] + rest)
    ensures NewestFirst(st, ids) ==> NewestFirst(st, [ids[0]] + rest)
  {
    var r := [ids[0]] + rest;
    if Distinct(ids) {
      assert ids[0] !in ids[1..];
      forall i, j | 0 <= i < j < |r| ensures r[i] != r[j] {
        if i == 0 { assert r[j] == rest[j - 1]; assert rest[j - 1] in rest; }
        else { assert r[i] == rest[i - 1] && r[j] == rest[j - 1]; }
      }
    }
    if NewestFirst(st, ids) {
      HeadIsNewest(st, ids);
      forall i, j | 0 <= i < j < |r| ensures st.rooms[r[i]].createdAt >= st.rooms[r[j]].createdAt {
        if i == 0 { assert r[j] == rest[j - 1]; assert rest[j - 1] in rest; }
        else { assert r[i] == rest[i - 1] && r[j] == rest[j - 1]; }
      }
    }
  }

  /** The head of a newest-first listing is at least as new as everything after it. */
  lemma HeadIsNewest(st: Store, ids: seq<RoomId>)
    ensures NewestFirst(st, ids) && |ids| > 0 ==>
      forall x :: x in ids[1..] ==> st.rooms[ids[0]].createdAt >= st.rooms[x].createdAt
  {
    if NewestFirst(st, ids) && |ids| > 0 {
      forall x | x in ids[1..] ensures st.rooms[ids[0]].createdAt >= st.rooms[x].createdAt {
        var j :| 0 <= j < |ids| - 1 && ids[1..][j] == x;
        assert ids[j + 1] == x;
      }
    }
  }

  lemma {:induction false} DistinctCount<T>(s: seq<T>)
    requires Distinct(s)
    ensures |set x | x in s| == |s|
    decreases |s|
  {
    if s != [] {
      DistinctCount(s[1..]);
      assert (set x | x in s) == {s[0]} + (set x | x in s[1..]);
      assert s[0] !in s[1..];
    }
  }

  /**
   * `ListRoomsView.get`. A `limit` that `int()` rejects, or a negative one
   * (which the ORM refuses to slice with), becomes a 500 reply.
   */
  function ListRooms(st: Store, order: seq<RoomId>, statusFilter: Option<string>, limit: LimitParam)
    : (res: ListReply)
    requires Listing(st, order)
    ensures limit.LimitUnparseable? || (limit.LimitValue? && limit.n < 0) <==> res.ListFailed?
    ensures res.Listed? ==>
      var f := if statusFilter.Some? then ParseStatus(statusFilter.value) else None;
      var cap := if limit.LimitValue? then (if limit.n < MaxLimit then limit.n else MaxLimit) else DefaultLimit;
      cap <= MaxLimit && PageOf(st, f, cap, res)
  {
    var f := if statusFilter.Some? then ParseStatus(statusFilter.value) else None;
    match limit
    case LimitUnparseable => ListFailed("Error listando salas: invalid literal for int()")
    case NoLimit => Page(st, order, f, DefaultLimit)
    case LimitValue(k) =>
      if k < 0 then ListFailed("Error listando salas: Negative indexing is not supported.")
      else Page(st, order, f, if k < MaxLimit then k else MaxLimit)
  }

  /**
   * `res` is a page of at most `cap` rooms matching `f`: it counts every
   * match, holds the newest ones, each once and newest first.
   */
  ghost predicate PageOf(st: Store, f: Option<Status>, cap: nat, res: ListReply) {
    && res.Listed?
    && res.totalCount == |set rid | rid in st.rooms && Matches(st, rid, f)|
    && res.returnedCount == |res.rooms| == (if res.totalCount < cap then res.totalCount else cap)
    && Distinct(res.rooms) && NewestFirst(st, res.rooms)
    && (forall k :: 0 <= k < |res.rooms| ==> Matches(st, res.rooms[k], f))
    && (forall rid :: Matches(st, rid, f) && rid !in res.rooms ==>
          forall k :: 0 <= k < |res.rooms| ==> st.rooms[res.rooms[k]].createdAt >= st.rooms[rid].createdAt)
  }

  /** The first `cap` rooms of the filtered listing, with the count taken before the cut. */
  function Page(st: Store, order: seq<RoomId>, f: Option<Status>, cap: nat): (res: ListReply)
    requires Listing(st, order)
    ensures PageOf(st, f, cap, res)
  {
    var all := Filter(st, order, f);
    var n := if |all| < cap then |all| else cap;
    PageFacts(st, order, f, all, n);
    Listed(all[..n], |all|, n)
  }

  /** What the page cut from a filtered listing holds. */
  lemma PageFacts(st: Store, order: seq<RoomId>, f: Option<Status>, all: seq<RoomId>, n: nat)
    requires Listing(st, order)
    requires forall x :: x in all <==> x in order && Matches(st, x, f)
    requires Distinct(all) && NewestFirst(st, all) && n <= |all|
    ensures |all| == |set rid | rid in st.rooms && Matches(st, rid, f)|
    ensures Distinct(all[..n]) && NewestFirst(st, all[..n])
    ensures forall k :: 0 <= k < n ==> Matches(st, all[..n][k], f)
    ensures forall rid :: Matches(st, rid, f) && rid !in all[..n] ==>
      forall k :: 0 <= k < n ==> st.rooms[all[..n][k]].createdAt >= st.rooms[rid].createdAt
  {
    assert (set x | x in all) == (set rid | rid in st.rooms && Matches(st, rid, f));
    DistinctCount(all);
    ListedPrefixIsNewest(st, all, n);
    forall rid | Matches(st, rid, f) ensures rid in all {
      assert rid in st.rooms.Keys;
    }
  }

  /** A room left out of a prefix of a newest-first listing is no newer than any shown room. */
  lemma ListedPrefixIsNewest(st: Store, all: seq<RoomId>, n: nat)
    requires n <= |all| && Distinct(all) && NewestFirst(st, all)
    ensures forall rid :: rid in all && rid !in all[..n] ==>
      forall k :: 0 <= k < n ==> st.rooms[all[k]].createdAt >= st.rooms[rid].createdAt
  {
    forall rid | rid in all && rid !in all[..n]
      ensures forall k :: 0 <= k < n ==> st.rooms[all[k]].createdAt >= st.rooms[rid].createdAt
    {
      var j :| 0 <= j < |all| && all[j] == rid;
      assert j >= n;
    }
  }
}

=== FILE: rooms.dfy ===
/**
 * Rooms and participants (backend/rooms/models.py): the three-state room
 * lifecycle, the connected-participant count, the join check, lazy expiry,
 * participant disconnect/reconnect and room-id generation. The durable store
 * is a pair of maps keyed by room id and by session id; time is an integer
 * number of seconds.
 */
module Rooms {
  import opened Wrappers

  type RoomId = string
  type SessionId = string
  type Time = int

  datatype Status = Waiting | Active | Ended

  /** Position of a status in the lifecycle `waiting -> active -> ended`. */
  function Rank(s: Status): nat {
    match s
    case Waiting => 0
    case Active => 1
    case Ended => 2
  }

  datatype Room = Room(
    roomId: RoomId,
    status: Status,
    name: string,
    createdAt: Time,
    startedAt: Option<Time>,
    endedAt: Option<Time>,
    maxParticipants: int,
    translationEnabled: bool,
    sttEnabled: bool,
    ttsEnabled: bool)

  datatype Participant = Participant(
    room: RoomId,
    sessionId: SessionId,
    name: string,
    isConnected: bool,
    hasCamera: bool,
    hasMicrophone: bool,
    isDeaf: bool,
    isMute: bool,
    joinedAt: Time,
    disconnectedAt: Option<Time>)

  /** The durable store: `room_id -> Room` and `session_id -> Participant`. */
  datatype Store = Store(rooms: map<RoomId, Room>, participants: map<SessionId, Participant>)

  /** Keys agree with the records and every participant belongs to a stored room. */
  ghost predicate Valid(st: Store) {
    && (forall rid :: rid in st.rooms ==> st.rooms[rid].roomId == rid)
    && (forall sid :: sid in st.participants ==>
          st.participants[sid].sessionId == sid && st.participants[sid].room in st.rooms)
  }

  /**
   * How the store may change between two observations: rooms and participants
   * are never deleted, a room's status never moves backwards, a participant
   * never changes room.
   */
  ghost predicate Evolves(st: Store, st': Store) {
    && (forall rid :: rid in st.rooms ==>
          rid in st'.rooms && Rank(st.rooms[rid].status) <= Rank(st'.rooms[rid].status))
    && (forall sid :: sid in st.participants ==>
          sid in st'.participants && st'.participants[sid].room == st.participants[sid].room)
  }

  /** Observations compose: a sequence of store operations is itself an evolution. */
  lemma EvolvesTransitive(a: Store, b: Store, c: Store)
    requires Evolves(a, b) && Evolves(b, c)
    ensures Evolves(a, c)
  {
  }

  /** `activate`: only a waiting room becomes active, stamping `started_at`. */
  function Activate(r: Room, now: Time): (r': Room)
    ensures r.status == Waiting ==> r'.status == Active && r'.startedAt == Some(now)
    ensures r.status != Waiting ==> r' == r
    ensures r' == r.(status := r'.status, startedAt := r'.startedAt)
    ensures Rank(r.status) <= Rank(r'.status)
  {
    if r.status == Waiting then r.(status := Active, startedAt := Some(now)) else r
  }

  /** `end_room`: only an active room ends, stamping `ended_at`. */
  function EndRoom(r: Room, now: Time): (r': Room)
    ensures r.status == Active ==> r'.status == Ended && r'.endedAt == Some(now)
    ensures r.status != Active ==> r' == r
    ensures r' == r.(status := r'.status, endedAt := r'.endedAt)
    ensures Rank(r.status) <= Rank(r'.status)
  {
    if r.status == Active then r.(status := Ended, endedAt := Some(now)) else r
  }

  /** Both transitions are idempotent. */
  lemma TransitionsIdempotent(r: Room, now: Time, later: Time)
    ensures Activate(Activate(r, now), later) == Activate(r, now)
    ensures EndRoom(EndRoom(r, now), later) == EndRoom(r, now)
  {
  }

  /** A waiting room can only reach `ended` through `active`: `end_room` leaves it waiting. */
  lemma WaitingNeverJumpsToEnded(r: Room, now: Time)
    requires r.status == Waiting
    ensures EndRoom(r, now).status == Waiting
  {
  }

  /** Session ids of the room's participants that are currently connected. */
  function ConnectedIn(st: Store, rid: RoomId): set<SessionId> {
    set sid | sid in st.participants && st.participants[sid].room == rid
                && st.participants[sid].isConnected
  }

  /** `get_participants_count`: how many of the room's participants are connected. */
  function ParticipantsCount(st: Store, rid: RoomId): (n: nat)
    ensures n == |ConnectedIn(st, rid)|
    ensures n == 0 <==> (forall sid :: sid in st.participants && st.participants[sid].room == rid
                            ==> !st.participants[sid].isConnected)
  {
    var c := ConnectedIn(st, rid);
    assert forall sid :: (sid in st.participants && st.participants[sid].room == rid
                           && st.participants[sid].isConnected) ==> sid in c;
    if c == {} then 0
    else
      var sid :| sid in c;
      assert st.participants[sid].room == rid && st.participants[sid].isConnected;
      |c|
  }

  const EndedReason: string := "La sala ha terminado"
  const FullReason: string := "La sala está llena"

  /** `can_join`: ended is checked first, then capacity. */
  function CanJoin(r: Room, connected: nat): (res: (bool, string))
    ensures r.status == Ended ==> res == (false, EndedReason)
    ensures r.status != Ended && connected >= r.maxParticipants ==> res == (false, FullReason)
    ensures r.status != Ended && connected < r.maxParticipants ==> res == (true, "OK")
    ensures res.0 <==> r.status != Ended && connected < r.maxParticipants
  {
    if r.status == Ended then (false, EndedReason)
    else if connected >= r.maxParticipants then (false, FullReason)
    else (true, "OK")
  }

  const WaitingTimeout: int := 2 * 60 * 60
  const EmptyTimeout: int := 60 * 60

  /** Some participant of the room has a disconnect timestamp. */
  predicate HasDisconnectRecord(st: Store, rid: RoomId) {
    exists sid | sid in st.participants :: DisconnectedIn(st, rid, sid)
  }

  predicate DisconnectedIn(st: Store, rid: RoomId, sid: SessionId) {
    sid in st.participants && st.participants[sid].room == rid
    && st.participants[sid].disconnectedAt.Some?
  }

  /** Every disconnect timestamp of the room lies more than `secs` before `now`. */
  predicate AllDisconnectsOlder(st: Store, rid: RoomId, now: Time, secs: int) {
    forall sid | sid in st.participants && DisconnectedIn(st, rid, sid) ::
      now - st.participants[sid].disconnectedAt.value > secs
  }

  /**
   * `is_expired`: ended rooms; waiting rooms older than two hours; active rooms
   * with nobody connected whose latest disconnect is more than an hour old.
   * "The latest disconnect is older than an hour" is stated as "every
   * disconnect is older than an hour, and there is one" (see
   * `LatestDisconnectDecides`).
   */
  predicate IsExpired(st: Store, rid: RoomId, now: Time)
    requires rid in st.rooms
  {
    var r := st.rooms[rid];
    match r.status
    case Ended => true
    case Waiting => now - r.createdAt > WaitingTimeout
    case Active =>
      ParticipantsCount(st, rid) == 0 && HasDisconnectRecord(st, rid)
      && AllDisconnectsOlder(st, rid, now, EmptyTimeout)
  }

  /**
   * The source picks the participant with the latest `disconnected_at`; the
   * test on it agrees with `AllDisconnectsOlder` because every other record is
   * at least as old.
   */
  lemma LatestDisconnectDecides(st: Store, rid: RoomId, now: Time, latest: SessionId)
    requires DisconnectedIn(st, rid, latest)
    requires forall sid :: DisconnectedIn(st, rid, sid) ==>
      st.participants[sid].disconnectedAt.value <= st.participants[latest].disconnectedAt.value
    ensures HasDisconnectRecord(st, rid)
    ensures AllDisconnectsOlder(st, rid, now, EmptyTimeout)
      <==> now - st.participants[latest].disconnectedAt.value > EmptyTimeout
  {
  }

  /** The expiry policy, case by case, including the "active, empty, never disconnected" case. */
  lemma ExpiryCases(st: Store, rid: RoomId, now: Time)
    requires rid in st.rooms
    ensures st.rooms[rid].status == Ended ==> IsExpired(st, rid, now)
    ensures st.rooms[rid].status == Waiting ==>
      (IsExpired(st, rid, now) <==> now - st.rooms[rid].createdAt > WaitingTimeout)
    ensures st.rooms[rid].status == Active && ParticipantsCount(st, rid) > 0 ==> !IsExpired(st, rid, now)
    ensures st.rooms[rid].status == Active && !HasDisconnectRecord(st, rid) ==> !IsExpired(st, rid, now)
  {
  }

  /** Replace one participant record, keeping every other one. */
  function SetParticipant(st: Store, p: Participant): Store {
    st.(participants := st.participants[p.sessionId := p])
  }

  /** Rewriting a participant record in place keeps the store valid and evolving. */
  lemma SetParticipantFacts(st: Store, p: Participant)
    requires Valid(st) && p.sessionId in st.participants
    requires st.participants[p.sessionId].room == p.room
    ensures Valid(SetParticipant(st, p)) && Evolves(st, SetParticipant(st, p))
    ensures p.isConnected ==>
      ConnectedIn(SetParticipant(st, p), p.room) == ConnectedIn(st, p.room) + {p.sessionId}
    ensures !p.isConnected ==>
      ConnectedIn(SetParticipant(st, p), p.room) == ConnectedIn(st, p.room) - {p.sessionId}
  {
  }

  /** Adding a new participant to a stored room keeps the store valid and evolving. */
  lemma AddParticipantFacts(st: Store, p: Participant)
    requires Valid(st) && p.sessionId !in st.participants && p.room in st.rooms
    ensures Valid(SetParticipant(st, p)) && Evolves(st, SetParticipant(st, p))
    ensures p.isConnected ==>
      ConnectedIn(SetParticipant(st, p), p.room) == ConnectedIn(st, p.room) + {p.sessionId}
  {
  }

  /** Replace one room record, keeping every other one. */
  function SetRoom(st: Store, r: Room): Store {
    st.(rooms := st.rooms[r.roomId := r])
  }

  /** A forward status move of a stored room keeps the store valid and evolving, and moves nobody. */
  lemma SetRoomFacts(st: Store, r: Room)
    requires Valid(st) && r.roomId in st.rooms
    requires Rank(st.rooms[r.roomId].status) <= Rank(r.status)
    ensures Valid(SetRoom(st, r)) && Evolves(st, SetRoom(st, r))
    ensures forall rid :: ConnectedIn(SetRoom(st, r), rid) == ConnectedIn(st, rid)
  {
  }

  /**
   * `Participant.disconnect`: mark the participant disconnected at `now`, then
   * end the room when nobody in it is connected any more.
   */
  function Disconnect(st: Store, sid: SessionId, now: Time): (st': Store)
    requires Valid(st) && sid in st.participants
    ensures Valid(st') && Evolves(st, st')
    ensures var p := st.participants[sid];
      && st'.participants == st.participants[sid := p.(isConnected := false, disconnectedAt := Some(now))]
      && st'.rooms.Keys == st.rooms.Keys
      && (forall rid :: rid in st.rooms && rid != p.room ==> st'.rooms[rid] == st.rooms[rid])
      && ConnectedIn(st', p.room) == ConnectedIn(st, p.room) - {sid}
      && (ParticipantsCount(st', p.room) == 0 ==> st'.rooms[p.room] == EndRoom(st.rooms[p.room], now))
      && (ParticipantsCount(st', p.room) > 0 ==> st'.rooms[p.room] == st.rooms[p.room])
  {
    var p := st.participants[sid];
    var mid := SetParticipant(st, p.(isConnected := false, disconnectedAt := Some(now)));
    SetParticipantFacts(st, p.(isConnected := false, disconnectedAt := Some(now)));
    if ParticipantsCount(mid, p.room) == 0 then
      var st' := mid.(rooms := mid.rooms[p.room := EndRoom(mid.rooms[p.room], now)]);
      assert ConnectedIn(st', p.room) == ConnectedIn(mid, p.room);
      st'
    else mid
  }

  /** The room auto-ends exactly when the last connected participant of an active room leaves. */
  lemma DisconnectEndsRoomIffLast(st: Store, sid: SessionId, now: Time)
    requires Valid(st) && sid in st.participants
    requires st.participants[sid].isConnected
    ensures var rid := st.participants[sid].room;
      var ended := st.rooms[rid].status == Ended
                   || (st.rooms[rid].status == Active && ParticipantsCount(st, rid) == 1);
      Disconnect(st, sid, now).rooms[rid].status == Ended <==> ended
  {
    var rid := st.participants[sid].room;
    var st' := Disconnect(st, sid, now);
    assert sid in ConnectedIn(st, rid);
    assert |ConnectedIn(st', rid)| == |ConnectedIn(st, rid)| - 1;
  }

  /**
   * `Participant.reconnect`: connected again, disconnect stamp cleared, and a
   * waiting room becomes active. An ended room stays ended.
   */
  function Reconnect(st: Store, sid: SessionId, now: Time): (st': Store)
    requires Valid(st) && sid in st.participants
    ensures Valid(st') && Evolves(st, st')
    ensures var p := st.participants[sid];
      && st'.participants == st.participants[sid := p.(isConnected := true, disconnectedAt := None)]
      && st'.rooms == st.rooms[p.room := Activate(st.rooms[p.room], now)]
      && (st.rooms[p.room].status == Ended ==> st'.rooms[p.room].status == Ended)
      && ConnectedIn(st', p.room) == ConnectedIn(st, p.room) + {sid}
  {
    var p := st.participants[sid];
    var mid := SetParticipant(st, p.(isConnected := true, disconnectedAt := None));
    SetParticipantFacts(st, p.(isConnected := true, disconnectedAt := None));
    if mid.rooms[p.room].status == Waiting then
      var st' := mid.(rooms := mid.rooms[p.room := Activate(mid.rooms[p.room], now)]);
      assert ConnectedIn(st', p.room) == ConnectedIn(mid, p.room);
      st'
    else mid
  }

  /** An uppercase ASCII letter or a decimal digit. */
  predicate IsIdChar(c: char) {
    ('A' <= c <= 'Z') || ('0' <= c <= '9')
  }

  /** Six characters over `A-Z0-9`. */
  predicate ValidRoomId(id: string) {
    |id| == 6 && forall k :: 0 <= k < 6 ==> IsIdChar(id[k])
  }

  /**
   * `generate_room_id`: the random draws are given as a sequence; the loop
   * returns the first one not already used. `None` means every given draw
   * collided, i.e. the source would still be looping.
   */
  method GenerateRoomId(draws: seq<RoomId>, used: set<RoomId>) returns (id: Option<RoomId>)
    requires forall k :: 0 <= k < |draws| ==> ValidRoomId(draws[k])
    ensures id.Some? ==> ValidRoomId(id.value) && id.value !in used
    ensures id.Some? ==> exists k :: 0 <= k < |draws| && draws[k] == id.value
                                      && forall j :: 0 <= j < k ==> draws[j] in used
    ensures id.None? <==> forall k :: 0 <= k < |draws| ==> draws[k] in used
  {
    var i := 0;
    while i < |draws|
      invariant 0 <= i <= |draws|
      invariant forall j :: 0 <= j < i ==> draws[j] in used
    {
      if draws[i] !in used {
        return Some(draws[i]);
      }
      i := i + 1;
    }
    return None;
  }

  /** `save`: a room id is generated only when the room has none yet. */
  method Save(rooms: map<RoomId, Room>, room: Room, draws: seq<RoomId>) returns (saved: Option<Room>)
    requires forall k :: 0 <= k < |draws| ==> ValidRoomId(draws[k])
    ensures room.roomId != "" ==> saved == Some(room)
    ensures room.roomId == "" && saved.Some? ==>
      && ValidRoomId(saved.value.roomId)
      && saved.value.roomId !in rooms
      && saved.value == room.(roomId := saved.value.roomId)
    ensures room.roomId == "" ==> (saved.None? <==> forall k :: 0 <= k < |draws| ==> draws[k] in rooms)
  {
    if room.roomId == "" {
      var id := GenerateRoomId(draws, rooms.Keys);
      if id.Some? {
        return Some(room.(roomId := id.value));
      }
      return None;
    }
    return Some(room);
  }
}

=== FILE: sign_translator.dfy ===
/**
 * The sign translator service (backend/translator/services/sign_translator.py):
 * landmark frames become fixed-width feature vectors, a sequence is resampled
 * to 16 frames, and an abstract classifier's answer is turned into a
 * prediction record under a confidence threshold.
 */
module SignTranslator {
  import opened Wrappers
  import opened Json
  import opened Text

  datatype Point = Point(x: real, y: real, z: real)

  /** One captured frame: face points, named pose points and the two hands. */
  datatype Frame = Frame(face: seq<Point>, pose: map<string, Point>, leftHand: seq<Point>, rightHand: seq<Point>)

  const FacePoints: nat := 20
  const HandPoints: nat := 21
  const FaceWidth: nat := 3 * FacePoints
  const PoseWidth: nat := 3 * 6
  const HandWidth: nat := 3 * HandPoints
  const FrameWidth: nat := FaceWidth + PoseWidth + 2 * HandWidth
  const SequenceFrames: nat := 16
  const MinFrames: nat := 5
  const DefaultMinConfidence: real := 0.4

  /** The six pose landmarks the features use, in feature order. */
  const PoseNames: seq<string> := ["hombro_der", "hombro_izq", "codo_der", "codo_izq", "muneca_der", "muneca_izq"]

  function Coords(p: Point): seq<real> {
    [p.x, p.y, p.z]
  }

  function Zeros(n: nat): (r: seq<real>)
    ensures |r| == n && forall k :: 0 <= k < n ==> r[k] == 0.0
  {
    seq(n, k => 0.0)
  }

  /** The coordinates of the points one after the other. */
  function Flatten(pts: seq<Point>): (r: seq<real>)
    ensures |r| == 3 * |pts|
    decreases |pts|
  {
    if pts == [] then [] else Coords(pts[0]) + Flatten(pts[1..])
  }

  /** Point `i` of a flattened list sits at positions `3i .. 3i + 2`. */
  lemma {:induction false} FlattenAt(pts: seq<Point>, i: nat)
    requires i < |pts|
    ensures Flatten(pts)[3 * i..3 * i + 3] == Coords(pts[i])
    decreases i
  {
    if i > 0 {
      FlattenAt(pts[1..], i - 1);
      assert Flatten(pts) == Coords(pts[0]) + Flatten(pts[1..]);
      assert Flatten(pts)[3 * i..3 * i + 3] == Flatten(pts[1..])[3 * (i - 1)..3 * (i - 1) + 3];
    }
  }

  /** A face or hand block: the first `count` points when there are that many, else zeros. */
  function PointsFeatures(pts: seq<Point>, count: nat): (r: seq<real>)
    ensures |r| == 3 * count
    ensures |pts| < count ==> r == Zeros(3 * count)
    ensures |pts| >= count ==> forall i :: 0 <= i < count ==> r[3 * i..3 * i + 3] == Coords(pts[i])
  {
    if |pts| >= count then
      var r := Flatten(pts[..count]);
      assert forall i :: 0 <= i < count ==> r[3 * i..3 * i + 3] == Coords(pts[i]) by {
        forall i | 0 <= i < count ensures r[3 * i..3 * i + 3] == Coords(pts[i]) {
          FlattenAt(pts[..count], i);
        }
      }
      r
    else Zeros(3 * count)
  }

  function PosePoint(pose: map<string, Point>, name: string): (r: seq<real>)
    ensures |r| == 3
  {
    if name in pose then Coords(pose[name]) else Zeros(3)
  }

  /** The pose block: each of the six names in order, zeros where the name is missing. */
  function PoseFeatures(pose: map<string, Point>): (r: seq<real>)
    ensures |r| == PoseWidth
    ensures r[0..3] == PosePoint(pose, PoseNames[0]) && r[3..6] == PosePoint(pose, PoseNames[1])
    ensures r[6..9] == PosePoint(pose, PoseNames[2]) && r[9..12] == PosePoint(pose, PoseNames[3])
    ensures r[12..15] == PosePoint(pose, PoseNames[4]) && r[15..18] == PosePoint(pose, PoseNames[5])
  {
    var p0, p1, p2 := PosePoint(pose, PoseNames[0]), PosePoint(pose, PoseNames[1]), PosePoint(pose, PoseNames[2]);
    var p3, p4, p5 := PosePoint(pose, PoseNames[3]), PosePoint(pose, PoseNames[4]), PosePoint(pose, PoseNames[5]);
    SixTriples(p0, p1, p2, p3, p4, p5);
    p0 + p1 + p2 + p3 + p4 + p5
  }

  /** Six triples laid end to end: triple `k` sits at `3k..3k+3`. */
  lemma SixTriples(p0: seq<real>, p1: seq<real>, p2: seq<real>, p3: seq<real>, p4: seq<real>, p5: seq<real>)
    requires |p0| == |p1| == |p2| == |p3| == |p4| == |p5| == 3
    ensures var r := p0 + p1 + p2 + p3 + p4 + p5;
      && |r| == 18
      && r[0..3] == p0 && r[3..6] == p1 && r[6..9] == p2
      && r[9..12] == p3 && r[12..15] == p4 && r[15..18] == p5
  {
    var upper, lower := p0 + p1 + p2, p3 + p4 + p5;
    assert upper[0..3] == p0 && upper[3..6] == p1 && upper[6..9] == p2;
    assert lower[0..3] == p3 && lower[3..6] == p4 && lower[6..9] == p5;
    var r := p0 + p1 + p2 + p3 + p4 + p5;
    assert r == upper + lower;
    assert r[..9] == upper && r[9..] == lower;
    assert r[9..12] == lower[0..3] && r[12..15] == lower[3..6] && r[15..18] == lower[6..9];
  }

  /** `frame_to_features` on a well-typed frame: always 204 values in four fixed blocks. */
  function FrameToFeatures(f: Frame): (r: seq<real>)
    ensures |r| == FrameWidth == 204
    ensures r[..FaceWidth] == PointsFeatures(f.face, FacePoints)
    ensures r[FaceWidth..FaceWidth + PoseWidth] == PoseFeatures(f.pose)
    ensures r[FaceWidth + PoseWidth..FaceWidth + PoseWidth + HandWidth] == PointsFeatures(f.leftHand, HandPoints)
    ensures r[FaceWidth + PoseWidth + HandWidth..] == PointsFeatures(f.rightHand, HandPoints)
  {
    PointsFeatures(f.face, FacePoints) + PoseFeatures(f.pose)
    + PointsFeatures(f.leftHand, HandPoints) + PointsFeatures(f.rightHand, HandPoints)
  }

  // ------------------------------------------------- frames as JSON values

  /** A point object: `x`, `y` and `z` must be Python numbers (booleans count). */
  function PointOf(j: Json): Option<Point> {
    if j.JObj? && "x" in j.fields && "y" in j.fields && "z" in j.fields
       && IsPyNumber(j.fields["x"]) && IsPyNumber(j.fields["y"]) && IsPyNumber(j.fields["z"])
    then Some(Point(PyNumber(j.fields["x"]), PyNumber(j.fields["y"]), PyNumber(j.fields["z"])))
    else None
  }

  /** Decode every item as a point; `None` as soon as one is not. */
  function PointsOf(items: seq<Json>): (r: Option<seq<Point>>)
    ensures r.Some? ==> |r.value| == |items|
    ensures r.Some? <==> forall k :: 0 <= k < |items| ==> PointOf(items[k]).Some?
    ensures r.Some? ==> forall k :: 0 <= k < |items| ==> r.value[k] == PointOf(items[k]).value
    decreases |items|
  {
    if items == [] then Some([])
    else
      match (PointOf(items[0]), PointsOf(items[1..]))
      case (Some(p), Some(ps)) => Some([p] + ps)
      case _ => None
  }

  /**
   * A face or hand value as the Python code reads it: a falsy value or one
   * shorter than `count` gives zeros; `len` of a number raises; a long enough
   * list must start with `count` point objects; a long string or object raises
   * on indexing.
   */
  function JsonPointsFeatures(j: Json, count: nat): (r: Option<seq<real>>)
    ensures r.Some? ==> |r.value| == 3 * count
  {
    if !PyTruthy(j) then Some(Zeros(3 * count))
    else if PyLen(j).None? then None
    else if PyLen(j).value < count then Some(Zeros(3 * count))
    else if !j.JList? then None
    else match PointsOf(j.items[..count])
      case Some(ps) => Some(PointsFeatures(ps, count))
      case None => None
  }

  /** One pose name: `punto in pose` then `pose[punto]`, with the container's own `in`. */
  function JsonPosePoint(pose: Json, name: string): (r: Option<seq<real>>)
    ensures r.Some? ==> |r.value| == 3
  {
    if !PyTruthy(pose) then Some(Zeros(3))
    else match pose
      case JObj(fields) =>
        if name !in fields then Some(Zeros(3))
        else if PointOf(fields[name]).Some? then Some(Coords(PointOf(fields[name]).value))
        else None
      case JList(items) => if JStr(name) in items then None else Some(Zeros(3))
      case JStr(s) => if Contains(s, name) then None else Some(Zeros(3))
      case _ => None
  }

  function JsonPoseFeatures(pose: Json): (r: Option<seq<real>>)
    ensures r.Some? ==> |r.value| == PoseWidth
  {
    match (JsonPosePoint(pose, PoseNames[0]), JsonPosePoint(pose, PoseNames[1]),
           JsonPosePoint(pose, PoseNames[2]), JsonPosePoint(pose, PoseNames[3]),
           JsonPosePoint(pose, PoseNames[4]), JsonPosePoint(pose, PoseNames[5]))
    case (Some(a), Some(b), Some(c), Some(d), Some(e), Some(f)) => Some(a + b + c + d + e + f)
    case _ => None
  }

  /** `frame_to_features` on a JSON frame; `None` where the Python code raises. */
  function JsonFrameFeatures(frame: Json): (r: Option<seq<real>>)
    ensures r.Some? ==> |r.value| == FrameWidth
    ensures !frame.JObj? ==> r.None?
  {
    if !frame.JObj? then None
    else
      match (JsonPointsFeatures(GetOr(frame, "face", JNull), FacePoints),
             JsonPoseFeatures(GetOr(frame, "pose", JNull)),
             JsonPointsFeatures(GetOr(frame, "left_hand", JNull), HandPoints),
             JsonPointsFeatures(GetOr(frame, "right_hand", JNull), HandPoints))
      case (Some(a), Some(b), Some(c), Some(d)) => Some(a + b + c + d)
      case _ => None
  }

  /** The JSON form of a point and of a frame, as the capture client sends them. */
  function EncodePoint(p: Point): Json {
    JObj(map["x" := JReal(p.x), "y" := JReal(p.y), "z" := JReal(p.z)])
  }

  function EncodePoints(pts: seq<Point>): (r: seq<Json>)
    ensures |r| == |pts| && forall k :: 0 <= k < |pts| ==> r[k] == EncodePoint(pts[k])
  {
    seq(|pts|, k requires 0 <= k < |pts| => EncodePoint(pts[k]))
  }

  function EncodeFrame(f: Frame): Json {
    JObj(map["face" := JList(EncodePoints(f.face)),
             "pose" := JObj(map name | name in f.pose :: EncodePoint(f.pose[name])),
             "left_hand" := JList(EncodePoints(f.leftHand)),
             "right_hand" := JList(EncodePoints(f.rightHand))])
  }

  lemma PointRoundTrip(p: Point)
    ensures PointOf(EncodePoint(p)) == Some(p)
  {
  }

  lemma PointsRoundTrip(pts: seq<Point>)
    ensures PointsOf(EncodePoints(pts)) == Some(pts)
  {
    var r := PointsOf(EncodePoints(pts));
    assert forall k :: 0 <= k < |pts| ==> PointOf(EncodePoints(pts)[k]) == Some(pts[k]);
    assert r.Some?;
    assert r.value == pts;
  }

  lemma HandRoundTrip(pts: seq<Point>, count: nat)
    ensures JsonPointsFeatures(JList(EncodePoints(pts)), count) == Some(PointsFeatures(pts, count))
  {
    if |pts| >= count && pts != [] {
      assert EncodePoints(pts)[..count] == EncodePoints(pts[..count]);
      PointsRoundTrip(pts[..count]);
      assert pts[..count][..count] == pts[..count];
    }
  }

  lemma PoseRoundTrip(pose: map<string, Point>)
    ensures JsonPoseFeatures(JObj(map name | name in pose :: EncodePoint(pose[name]))) == Some(PoseFeatures(pose))
  {
    var j := JObj(map name | name in pose :: EncodePoint(pose[name]));
    if pose == map[] {
      assert j.fields == map[];
    } else {
      var name :| name in pose;
      assert name in j.fields;
      forall k | 0 <= k < 6 ensures JsonPosePoint(j, PoseNames[k]) == Some(PosePoint(pose, PoseNames[k])) {
        if PoseNames[k] in pose {
          PointRoundTrip(pose[PoseNames[k]]);
        }
      }
    }
  }

  /** Decoding an encoded frame gives exactly the typed features: the two readings agree. */
  lemma FrameRoundTrip(f: Frame)
    ensures JsonFrameFeatures(EncodeFrame(f)) == Some(FrameToFeatures(f))
  {
    var j := EncodeFrame(f);
    assert GetOr(j, "face", JNull) == JList(EncodePoints(f.face));
    assert GetOr(j, "pose", JNull) == JObj(map name | name in f.pose :: EncodePoint(f.pose[name]));
    assert GetOr(j, "left_hand", JNull) == JList(EncodePoints(f.leftHand));
    assert GetOr(j, "right_hand", JNull) == JList(EncodePoints(f.rightHand));
    HandRoundTrip(f.face, FacePoints);
    PoseRoundTrip(f.pose);
    HandRoundTrip(f.leftHand, HandPoints);
    HandRoundTrip(f.rightHand, HandPoints);
  }

  // ---------------------------------------------------------- resampling

  /** Python `round` on the non-negative rational `q / d`: ties go to the even neighbour. */
  function RoundHalfEven(q: nat, d: nat): (r: nat)
    requires d > 0
    ensures q / d <= r <= q / d + 1
    ensures q % d == 0 ==> r == q / d
  {
    var f := q / d;
    var rem := q % d;
    if 2 * rem < d then f
    else if 2 * rem > d then f + 1
    else if f % 2 == 0 then f else f + 1
  }

  lemma {:induction false} MulAtLeast(d: nat, x: nat)
    requires x >= 1
    ensures d * x >= d
    decreases x
  {
    if x > 1 {
      MulAtLeast(d, x - 1);
      assert d * x == d * (x - 1) + d;
    }
  }

  /** A multiple of `d` divides exactly. */
  lemma MulDivExact(a: nat, d: nat)
    requires d > 0
    ensures (d * a) % d == 0 && (d * a) / d == a
  {
    var q := d * a;
    var r := q / d;
    var m := q % d;
    assert q == d * r + m && 0 <= m < d;
    if a > r {
      MulAtLeast(d, a - r);
    }
  }

  /** The frame picked for output slot `t`: `round(t * (n - 1) / (target - 1))`, capped at `n - 1`. */
  function SourceIndex(t: nat, n: nat, target: nat): (i: nat)
    requires n >= 1 && t < target
    ensures i < n
    ensures t == 0 ==> i == 0
    ensures target >= 2 && t == target - 1 ==> i == n - 1
  {
    if target == 1 then 0
    else
      var q := t * (n - 1);
      var r := RoundHalfEven(q, target - 1);
      if t == target - 1 then
        MulDivExact(n - 1, target - 1);
        if r < n - 1 then r else n - 1
      else if r < n - 1 then r else n - 1
  }

  /**
   * `normalize_sequence_length`: the input itself when it already has the
   * target length, otherwise `target` frames picked by nearest index.
   */
  function NormalizeSequenceLength<T>(frames: seq<T>, target: nat): (r: seq<T>)
    requires |frames| >= 1
    ensures |r| == target
    ensures |frames| == target ==> r == frames
    ensures forall k :: 0 <= k < |r| ==> r[k] in frames
    ensures target >= 1 ==> r[0] == frames[0]
    ensures target >= 2 ==> r[target - 1] == frames[|frames| - 1]
  {
    if |frames| == target then frames
    else seq(target, t requires 0 <= t < target => frames[SourceIndex(t, |frames|, target)])
  }

  /** The rows one after the other. */
  function Concat(rows: seq<seq<real>>): seq<real>
    decreases |rows|
  {
    if rows == [] then [] else rows[0] + Concat(rows[1..])
  }

  /** Rows of one frame's width concatenate into a vector whose `k`-th block is row `k`. */
  lemma {:induction false} ConcatRows(rows: seq<seq<real>>)
    requires forall k :: 0 <= k < |rows| ==> |rows[k]| == FrameWidth
    ensures |Concat(rows)| == FrameWidth * |rows|
    ensures forall k :: 0 <= k < |rows| ==> Block(Concat(rows), k) == rows[k]
    decreases |rows|
  {
    if rows != [] {
      ConcatRows(rows[1..]);
      var rest := Concat(rows[1..]);
      var c := Concat(rows);
      assert c == rows[0] + rest;
      assert FrameWidth * |rows| == FrameWidth + FrameWidth * (|rows| - 1);
      forall k | 0 <= k < |rows| ensures Block(c, k) == rows[k] {
        if k > 0 {
          var start := FrameWidth * k;
          assert start == FrameWidth + FrameWidth * (k - 1);
          assert c[start..start + FrameWidth] == rest[start - FrameWidth..start];
          assert Block(c, k) == Block(rest, k - 1);
        } else {
          assert c[..FrameWidth] == rows[0];
        }
      }
    }
  }

  /** The `k`-th frame-sized block of a feature vector. */
  function Block(v: seq<real>, k: nat): seq<real>
    requires FrameWidth * k + FrameWidth <= |v|
  {
    v[FrameWidth * k..FrameWidth * k + FrameWidth]
  }

  /** `sequence_to_features` on typed frames: nothing below five frames, else 16 rows of 204. */
  function SequenceToFeatures(frames: seq<Frame>): (r: Option<seq<real>>)
    ensures |frames| < MinFrames <==> r.None?
    ensures r.Some? ==>
      var norm := NormalizeSequenceLength(frames, SequenceFrames);
      && |r.value| == SequenceFrames * FrameWidth == 3264
      && forall k :: 0 <= k < SequenceFrames ==> Block(r.value, k) == FrameToFeatures(norm[k])
  {
    if |frames| < MinFrames then None
    else
      var norm := NormalizeSequenceLength(frames, SequenceFrames);
      var rows := FramesFeatures(norm);
      ConcatRows(rows);
      Some(Concat(rows))
  }

  /** Why `sequence_to_features` produced no vector on JSON frames. */
  datatype Features = Vector(values: seq<real>) | TooFewFrames | BadFrame

  /** Decode each frame; the first one the Python code would raise on spoils the lot. */
  function JsonRows(frames: seq<Json>): (r: Option<seq<seq<real>>>)
    ensures r.Some? ==> |r.value| == |frames|
    ensures r.Some? <==> forall k :: 0 <= k < |frames| ==> JsonFrameFeatures(frames[k]).Some?
    ensures r.Some? ==> forall k :: 0 <= k < |frames| ==> r.value[k] == JsonFrameFeatures(frames[k]).value
    decreases |frames|
  {
    if frames == [] then Some([])
    else
      match (JsonFrameFeatures(frames[0]), JsonRows(frames[1..]))
      case (Some(a), Some(rest)) => Some([a] + rest)
      case _ => None
  }

  /** `sequence_to_features` on the JSON list a request carries. */
  function JsonSequenceFeatures(frames: seq<Json>): (r: Features)
    ensures r.TooFewFrames? <==> |frames| < MinFrames
    ensures r.Vector? ==> |r.values| == SequenceFrames * FrameWidth
  {
    if |frames| < MinFrames then TooFewFrames
    else
      var norm := NormalizeSequenceLength(frames, SequenceFrames);
      match JsonRows(norm)
      case Some(rows) =>
        ConcatRows(rows);
        Vector(Concat(rows))
      case None => BadFrame
  }

  function EncodeFrames(frames: seq<Frame>): (js: seq<Json>)
    ensures |js| == |frames| && forall k :: 0 <= k < |frames| ==> js[k] == EncodeFrame(frames[k])
  {
    seq(|frames|, k requires 0 <= k < |frames| => EncodeFrame(frames[k]))
  }

  /** Resampling picks the same positions whatever the frames hold. */
  lemma NormalizeEncoded(frames: seq<Frame>, target: nat)
    requires |frames| >= 1
    ensures var normJ := NormalizeSequenceLength(EncodeFrames(frames), target);
      var norm := NormalizeSequenceLength(frames, target);
      forall k :: 0 <= k < target ==> normJ[k] == EncodeFrame(norm[k])
  {
  }

  function FramesFeatures(frames: seq<Frame>): (rows: seq<seq<real>>)
    ensures |rows| == |frames| && forall k :: 0 <= k < |frames| ==> rows[k] == FrameToFeatures(frames[k])
  {
    seq(|frames|, k requires 0 <= k < |frames| => FrameToFeatures(frames[k]))
  }

  lemma RowsRoundTrip(norm: seq<Frame>)
    ensures JsonRows(EncodeFrames(norm)) == Some(FramesFeatures(norm))
  {
    var js := EncodeFrames(norm);
    forall k | 0 <= k < |norm| ensures JsonFrameFeatures(js[k]) == Some(FrameToFeatures(norm[k])) {
      FrameRoundTrip(norm[k]);
    }
    var r := JsonRows(js);
    assert r.Some?;
    assert r.value == FramesFeatures(norm);
  }

  /** The two readings agree on every sequence the capture client can send. */
  lemma SequenceRoundTrip(frames: seq<Frame>)
    requires |frames| >= MinFrames
    ensures JsonSequenceFeatures(EncodeFrames(frames)) == Vector(SequenceToFeatures(frames).value)
  {
    var normJ := NormalizeSequenceLength(EncodeFrames(frames), SequenceFrames);
    var norm := NormalizeSequenceLength(frames, SequenceFrames);
    NormalizeEncoded(frames, SequenceFrames);
    assert normJ == EncodeFrames(norm);
    RowsRoundTrip(norm);
  }

  // ----------------------------------------------------------- prediction

  /** The loaded model: a flag and the index-to-label table in insertion order. */
  datatype Service = Service(loaded: bool, labels: seq<(int, string)>)

  /** A dictionary holds each index once. */
  predicate DistinctIndices(labels: seq<(int, string)>) {
    forall i, j :: 0 <= i < j < |labels| ==> labels[i].0 != labels[j].0
  }

  /** `reverse_label_encoder.get(idx, "desconocido")`. */
  function LabelOf(labels: seq<(int, string)>, idx: int): (s: string)
    ensures (forall k :: 0 <= k < |labels| ==> labels[k].0 != idx) ==> s == "desconocido"
    ensures (exists k :: 0 <= k < |labels| && labels[k].0 == idx) ==>
      exists k :: 0 <= k < |labels| && labels[k] == (idx, s)
    decreases |labels|
  {
    if labels == [] then "desconocido"
    else if labels[0].0 == idx then labels[0].1
    else
      var s := LabelOf(labels[1..], idx);
      assert (exists k :: 0 <= k < |labels| && labels[k].0 == idx) ==>
        exists k :: 0 <= k < |labels[1..]| && labels[1..][k].0 == idx by {
        if exists k :: 0 <= k < |labels| && labels[k].0 == idx {
          var k :| 0 <= k < |labels| && labels[k].0 == idx;
          assert labels[1..][k - 1].0 == idx;
        }
      }
      assert (exists k :: 0 <= k < |labels[1..]| && labels[1..][k] == (idx, s)) ==>
        exists k :: 0 <= k < |labels| && labels[k] == (idx, s) by {
        if exists k :: 0 <= k < |labels[1..]| && labels[1..][k] == (idx, s) {
          var k :| 0 <= k < |labels[1..]| && labels[1..][k] == (idx, s);
          assert labels[k + 1] == (idx, s);
        }
      }
      s
  }

  /** Read as the dictionary it models, the table gives each registered index its own label. */
  lemma LabelOfRegistered(labels: seq<(int, string)>, k: int)
    requires DistinctIndices(labels) && 0 <= k < |labels|
    ensures LabelOf(labels, labels[k].0) == labels[k].1
  {
    var s := LabelOf(labels, labels[k].0);
    var k' :| 0 <= k' < |labels| && labels[k'] == (labels[k].0, s);
    assert k' == k;
  }

  /** Which message a prediction carries. */
  datatype Message =
    | NotLoadedMsg
    | TooShortMsg
    | ProcessingErrorMsg
    | LowConfidenceMsg(confidence: real, minConfidence: real)
    | SuccessMsg
    | InternalMsg

  function MessageText(m: Message): string
    requires !m.LowConfidenceMsg? && !m.InternalMsg?
  {
    match m
    case NotLoadedMsg => "Modelo no cargado"
    case TooShortMsg => "Secuencia muy corta (mínimo 5 frames)"
    case ProcessingErrorMsg => "Error procesando landmarks"
    case SuccessMsg => "Predicción exitosa"
  }

  datatype Prediction = Prediction(sign: Option<string>, confidence: real, success: bool, message: Message)

  /** `predict_from_landmarks` either returns a record or raises before its `try`. */
  datatype Outcome = Returned(p: Prediction) | Raised

  /** The classifier stands for `model.predict` and the top `predict_proba` value. */
  type Classifier = seq<real> -> (int, real)

  function Failure(m: Message): Prediction {
    Prediction(None, 0.0, false, m)
  }

  /**
   * `predict_from_landmarks`. The length test sits outside the `try`, so a
   * truthy value without a length (a number) raises; every failure inside the
   * `try` becomes an internal-error record.
   */
  function Predict(svc: Service, classify: Classifier, landmarks: Json, minConfidence: real): (o: Outcome)
    ensures !svc.loaded ==> o == Returned(Failure(NotLoadedMsg))
    ensures svc.loaded && (!PyTruthy(landmarks) || (PyLen(landmarks).Some? && PyLen(landmarks).value < MinFrames))
      ==> o == Returned(Failure(TooShortMsg))
    ensures o.Raised? <==> svc.loaded && PyTruthy(landmarks) && PyLen(landmarks).None?
    ensures o.Returned? && o.p.success ==>
      && svc.loaded && landmarks.JList?
      && o.p.message == SuccessMsg && o.p.confidence >= minConfidence
      && JsonSequenceFeatures(landmarks.items).Vector?
      && var (idx, conf) := classify(JsonSequenceFeatures(landmarks.items).values);
         o.p == Prediction(Some(LabelOf(svc.labels, idx)), conf, true, SuccessMsg)
    ensures o.Returned? && o.p.sign.Some? ==> o.p.message.SuccessMsg? || o.p.message.LowConfidenceMsg?
    ensures o.Returned? && o.p.message.LowConfidenceMsg? ==>
      && !o.p.success && o.p.confidence < minConfidence
      && svc.loaded && landmarks.JList?
      && JsonSequenceFeatures(landmarks.items).Vector?
      && var (idx, conf) := classify(JsonSequenceFeatures(landmarks.items).values);
         o.p == Prediction(Some(LabelOf(svc.labels, idx)), conf, false, LowConfidenceMsg(conf, minConfidence))
    ensures svc.loaded && landmarks.JList? && JsonSequenceFeatures(landmarks.items).Vector? ==>
      && var (idx, conf) := classify(JsonSequenceFeatures(landmarks.items).values);
      && o.Returned? && o.p.sign == Some(LabelOf(svc.labels, idx)) && o.p.confidence == conf
      && (conf < minConfidence ==> o.p.message == LowConfidenceMsg(conf, minConfidence))
      && (conf >= minConfidence ==> o.p.message == SuccessMsg && o.p.success)
  {
    if !svc.loaded then Returned(Failure(NotLoadedMsg))
    else if !PyTruthy(landmarks) then Returned(Failure(TooShortMsg))
    else if PyLen(landmarks).None? then Raised
    else if PyLen(landmarks).value < MinFrames then Returned(Failure(TooShortMsg))
    else if !landmarks.JList? then Returned(Failure(InternalMsg))
    else match JsonSequenceFeatures(landmarks.items)
      case TooFewFrames => Returned(Failure(ProcessingErrorMsg))
      case BadFrame => Returned(Failure(InternalMsg))
      case Vector(values) =>
        var (idx, conf) := classify(values);
        var sign := LabelOf(svc.labels, idx);
        if conf < minConfidence then Returned(Prediction(Some(sign), conf, false, LowConfidenceMsg(conf, minConfidence)))
        else Returned(Prediction(Some(sign), conf, true, SuccessMsg))
  }

  /** The length test is repeated inside, so "Error procesando landmarks" is never produced. */
  lemma NoProcessingError(svc: Service, classify: Classifier, landmarks: Json, minConfidence: real)
    ensures var o := Predict(svc, classify, landmarks, minConfidence);
      o.Returned? ==> o.p.message != ProcessingErrorMsg
  {
  }

  /** A low-confidence answer keeps the label and the confidence; it only loses `success`. */
  lemma ThresholdDecides(svc: Service, classify: Classifier, frames: seq<Frame>, minConfidence: real)
    requires svc.loaded && |frames| >= MinFrames
    ensures var (idx, conf) := classify(SequenceToFeatures(frames).value);
      var o := Predict(svc, classify, JList(EncodeFrames(frames)), minConfidence);
      && o.Returned?
      && o.p.sign == Some(LabelOf(svc.labels, idx))
      && o.p.confidence == conf
      && (o.p.success <==> conf >= minConfidence)
  {
    var js := EncodeFrames(frames);
    SequenceRoundTrip(frames);
    assert PyTruthy(JList(js)) && PyLen(JList(js)) == Some(|frames|);
    assert JsonSequenceFeatures(js) == Vector(SequenceToFeatures(frames).value);
  }

  /** `get_available_signs`: the labels in order, or nothing when no model is loaded. */
  function AvailableSigns(svc: Service): (signs: seq<string>)
    ensures !svc.loaded ==> signs == []
    ensures svc.loaded ==> |signs| == |svc.labels| && forall k :: 0 <= k < |signs| ==> signs[k] == svc.labels[k].1
  {
    if !svc.loaded then [] else seq(|svc.labels|, k requires 0 <= k < |svc.labels| => svc.labels[k].1)
  }

  datatype ModelInfo = ModelInfo(loaded: bool, signsCount: nat, signs: seq<string>)

  /** `get_model_info`: the count always matches the list it reports. */
  function GetModelInfo(svc: Service): (info: ModelInfo)
    ensures info.loaded == svc.loaded
    ensures info.signsCount == |info.signs|
    ensures info.signs == AvailableSigns(svc)
    ensures !svc.loaded ==> info.signsCount == 0
  {
    if !svc.loaded then ModelInfo(false, 0, []) else ModelInfo(true, |svc.labels|, AvailableSigns(svc))
  }

  /** What reading the model file produced. */
  datatype LoadResult = FileMissing | LoadFailed | LoadedModel(labels: seq<(int, string)>)

  /** `load_model`: a missing file returns early and leaves the flag as it was. */
  function LoadModel(svc: Service, load: LoadResult): (res: (Service, bool))
    ensures res.1 <==> load.LoadedModel?
    ensures load.LoadedModel? ==> res.0 == Service(true, load.labels)
    ensures load.LoadFailed? ==> res.0 == svc.(loaded := false)
    ensures load.FileMissing? ==> res.0 == svc
  {
    match load
    case FileMissing => (svc, false)
    case LoadFailed => (svc.(loaded := false), false)
    case LoadedModel(labels) => (Service(true, labels), true)
  }

  /** `reload_model`: the flag is cleared first, so the result reports whether a model is loaded now. */
  function ReloadModel(svc: Service, load: LoadResult): (res: (Service, bool))
    ensures res.1 == res.0.loaded
    ensures !res.1 ==> res.0 == svc.(loaded := false)
    ensures res.1 ==> load.LoadedModel? && res.0.labels == load.labels
  {
    LoadModel(svc.(loaded := false), load)
  }

  /** After a failed reload nothing is offered, whatever was loaded before. */
  lemma FailedReloadHidesSigns(svc: Service, load: LoadResult)
    requires !load.LoadedModel?
    ensures AvailableSigns(ReloadModel(svc, load).0) == []
    ensures GetModelInfo(ReloadModel(svc, load).0) == ModelInfo(false, 0, [])
  {
  }
}

=== FILE: speech_recognition.dfy ===
/**
 * The browser's speech-to-text services (FRONTEND/src/services/speechRecognition.js):
 * the Web Speech recogniser's state and result aggregation, its error
 * texts, the server-backed fallback's handling of a transcription reply,
 * and the factory that picks one of the two. The recogniser, the microphone
 * and MediaRecorder are left out; their events are inputs.
 */
module SpeechRecognition {
  import opened Wrappers
  import opened Text
  import SpeechService
  import TranslatorViews

  // ----------------------------------------------------- result aggregation

  /** One entry of `event.results`: its best alternative and whether it is final. */
  datatype Alternative = Alternative(transcript: string, isFinal: bool, confidence: real)

  /** The transcripts from position `from` on whose finality is `final`, concatenated in order. */
  function Collect(results: seq<Alternative>, from: nat, final: bool): string
    decreases |results| - from
  {
    if from >= |results| then ""
    else (if results[from].isFinal == final then results[from].transcript else "") + Collect(results, from + 1, final)
  }

  /** All transcripts from position `from` on, concatenated. */
  function AllText(results: seq<Alternative>, from: nat): string
    decreases |results| - from
  {
    if from >= |results| then "" else results[from].transcript + AllText(results, from + 1)
  }

  /** The final and the interim parts split the text between them: nothing lost, nothing counted twice. */
  lemma {:induction false} CollectPartitions(results: seq<Alternative>, from: nat)
    ensures multiset(Collect(results, from, true)) + multiset(Collect(results, from, false))
         == multiset(AllText(results, from))
    ensures |Collect(results, from, true)| + |Collect(results, from, false)| == |AllText(results, from)|
    decreases |results| - from
  {
    if from < |results| {
      CollectPartitions(results, from + 1);
      var t := results[from].transcript;
      var restT, restF := Collect(results, from + 1, true), Collect(results, from + 1, false);
      if results[from].isFinal {
        assert Collect(results, from, true) == t + restT;
        assert Collect(results, from, false) == "" + restF;
        assert "" + restF == restF;
      } else {
        assert Collect(results, from, true) == "" + restT;
        assert "" + restT == restT;
        assert Collect(results, from, false) == t + restF;
      }
      assert AllText(results, from) == t + AllText(results, from + 1);
    }
  }

  /** When every result from `from` on is final, all of the text is final. */
  lemma {:induction false} AllFinal(results: seq<Alternative>, from: nat)
    requires forall k :: from <= k < |results| ==> results[k].isFinal
    ensures Collect(results, from, true) == AllText(results, from)
    ensures Collect(results, from, false) == ""
    decreases |results| - from
  {
    if from < |results| {
      AllFinal(results, from + 1);
    }
  }

  datatype Payload = Payload(final: string, interim: string, confidence: real)

  /**
   * `onresult`: the final and interim transcripts from `resultIndex` on,
   * each trimmed; the confidence is that of the first result of the whole
   * list, or 0 when there is none.
   */
  function OnResult(results: seq<Alternative>, resultIndex: nat): (p: Payload)
    ensures p.final == Strip(JavaScript, Collect(results, resultIndex, true))
    ensures p.interim == Strip(JavaScript, Collect(results, resultIndex, false))
    ensures results == [] ==> p.confidence == 0.0
    ensures results != [] ==> p.confidence == results[0].confidence
    ensures resultIndex >= |results| ==> p.final == "" && p.interim == ""
  {
    var final := Collect(results, resultIndex, true);
    var interim := Collect(results, resultIndex, false);
    Payload(Strip(JavaScript, final), Strip(JavaScript, interim), if results != [] then results[0].confidence else 0.0)
  }

  // ---------------------------------------------------------- recogniser

  const DefaultLanguage: string := "es-ES"

  datatype Callback = OnResultCb | OnErrorCb | OnStartCb | OnEndCb

  /** The Web Speech service; `recognizerLang` is absent when the browser has no recogniser. */
  datatype Recognizer = Recognizer(
    supported: bool,
    listening: bool,
    currentLanguage: string,
    recognizerLang: Option<string>,
    callbacks: set<Callback>)

  /** The constructor and `init`: a recogniser set to Spanish exists exactly when the browser supports one. */
  function Init(supported: bool): (s: Recognizer)
    ensures s.supported == supported && !s.listening && s.currentLanguage == DefaultLanguage
    ensures s.recognizerLang.Some? <==> supported
    ensures supported ==> s.recognizerLang == Some(DefaultLanguage)
  {
    Recognizer(supported, false, DefaultLanguage, if supported then Some(DefaultLanguage) else None, {})
  }

  datatype StartOutcome = Unsupported | AlreadyListening | StartRequested

  /** `startListening`: refuses when unsupported, then when already listening; otherwise asks the recogniser to start. */
  function StartListening(s: Recognizer): (o: StartOutcome)
    ensures o == Unsupported <==> !s.supported
    ensures o == AlreadyListening <==> s.supported && s.listening
    ensures o == StartRequested <==> s.supported && !s.listening
  {
    if !s.supported then Unsupported
    else if s.listening then AlreadyListening
    else StartRequested
  }

  /** The recogniser's `onstart`: listening from now on. */
  function OnStart(s: Recognizer): (s': Recognizer)
    ensures s'.listening && s'.currentLanguage == s.currentLanguage && s'.callbacks == s.callbacks
  {
    s.(listening := true)
  }

  /** Once started, a second start is refused until the recogniser ends or fails. */
  lemma StartedRefusesStart(s: Recognizer)
    requires s.supported
    ensures StartListening(OnStart(s)) == AlreadyListening
    ensures StartListening(OnEnd(OnStart(s))) == StartRequested
  {
  }

  /** The recogniser's `onend`. */
  function OnEnd(s: Recognizer): (s': Recognizer)
    ensures !s'.listening && s'.currentLanguage == s.currentLanguage && s'.callbacks == s.callbacks
  {
    s.(listening := false)
  }

  /** The recogniser's `onerror`: not listening, and the readable message goes to the error callback if set. */
  function OnError(s: Recognizer, code: string): (res: (Recognizer, Option<string>))
    ensures !res.0.listening && res.0.callbacks == s.callbacks
    ensures res.1.Some? <==> OnErrorCb in s.callbacks
    ensures res.1.Some? ==> res.1.value == ErrorMessage(code)
  {
    (s.(listening := false), if OnErrorCb in s.callbacks then Some(ErrorMessage(code)) else None)
  }

  /** `abort`: stops at once, which only means something when there is a recogniser. */
  function Abort(s: Recognizer): (s': Recognizer)
    ensures s.recognizerLang.Some? ==> !s'.listening
    ensures s.recognizerLang.None? ==> s' == s
    ensures s'.currentLanguage == s.currentLanguage && s'.callbacks == s.callbacks
  {
    if s.recognizerLang.Some? then s.(listening := false) else s
  }

  /** `setLanguage`: the service's language always, the recogniser's when there is one. */
  function SetLanguage(s: Recognizer, language: string): (s': Recognizer)
    ensures s'.currentLanguage == language
    ensures s.recognizerLang.Some? ==> s'.recognizerLang == Some(language)
    ensures s.recognizerLang.None? ==> s'.recognizerLang.None?
    ensures s'.listening == s.listening && s'.callbacks == s.callbacks
  {
    s.(currentLanguage := language, recognizerLang := if s.recognizerLang.Some? then Some(language) else None)
  }

  /** `setCallbacks`: only the callbacks given are set; none is ever unset. */
  function SetCallbacks(s: Recognizer, given: set<Callback>): (s': Recognizer)
    ensures s'.callbacks == s.callbacks + given
    ensures s'.listening == s.listening && s'.currentLanguage == s.currentLanguage
  {
    s.(callbacks := s.callbacks + given)
  }

  // -------------------------------------------------------------- errors

  /** The fixed texts of the recogniser's known error codes. */
  const ErrorTexts: map<string, string> := map[
    "no-speech" := "No se detectó voz. " + "Intenta hablar más fuerte.",
    "audio-capture" := "No se pudo capturar audio. " + "Verifica tu micrófono.",
    "not-allowed" := "Permiso denegado para acceder al micrófono.",
    "network" := "Error de red. " + "Verifica tu conexión.",
    "language-not-supported" := "Idioma no soportado.",
    "service-not-allowed" := "Servicio de reconocimiento no permitido.",
    "bad-grammar" := "Error en la gramática de reconocimiento.",
    "aborted" := "Reconocimiento abortado por el usuario."]

  const UnknownErrorPrefix: string := "Error desconocido: "

  /** `getErrorMessage`: the fixed text of a known code, otherwise the code after a fixed prefix. */
  function ErrorMessage(code: string): (m: string)
    ensures code in ErrorTexts ==> m == ErrorTexts[code]
    ensures code !in ErrorTexts ==> m == UnknownErrorPrefix + code
  {
    if code in ErrorTexts then ErrorTexts[code] else UnknownErrorPrefix + code
  }

  /** No fixed error text starts with the unknown-code prefix. */
  lemma KnownTextLacksPrefix(code: string)
    requires code in ErrorTexts
    ensures !(UnknownErrorPrefix <= ErrorTexts[code])
  {
    var t := ErrorTexts[code];
    if code == "no-speech" || code == "audio-capture" { assert t[1] != UnknownErrorPrefix[1]; }
    else if code == "network" { assert t[8] != UnknownErrorPrefix[8]; }
    else if code == "bad-grammar" { assert t[6] != UnknownErrorPrefix[6]; }
    else { assert t[0] != UnknownErrorPrefix[0]; }
  }

  /** Known and unknown codes never collide: a known code's text never reads as an unknown code's. */
  lemma ErrorMessagesDistinguishable(code: string, other: string)
    requires code in ErrorTexts && other !in ErrorTexts
    ensures ErrorMessage(code) != ErrorMessage(other)
  {
    KnownTextLacksPrefix(code);
    assert UnknownErrorPrefix <= ErrorMessage(other);
  }

  // ------------------------------------------------------ server fallback

  /** What the server-backed service does with the reply to an uploaded recording. */
  datatype Delivery = Delivered(payload: Payload) | Reported(message: string) | Silent

  const DefaultTranscriptionError: string := "Error en transcripción"
  const UploadError: string := "Error procesando audio"

  /**
   * `sendAudioToServer`: a successful transcription goes to the result
   * callback as a final text with confidence 1; anything else goes to the
   * error callback with the reply's message. A refused request raises in
   * the HTTP client and is reported with a fixed text.
   */
  function ServerReply(reply: TranslatorViews.SttReply, callbacks: set<Callback>): (d: Delivery)
    ensures reply.AudioRequired? ==> d == (if OnErrorCb in callbacks then Reported(UploadError) else Silent)
    ensures reply.SttOk? && reply.result.success && OnResultCb in callbacks ==>
      d == Delivered(Payload(reply.result.text, "", 1.0))
    ensures reply.SttOk? && !(reply.result.success && OnResultCb in callbacks) ==>
      d == (if OnErrorCb in callbacks then Reported(SpeechService.TranscribeMessageText(reply.result.message)) else Silent)
  {
    match reply
    case AudioRequired => if OnErrorCb in callbacks then Reported(UploadError) else Silent
    case SttOk(t) =>
      if t.success && OnResultCb in callbacks then Delivered(Payload(t.text, "", 1.0))
      else if OnErrorCb in callbacks then
        var message := SpeechService.TranscribeMessageText(t.message);
        Reported(if message != "" then message else DefaultTranscriptionError)
      else Silent
  }

  /** The server always sends a message, so the client's default error text is never shown for a reply. */
  lemma DefaultErrorNeverShown(reply: TranslatorViews.SttReply, callbacks: set<Callback>)
    ensures ServerReply(reply, callbacks) != Reported(DefaultTranscriptionError)
  {
    if reply.SttOk? {
      MessageIsNotDefault(reply.result.message);
    }
  }

  lemma MessageIsNotDefault(m: SpeechService.TranscribeMessage)
    ensures SpeechService.TranscribeMessageText(m) != DefaultTranscriptionError
  {
    var t := SpeechService.TranscribeMessageText(m);
    if m.ServiceErrorMsg? || m.InternalMsg? {
      assert t[6] != DefaultTranscriptionError[6];
    } else {
      assert t[0] != DefaultTranscriptionError[0];
    }
  }

  /** A recognised recording reaches the result callback as the server's post-processed text. */
  lemma RecognizedReachesCallback(stt: SpeechService.Stt, text: string, callbacks: set<Callback>)
    requires stt.available && OnResultCb in callbacks
    ensures ServerReply(TranslatorViews.SpeechToText(stt, true, SpeechService.Recognized(text)), callbacks)
      == Delivered(Payload(SpeechService.PostprocessSpanish(text), "", 1.0))
  {
  }

  // ------------------------------------------------------------- factory

  datatype Service = WebSpeech(recognizer: Recognizer) | ServerBacked

  /** `createSpeechRecognitionService`: the Web Speech service exactly when the browser supports it. */
  function Create(supported: bool): (s: Service)
    ensures s.WebSpeech? <==> supported
    ensures s.WebSpeech? ==> s.recognizer == Init(true)
  {
    if supported then WebSpeech(Init(true)) else ServerBacked
  }
}

=== FILE: speech_service.dfy ===
/**
 * Speech services (backend/translator/services/speech_service.py): admission
 * of text to the bounded synthesis queue, the text clean-up before synthesis,
 * configuration updates, and the language handling and text clean-up of
 * transcription. The synthesis worker thread, the subprocess back ends and
 * the recogniser library are outside the model; their outcomes are inputs.
 */
module SpeechService {
  import opened Wrappers
  import opened Json
  import opened Text

  // ------------------------------------------------------- text to speech

  datatype SpeechItem = SpeechItem(text: string, originalText: string, priority: Json)

  /** The synthesis service: availability, the pending queue, the worker flag and the voice settings. */
  datatype Tts = Tts(available: bool, queue: seq<SpeechItem>, processing: bool, config: map<string, Json>)

  const QueueCapacity: nat := 10

  const DefaultConfig: map<string, Json> :=
    map["rate" := JInt(-1), "volume" := JInt(80), "voice" := JStr("female"), "language" := JStr("es")]

  /** What the service looks like before any text arrives. */
  function InitialTts(available: bool): (t: Tts)
    ensures Bounded(t) && t.queue == [] && !t.processing
  {
    Tts(available, [], false, DefaultConfig)
  }

  predicate Bounded(t: Tts) {
    |t.queue| <= QueueCapacity
  }

  datatype SpeakMessage = Unavailable | EmptyText | Queued | QueueFull

  function SpeakMessageText(m: SpeakMessage): string {
    match m
    case Unavailable => "Servicio TTS no disponible"
    case EmptyText => "Texto vacío"
    case Queued => "Texto añadido a cola de síntesis"
    case QueueFull => "Cola de síntesis llena"
  }

  /** The reply of `speak_text`; `queueSize` is present only on success. */
  datatype SpeakResult = SpeakResult(success: bool, message: SpeakMessage, queued: bool, queueSize: Option<nat>)

  function Rejected(m: SpeakMessage): SpeakResult {
    SpeakResult(false, m, false, None)
  }

  /** `_clear_queue`: drop every pending item. */
  function ClearQueue(t: Tts): (t': Tts)
    ensures t'.queue == [] && t' == t.(queue := [])
  {
    t.(queue := [])
  }

  /**
   * `speak_text` with no worker draining the queue meanwhile: a full queue
   * makes the bounded `put` time out. High priority clears the queue first.
   */
  function SpeakText(t: Tts, text: string, priority: Json): (res: (Tts, SpeakResult))
    ensures !t.available ==> res == (t, Rejected(Unavailable))
    ensures t.available && Strip(Python, text) == "" ==> res == (t, Rejected(EmptyText))
    ensures res.1.success <==> res.1.queued
    ensures res.1.success <==>
      t.available && Strip(Python, text) != "" && (priority == JStr("high") || |t.queue| < QueueCapacity)
    ensures res.1.success ==>
      && var item := SpeechItem(Preprocess(text), text, priority);
      && res.0.queue == (if priority == JStr("high") then [] else t.queue) + [item]
      && res.0.processing
      && res.0.config == t.config && res.0.available == t.available
      && res.1.queueSize == Some(|res.0.queue|)
    ensures !res.1.success ==> res.0 == t && res.1.queueSize.None?
    ensures Bounded(t) ==> Bounded(res.0)
  {
    if !t.available then (t, Rejected(Unavailable))
    else if text == "" || |Strip(Python, text)| == 0 then (t, Rejected(EmptyText))
    else Enqueue(t, SpeechItem(Preprocess(text), text, priority), priority == JStr("high"))
  }

  /** The queueing step of `speak_text`: clear first for high priority, then a bounded `put`. */
  function Enqueue(t: Tts, item: SpeechItem, high: bool): (res: (Tts, SpeakResult))
    ensures var before := if high then [] else t.queue;
      && (res.1.success <==> |before| < QueueCapacity)
      && (res.1.success ==>
            && res.0 == t.(queue := before + [item], processing := true)
            && res.1 == SpeakResult(true, Queued, true, Some(|before| + 1)))
      && (!res.1.success ==> res == (t, Rejected(QueueFull)))
  {
    var t1 := if high then ClearQueue(t) else t;
    if |t1.queue| >= QueueCapacity then (t, Rejected(QueueFull))
    else
      var t2 := t1.(queue := t1.queue + [item], processing := true);
      (t2, SpeakResult(true, Queued, true, Some(|t2.queue|)))
  }

  /** With nothing draining the queue, a high-priority item is all that is left. */
  lemma HighPriorityLeavesOnlyItself(t: Tts, text: string)
    requires t.available && Strip(Python, text) != ""
    ensures SpeakText(t, text, JStr("high")).0.queue == [SpeechItem(Preprocess(text), text, JStr("high"))]
    ensures SpeakText(t, text, JStr("high")).1.queueSize == Some(1)
  {
  }

  /** The eleventh normal item is refused and the ten already queued stay as they were. */
  lemma FullQueueRefuses(t: Tts, text: string, priority: Json)
    requires t.available && Strip(Python, text) != "" && |t.queue| == QueueCapacity
    requires priority != JStr("high")
    ensures SpeakText(t, text, priority) == (t, SpeakResult(false, QueueFull, false, None))
  {
  }

  // ------------------------------------------------------ text clean-up

  /** The abbreviation table in its insertion order, which is the order it is applied in. */
  const Abbreviations: seq<(string, string)> := [
    ("IA", "inteligencia artificial"),
    ("TTS", "texto a voz"),
    ("STT", "voz a texto"),
    ("API", "api"),
    ("URL", "url"),
    ("HTTP", "http"),
    ("JSON", "json"),
    ("DB", "base de datos"),
    ("OK", "vale"),
    ("GPS", "gps"),
    ("SMS", "mensaje de texto"),
    ("PC", "computadora"),
    ("TV", "televisión")
  ]

  /** Each replacement in turn, on the output of the previous one. */
  function ReplaceAll(s: string, table: seq<(string, string)>): string
    requires forall k :: 0 <= k < |table| ==> |table[k].0| > 0
    decreases |table|
  {
    if table == [] then s else ReplaceAll(Replace(s, table[0].0, table[0].1), table[1..])
  }

  /** The character clean-up: double quotes and back quotes become `'`, `$` becomes "dólar". */
  function CleanChars(s: string): (r: string)
    ensures '"' !in r && '`' !in r && '$' !in r
  {
    var a := Replace(s, "\"", "'");
    ReplaceCharRemoves(s, '"', "'");
    var b := Replace(a, "`", "'");
    ReplaceCharRemoves(a, '`', "'");
    ReplaceKeepsAbsent(a, "`", "'", '"');
    var c := Replace(b, "$", "dólar");
    ReplaceCharRemoves(b, '$', "dólar");
    ReplaceKeepsAbsent(b, "$", "dólar", '"');
    ReplaceKeepsAbsent(b, "$", "dólar", '`');
    c
  }

  /** `_preprocess_text`: strip, clean the characters, expand the abbreviations. */
  function Preprocess(text: string): (r: string)
    ensures '"' !in r && '`' !in r && '$' !in r
  {
    var c := CleanChars(Strip(Python, text));
    AbbreviationsWellFormed();
    ExpansionsKeepAbsent(c, Abbreviations, '"');
    ExpansionsKeepAbsent(c, Abbreviations, '`');
    ExpansionsKeepAbsent(c, Abbreviations, '$');
    ReplaceAll(c, Abbreviations)
  }

  /** Every abbreviation is a non-empty word starting upper-case; no expansion holds a quote or a dollar sign. */
  lemma AbbreviationsWellFormed()
    ensures forall k :: 0 <= k < |Abbreviations| ==>
      && |Abbreviations[k].0| > 0 && IsAsciiUpper(Abbreviations[k].0[0])
      && '"' !in Abbreviations[k].1 && '`' !in Abbreviations[k].1 && '$' !in Abbreviations[k].1
  {
    AbbreviationsStartUpper();
    ExpansionsLackQuotes();
  }

  lemma AbbreviationsStartUpper()
    ensures forall k :: 0 <= k < |Abbreviations| ==> |Abbreviations[k].0| > 0 && IsAsciiUpper(Abbreviations[k].0[0])
  {
  }

  lemma ExpansionsLackQuotes()
    ensures forall k :: 0 <= k < |Abbreviations| ==>
      '"' !in Abbreviations[k].1 && '`' !in Abbreviations[k].1 && '$' !in Abbreviations[k].1
  {
    ExpansionsArePlain();
    forall k | 0 <= k < |Abbreviations|
      ensures '"' !in Abbreviations[k].1 && '`' !in Abbreviations[k].1 && '$' !in Abbreviations[k].1
    {
      PlainHasNoQuotes(Abbreviations[k].1);
    }
  }

  /** Lower-case letters, spaces and accented vowels only. */
  predicate PlainWords(e: string) {
    forall i :: 0 <= i < |e| ==> 'a' <= e[i] <= 'z' || e[i] == ' ' || e[i] == 'ó'
  }

  lemma ExpansionsArePlain()
    ensures forall k :: 0 <= k < |Abbreviations| ==> PlainWords(Abbreviations[k].1)
  {
  }

  lemma PlainHasNoQuotes(e: string)
    requires PlainWords(e)
    ensures '"' !in e && '`' !in e && '$' !in e
  {
  }

  /** No expansion text holds a quote, a back quote or a dollar sign, so none is reintroduced. */
  lemma {:induction false} ExpansionsKeepAbsent(s: string, table: seq<(string, string)>, c: char)
    requires forall k :: 0 <= k < |table| ==> |table[k].0| > 0 && c !in table[k].1
    requires c !in s
    ensures c !in ReplaceAll(s, table)
    decreases |table|
  {
    if table != [] {
      ReplaceKeepsAbsent(s, table[0].0, table[0].1, c);
      ExpansionsKeepAbsent(Replace(s, table[0].0, table[0].1), table[1..], c);
    }
  }

  predicate IsAsciiUpper(c: char) {
    'A' <= c <= 'Z'
  }

  /** A pattern whose first character does not occur is never replaced. */
  lemma {:induction false} ReplaceMissing(s: string, pat: string, rep: string)
    requires |pat| > 0 && pat[0] !in s
    ensures Replace(s, pat, rep) == s
    decreases |s|
  {
    if |s| >= |pat| {
      assert s[..|pat|][0] == s[0];
      ReplaceMissing(s[1..], pat, rep);
      assert s == [s[0]] + s[1..];
    }
  }

  lemma {:induction false} NoUpperNoExpansion(s: string, table: seq<(string, string)>)
    requires forall k :: 0 <= k < |table| ==> |table[k].0| > 0 && IsAsciiUpper(table[k].0[0])
    requires forall k :: 0 <= k < |s| ==> !IsAsciiUpper(s[k])
    ensures ReplaceAll(s, table) == s
    decreases |table|
  {
    if table != [] {
      ReplaceMissing(s, table[0].0, table[0].1);
      NoUpperNoExpansion(s, table[1..]);
    }
  }

  /** Every abbreviation starts with an upper-case letter, so text without one only gets the character clean-up. */
  lemma PreprocessLowerCase(text: string)
    requires forall k :: 0 <= k < |CleanChars(Strip(Python, text))| ==> !IsAsciiUpper(CleanChars(Strip(Python, text))[k])
    ensures Preprocess(text) == CleanChars(Strip(Python, text))
  {
    AbbreviationsWellFormed();
    NoUpperNoExpansion(CleanChars(Strip(Python, text)), Abbreviations);
  }

  // -------------------------------------------------------------- config

  /** `update_config`: only keys the configuration already has are written; the others are ignored. */
  function UpdateConfig(config: map<string, Json>, updates: map<string, Json>): (r: map<string, Json>)
    ensures r.Keys == config.Keys
    ensures forall k :: k in config && k in updates ==> r[k] == updates[k]
    ensures forall k :: k in config && k !in updates ==> r[k] == config[k]
  {
    map k | k in config :: if k in updates then updates[k] else config[k]
  }

  /** Updating twice with the same values is updating once; keys outside the config never appear. */
  lemma UpdateConfigIdempotent(config: map<string, Json>, updates: map<string, Json>)
    ensures UpdateConfig(UpdateConfig(config, updates), updates) == UpdateConfig(config, updates)
    ensures UpdateConfig(config, updates).Keys == DefaultConfig.Keys <== config.Keys == DefaultConfig.Keys
  {
  }

  // ------------------------------------------------------- speech to text

  const SupportedLanguages: seq<string> := ["es-ES", "es-MX", "es-AR", "es-CO", "es-US"]

  datatype Stt = Stt(available: bool, defaultLanguage: string)

  predicate SttValid(s: Stt) {
    s.defaultLanguage in SupportedLanguages
  }

  function InitialStt(available: bool): (s: Stt)
    ensures SttValid(s)
  {
    Stt(available, "es-ES")
  }

  /** `set_default_language`: accepted only for a supported language. */
  function SetDefaultLanguage(s: Stt, language: string): (res: (Stt, bool))
    ensures res.1 <==> language in SupportedLanguages
    ensures res.1 ==> res.0 == s.(defaultLanguage := language)
    ensures !res.1 ==> res.0 == s
    ensures SttValid(s) ==> SttValid(res.0)
  {
    if language in SupportedLanguages then (s.(defaultLanguage := language), true) else (s, false)
  }

  /** The language `transcribe_audio_file` uses: the requested one if supported, else the default. */
  function ChooseLanguage(s: Stt, language: Option<string>): (l: string)
    ensures language.Some? && language.value in SupportedLanguages ==> l == language.value
    ensures !(language.Some? && language.value in SupportedLanguages) ==> l == s.defaultLanguage
    ensures SttValid(s) ==> l in SupportedLanguages
  {
    var l := if language.None? || language.value == "" then s.defaultLanguage else language.value;
    if l !in SupportedLanguages then s.defaultLanguage else l
  }

  /** What the recogniser did with the audio. */
  datatype Recognition = Recognized(text: string) | NotUnderstood | ServiceError(detail: string) | Failed(detail: string)

  datatype TranscribeMessage = SttUnavailable | Transcribed | NotUnderstoodMsg | ServiceErrorMsg(detail: string)
                             | InternalMsg(detail: string)

  datatype Transcription = Transcription(success: bool, text: string, message: TranscribeMessage,
                                         languageUsed: Option<string>)

  /** The `message` text of each transcription outcome; none is empty. */
  function TranscribeMessageText(m: TranscribeMessage): (t: string)
    ensures t != ""
  {
    match m
    case SttUnavailable => "Servicio STT no disponible - " + "faltan dependencias"
    case Transcribed => "Transcripción exitosa en español"
    case NotUnderstoodMsg => "No se pudo entender el audio en español"
    case ServiceErrorMsg(d) => "Error del servicio de reconocimiento: " + d
    case InternalMsg(d) => "Error interno: " + d
  }

  /** `transcribe_audio_file` with the recogniser's outcome as input. */
  function Transcribe(s: Stt, language: Option<string>, outcome: Recognition): (r: Transcription)
    ensures !s.available ==> r == Transcription(false, "", SttUnavailable, None)
    ensures s.available ==> r.languageUsed == Some(ChooseLanguage(s, language))
    ensures r.success <==> s.available && outcome.Recognized?
    ensures r.success ==> r.text == PostprocessSpanish(outcome.text)
    ensures !r.success ==> r.text == ""
  {
    if !s.available then Transcription(false, "", SttUnavailable, None)
    else
      var l := ChooseLanguage(s, language);
      match outcome
      case Recognized(text) => Transcription(true, PostprocessSpanish(text), Transcribed, Some(l))
      case NotUnderstood => Transcription(false, "", NotUnderstoodMsg, Some(l))
      case ServiceError(d) => Transcription(false, "", ServiceErrorMsg(d), Some(l))
      case Failed(d) => Transcription(false, "", InternalMsg(d), Some(l))
  }

  /** The correction table in its insertion order. */
  const Corrections: seq<(string, string)> := [
    ("api", "API"),
    ("url", "URL"),
    ("http", "HTTP"),
    ("json", "JSON"),
    ("hello hand", "HelloHand"),
    ("hola hand", "HelloHand"),
    ("ola hand", "HelloHand")
  ]

  /**
   * The correction loop. The lower-cased copy is taken once, before the
   * loop, so later corrections test the original text, not the corrected one.
   */
  function ApplyCorrections(text: string, lowered: string, table: seq<(string, string)>): string
    requires forall k :: 0 <= k < |table| ==> |table[k].0| > 0
    decreases |table|
  {
    if table == [] then text
    else
      var (wrong, correct) := table[0];
      var text' := if Contains(lowered, wrong) then
        Replace(Replace(Replace(text, wrong, correct), Capitalize(wrong), correct), Upper(wrong), correct)
      else text;
      ApplyCorrections(text', lowered, table[1..])
  }

  /** `_postprocess_spanish_text`, with ASCII-only case mapping. */
  function PostprocessSpanish(text: string): (r: string)
    ensures text == "" ==> r == ""
  {
    if text == "" then text
    else
      var t := Capitalize(Strip(Python, text));
      ApplyCorrections(t, Lower(t), Corrections)
  }

  lemma {:induction false} NoCorrectionApplies(text: string, lowered: string, table: seq<(string, string)>)
    requires forall k :: 0 <= k < |table| ==> |table[k].0| > 0 && !Contains(lowered, table[k].0)
    ensures ApplyCorrections(text, lowered, table) == text
    decreases |table|
  {
    if table != [] {
      NoCorrectionApplies(text, lowered, table[1..]);
    }
  }

  /** Without any of the listed words the result is just the stripped, capitalised text. */
  lemma PostprocessPlain(text: string)
    requires text != ""
    requires forall k :: 0 <= k < |Corrections| ==>
      !Contains(Lower(Capitalize(Strip(Python, text))), Corrections[k].0)
    ensures PostprocessSpanish(text) == Capitalize(Strip(Python, text))
  {
    var t := Capitalize(Strip(Python, text));
    NoCorrectionApplies(t, Lower(t), Corrections);
  }
}

=== FILE: text.dfy ===
/**
 * String operations the system relies on, with the exact semantics of the
 * Python and JavaScript built-ins it calls: `str.strip`/`String.trim`,
 * `str.replace`, `str.split`, `str.upper` and `str.capitalize`.
 */
module Text {

  /** Which language's whitespace table applies. */
  datatype Lang = Python | JavaScript

  /**
   * Python `str.isspace` and the JavaScript WhiteSpace/LineTerminator set.
   * They differ only in U+001C..U+001F and U+0085 (Python) and U+FEFF
   * (JavaScript).
   */
  predicate IsSpace(lang: Lang, c: char) {
    || c == ' ' || c == '\t' || c == '\n' || c == '\r' || c == '\U{000B}' || c == '\U{000C}'
    || c == '\U{00A0}' || c == '\U{1680}' || ('\U{2000}' <= c <= '\U{200A}')
    || c == '\U{2028}' || c == '\U{2029}' || c == '\U{202F}' || c == '\U{205F}' || c == '\U{3000}'
    || (lang == Python && (('\U{001C}' <= c <= '\U{001F}') || c == '\U{0085}'))
    || (lang == JavaScript && c == '\U{FEFF}')
  }

  predicate AllSpace(lang: Lang, s: string) {
    forall k :: 0 <= k < |s| ==> IsSpace(lang, s[k])
  }

  /** Removes leading whitespace: the result is the longest suffix not starting with a space. */
  function TrimStart(lang: Lang, s: string): (r: string)
    ensures |r| <= |s| && r == s[|s| - |r|..]
    ensures AllSpace(lang, s[..|s| - |r|])
    ensures r == [] || !IsSpace(lang, r[0])
    decreases |s|
  {
    if |s| > 0 && IsSpace(lang, s[0]) then
      var r := TrimStart(lang, s[1..]);
      assert s[1..][..|s[1..]| - |r|] == s[1..|s| - |r|];
      r
    else s
  }

  /** Removes trailing whitespace: the result is the longest prefix not ending with a space. */
  function TrimEnd(lang: Lang, s: string): (r: string)
    ensures |r| <= |s| && r == s[..|r|]
    ensures AllSpace(lang, s[|r|..])
    ensures r == [] || !IsSpace(lang, r[|r| - 1])
    decreases |s|
  {
    if |s| > 0 && IsSpace(lang, s[|s| - 1]) then
      var r := TrimEnd(lang, s[..|s| - 1]);
      assert s[..|s| - 1][|r|..] == s[|r|..|s| - 1];
      assert AllSpace(lang, [s[|s| - 1]]);
      AllSpaceConcat(lang, s[|r|..|s| - 1], [s[|s| - 1]]);
      assert s[|r|..] == s[|r|..|s| - 1] + [s[|s| - 1]];
      r
    else s
  }

  /** `r` is `s` with the whitespace runs `s[..i]` and `s[i + |r|..]` cut off. */
  ghost predicate StrippedAt(lang: Lang, s: string, r: string, i: int) {
    && 0 <= i <= |s| - |r|
    && r == s[i..i + |r|]
    && AllSpace(lang, s[..i])
    && AllSpace(lang, s[i + |r|..])
  }

  /** Python `s.strip()` (lang = Python) and JavaScript `s.trim()` (lang = JavaScript). */
  function Strip(lang: Lang, s: string): (r: string)
    ensures r == [] <==> AllSpace(lang, s)
    ensures r != [] ==> !IsSpace(lang, r[0]) && !IsSpace(lang, r[|r| - 1])
    ensures exists i :: StrippedAt(lang, s, r, i)
  {
    var a := TrimStart(lang, s);
    var r := TrimEnd(lang, a);
    StripFacts(lang, s, a, r);
    r
  }

  lemma StripFacts(lang: Lang, s: string, a: string, r: string)
    requires |a| <= |s| && a == s[|s| - |a|..]
    requires AllSpace(lang, s[..|s| - |a|])
    requires a == [] || !IsSpace(lang, a[0])
    requires |r| <= |a| && r == a[..|r|]
    requires AllSpace(lang, a[|r|..])
    ensures r == [] <==> AllSpace(lang, s)
    ensures StrippedAt(lang, s, r, |s| - |a|)
  {
    var i := |s| - |a|;
    StripSlice(s, a, r, i);
    if r == [] {
      assert a[|r|..] == a;
      AllSpaceConcat(lang, s[..i], a);
      assert s == s[..i] + a;
    } else {
      assert s[i] == r[0];
      assert !IsSpace(lang, s[i]);
    }
  }

  lemma StripSlice(s: string, a: string, r: string, i: nat)
    requires i <= |s| && a == s[i..] && |r| <= |a| && r == a[..|r|]
    ensures r == s[i..i + |r|] && s[i + |r|..] == a[|r|..]
  {
  }

  lemma AllSpaceConcat(lang: Lang, x: string, y: string)
    requires AllSpace(lang, x) && AllSpace(lang, y)
    ensures AllSpace(lang, x + y)
  {
    forall k | 0 <= k < |x + y| ensures IsSpace(lang, (x + y)[k]) {
      if k < |x| {
        assert (x + y)[k] == x[k];
      } else {
        assert (x + y)[k] == y[k - |x|];
      }
    }
  }

  /** Stripping twice is stripping once. */
  lemma StripIdempotent(lang: Lang, s: string)
    ensures Strip(lang, Strip(lang, s)) == Strip(lang, s)
  {
    var r := Strip(lang, s);
    assert TrimStart(lang, r) == r;
    assert TrimEnd(lang, r) == r;
  }

  /** `sub` occurs somewhere in `s` (Python `sub in s`, JavaScript `s.includes(sub)`). */
  predicate Contains(s: string, sub: string) {
    exists i | 0 <= i <= |s| - |sub| :: OccursAt(s, sub, i)
  }

  predicate OccursAt(s: string, sub: string, i: int) {
    0 <= i <= |s| - |sub| && s[i..i + |sub|] == sub
  }

  /**
   * Python `s.replace(pat, rep)` for a non-empty `pat`: occurrences are found
   * left to right and never overlap.
   */
  function Replace(s: string, pat: string, rep: string): string
    requires |pat| > 0
    decreases |s|
  {
    if |s| < |pat| then s
    else if s[..|pat|] == pat then rep + Replace(s[|pat|..], pat, rep)
    else [s[0]] + Replace(s[1..], pat, rep)
  }

  /** Every character of a replacement comes from the input or from `rep`. */
  lemma {:induction false} ReplaceChars(s: string, pat: string, rep: string, c: char)
    requires |pat| > 0
    requires c in Replace(s, pat, rep)
    ensures c in s || c in rep
    decreases |s|
  {
    if |s| < |pat| {
    } else if s[..|pat|] == pat {
      if c !in rep {
        ReplaceChars(s[|pat|..], pat, rep, c);
      }
    } else {
      if c != s[0] {
        ReplaceChars(s[1..], pat, rep, c);
      }
    }
  }

  /** A character absent from the input and from `rep` is absent from the result. */
  lemma ReplaceKeepsAbsent(s: string, pat: string, rep: string, c: char)
    requires |pat| > 0
    requires c !in s && c !in rep
    ensures c !in Replace(s, pat, rep)
  {
    if c in Replace(s, pat, rep) {
      ReplaceChars(s, pat, rep, c);
    }
  }

  /** Replacing a single character by another maps the string pointwise. */
  lemma {:induction false} ReplaceCharPointwise(s: string, a: char, b: char)
    ensures |Replace(s, [a], [b])| == |s|
    ensures forall k :: 0 <= k < |s| ==> Replace(s, [a], [b])[k] == (if s[k] == a then b else s[k])
    decreases |s|
  {
    if |s| >= 1 {
      ReplaceCharPointwise(s[1..], a, b);
    }
  }

  /** After replacing every `a`, no `a` is left unless `rep` reintroduces it. */
  lemma {:induction false} ReplaceCharRemoves(s: string, a: char, rep: string)
    requires a !in rep
    ensures a !in Replace(s, [a], rep)
    decreases |s|
  {
    if |s| >= 1 {
      ReplaceCharRemoves(s[1..], a, rep);
      if s[..1] == [a] {
        assert Replace(s, [a], rep) == rep + Replace(s[1..], [a], rep);
      } else {
        assert Replace(s, [a], rep) == [s[0]] + Replace(s[1..], [a], rep);
      }
    }
  }

  /** Replacing a pattern by itself changes nothing. */
  lemma {:induction false} ReplaceSelf(s: string, pat: string)
    requires |pat| > 0
    ensures Replace(s, pat, pat) == s
    decreases |s|
  {
    if |s| < |pat| {
    } else if s[..|pat|] == pat {
      ReplaceSelf(s[|pat|..], pat);
      assert s == s[..|pat|] + s[|pat|..];
    } else {
      ReplaceSelf(s[1..], pat);
      assert s == [s[0]] + s[1..];
    }
  }

  /** Position of the first `c` in `s`. */
  function IndexOf(s: string, c: char): (i: nat)
    requires c in s
    ensures i < |s| && s[i] == c && c !in s[..i]
  {
    if s[0] == c then 0
    else
      assert c in s[1..] by { assert s == [s[0]] + s[1..]; }
      var j := IndexOf(s[1..], c);
      assert s[..j + 1] == [s[0]] + s[1..][..j];
      1 + j
  }

  /** Python `s.split(c)` for a one-character separator: never empty, no piece holds `c`. */
  function Split(s: string, c: char): (parts: seq<string>)
    ensures |parts| >= 1
    ensures forall k :: 0 <= k < |parts| ==> c !in parts[k]
    decreases |s|
  {
    if c !in s then [s]
    else
      var i := IndexOf(s, c);
      [s[..i]] + Split(s[i + 1..], c)
  }

  /** `c.join(parts)`, the inverse of `Split`. */
  function Join(parts: seq<string>, c: char): string
    requires |parts| >= 1
    decreases |parts|
  {
    if |parts| == 1 then parts[0] else parts[0] + [c] + Join(parts[1..], c)
  }

  /** Splitting then joining with the same separator gives the input back. */
  lemma {:induction false} JoinSplit(s: string, c: char)
    ensures Join(Split(s, c), c) == s
    decreases |s|
  {
    if c in s {
      var i := IndexOf(s, c);
      JoinSplit(s[i + 1..], c);
      assert Split(s, c)[1..] == Split(s[i + 1..], c);
      assert s == s[..i] + [c] + s[i + 1..];
    }
  }

  /** Python `str.upper()` restricted to ASCII letters. */
  function UpperChar(c: char): char {
    if 'a' <= c <= 'z' then (c as int - 32) as char else c
  }

  function LowerChar(c: char): char {
    if 'A' <= c <= 'Z' then (c as int + 32) as char else c
  }

  function Upper(s: string): (r: string)
    ensures |r| == |s| && forall k :: 0 <= k < |s| ==> r[k] == UpperChar(s[k])
  {
    seq(|s|, k requires 0 <= k < |s| => UpperChar(s[k]))
  }

  function Lower(s: string): (r: string)
    ensures |r| == |s| && forall k :: 0 <= k < |s| ==> r[k] == LowerChar(s[k])
  {
    seq(|s|, k requires 0 <= k < |s| => LowerChar(s[k]))
  }

  /** Python `str.capitalize()` on ASCII text: first character upper-case, the rest lower-case. */
  function Capitalize(s: string): (r: string)
    ensures |r| == |s|
    ensures |s| > 0 ==> r[0] == UpperChar(s[0])
    ensures forall k :: 1 <= k < |s| ==> r[k] == LowerChar(s[k])
  {
    if s == [] then [] else [UpperChar(s[0])] + Lower(s[1..])
  }

  /** Upper-casing is idempotent, so an upper-cased id looks itself up. */
  lemma UpperIdempotent(s: string)
    ensures Upper(Upper(s)) == Upper(s)
  {
  }

  /** Decimal digits of a natural number, as Python's `str(n)` and JavaScript's `String(n)` print it. */
  function NatToString(n: nat): (r: string)
    ensures |r| >= 1 && forall k :: 0 <= k < |r| ==> '0' <= r[k] <= '9'
    ensures n < 10 ==> r == [('0' as int + n) as char]
    decreases n
  {
    if n < 10 then [('0' as int + n) as char] else NatToString(n / 10) + [('0' as int + n % 10) as char]
  }
}

=== FILE: translator_views.dfy ===
/**
 * The translator HTTP endpoints (backend/translator/views.py): request
 * validation in front of the sign translator, the speech endpoints, and the
 * status endpoints. Processing times and timestamps are left out.
 */
module TranslatorViews {
  import opened Wrappers
  import opened Json
  import opened SignTranslator
  import opened SpeechService
  import opened Text

  const FrameKeys: seq<string> := ["face", "pose", "left_hand", "right_hand"]

  /** Why a request was refused with status 400. */
  datatype BadRequest =
    | LandmarksRequired
    | LandmarksNotList
    | FrameNotObject(index: nat)
    | FrameMissingKeys(index: nat, missing: seq<string>)

  function BadRequestText(b: BadRequest): string {
    match b
    case LandmarksRequired => "Campo \"landmarks\" es requerido"
    case LandmarksNotList => "Campo \"landmarks\" debe ser una lista"
    case FrameNotObject(i) => "Frame " + NatToString(i) + " debe ser un objeto JSON"
    case FrameMissingKeys(i, missing) => "Frame " + NatToString(i) + " falta campos: " + ListRepr(missing)
  }

  /** Python's `repr` of a list of plain strings: `['face', 'pose']`. */
  function ListRepr(items: seq<string>): string {
    "[" + ListReprItems(items) + "]"
  }

  function ListReprItems(items: seq<string>): string
    decreases |items|
  {
    if items == [] then ""
    else if |items| == 1 then "'" + items[0] + "'"
    else "'" + items[0] + "', " + ListReprItems(items[1..])
  }

  /** The body of a 200 reply; `minConfidenceUsed` echoes the value as received when it was accepted. */
  datatype PredictBody = PredictBody(prediction: Option<string>, confidence: real, success: bool,
                                     message: Message, framesProcessed: nat, minConfidenceUsed: Json)

  datatype PredictReply = PredictOk(body: PredictBody) | PredictBad(reason: BadRequest) | PredictServerError

  /** The keys of `FrameKeys` the frame object lacks, in that order. */
  function MissingKeys(fields: map<string, Json>): (missing: seq<string>)
    ensures forall k :: 0 <= k < |missing| ==> missing[k] in FrameKeys && missing[k] !in fields
    ensures forall key :: key in FrameKeys && key !in fields ==> key in missing
  {
    (if "face" in fields then [] else ["face"])
      + (if "pose" in fields then [] else ["pose"])
      + (if "left_hand" in fields then [] else ["left_hand"])
      + (if "right_hand" in fields then [] else ["right_hand"])
  }

  /** A frame the view lets through: an object with the four parts. */
  predicate FrameShapeOk(frame: Json) {
    frame.JObj? && forall key :: key in FrameKeys ==> key in frame.fields
  }

  function FrameProblem(i: nat, frame: Json): Option<BadRequest> {
    if !frame.JObj? then Some(FrameNotObject(i))
    else
      var missing := MissingKeys(frame.fields);
      if missing == [] then None else Some(FrameMissingKeys(i, missing))
  }

  lemma FrameProblemNoneIffShapeOk(i: nat, frame: Json)
    ensures FrameProblem(i, frame).None? <==> FrameShapeOk(frame)
  {
    if frame.JObj? && MissingKeys(frame.fields) != [] {
      var key := MissingKeys(frame.fields)[0];
      assert key in FrameKeys && key !in frame.fields;
    }
  }

  /** The first offending frame from index `from` on, as the view's loop reports it. */
  function FirstProblem(frames: seq<Json>, from: nat): (r: Option<BadRequest>)
    requires from <= |frames|
    ensures r.None? <==> forall k :: from <= k < |frames| ==> FrameShapeOk(frames[k])
    ensures r.Some? ==> exists i :: (from <= i < |frames| && r == FrameProblem(i, frames[i])
      && (forall k :: from <= k < i ==> FrameShapeOk(frames[k])) && !FrameShapeOk(frames[i]))
    decreases |frames| - from
  {
    if from == |frames| then None
    else
      FrameProblemNoneIffShapeOk(from, frames[from]);
      if FrameProblem(from, frames[from]).Some? then FrameProblem(from, frames[from])
      else
        var rest := FirstProblem(frames, from + 1);
        assert rest.Some? ==> exists i :: (from <= i < |frames| && rest == FrameProblem(i, frames[i])
          && (forall k :: from <= k < i ==> FrameShapeOk(frames[k])) && !FrameShapeOk(frames[i]));
        rest
  }

  /** The confidence threshold: a number in [0, 1] is used, anything else falls back to 0.4. */
  function MinConfidence(raw: Option<Json>): (used: Json)
    ensures IsPyNumber(used) && 0.0 <= PyNumber(used) <= 1.0
    ensures raw.Some? && IsPyNumber(raw.value) && 0.0 <= PyNumber(raw.value) <= 1.0 ==> used == raw.value
    ensures !(raw.Some? && IsPyNumber(raw.value) && 0.0 <= PyNumber(raw.value) <= 1.0) ==> used == JReal(DefaultMinConfidence)
  {
    if raw.Some? && IsPyNumber(raw.value) && 0.0 <= PyNumber(raw.value) <= 1.0 then raw.value
    else JReal(DefaultMinConfidence)
  }

  /**
   * `PredictSignsView.post`. A body that is not an object makes `.get` raise,
   * which the view turns into 500; every validated request is answered 200,
   * whether or not a sign was recognised.
   */
  function PredictSigns(svc: Service, classify: Classifier, body: Json): (r: PredictReply)
    ensures !body.JObj? ==> r == PredictServerError
    ensures body.JObj? ==>
      && var landmarks := GetOr(body, "landmarks", JNull);
      && (!PyTruthy(landmarks) ==> r == PredictBad(LandmarksRequired))
      && (PyTruthy(landmarks) && !landmarks.JList? ==> r == PredictBad(LandmarksNotList))
    ensures r.PredictOk? <==>
      && body.JObj?
      && var landmarks := GetOr(body, "landmarks", JNull);
      && landmarks.JList? && |landmarks.items| > 0
      && forall k :: 0 <= k < |landmarks.items| ==> FrameShapeOk(landmarks.items[k])
    ensures r.PredictOk? ==>
      && var landmarks := GetOr(body, "landmarks", JNull);
      && var used := MinConfidence(Get(body, "min_confidence"));
      && r.body.framesProcessed == |landmarks.items|
      && r.body.minConfidenceUsed == used
      && Predict(svc, classify, landmarks, PyNumber(used)).Returned?
      && var p := Predict(svc, classify, landmarks, PyNumber(used)).p;
         (r.body.prediction, r.body.confidence, r.body.success, r.body.message) == (p.sign, p.confidence, p.success, p.message)
  {
    if !body.JObj? then PredictServerError
    else
      var landmarks := GetOr(body, "landmarks", JNull);
      if !PyTruthy(landmarks) then PredictBad(LandmarksRequired)
      else if !landmarks.JList? then PredictBad(LandmarksNotList)
      else
        var used := MinConfidence(Get(body, "min_confidence"));
        match FirstProblem(landmarks.items, 0)
        case Some(problem) => PredictBad(problem)
        case None =>
          match Predict(svc, classify, landmarks, PyNumber(used))
          case Raised => PredictServerError
          case Returned(p) =>
            PredictOk(PredictBody(p.sign, p.confidence, p.success, p.message, |landmarks.items|, used))
  }

  /** A non-empty list of frames that each carry the four keys is always answered with a prediction. */
  lemma ShapedFramesPredict(svc: Service, classify: Classifier, items: seq<Json>)
    requires |items| > 0 && forall k :: 0 <= k < |items| ==> FrameShapeOk(items[k])
    ensures PredictSigns(svc, classify, JObj(map["landmarks" := JList(items)])).PredictOk?
  {
    assert GetOr(JObj(map["landmarks" := JList(items)]), "landmarks", JNull) == JList(items);
  }

  /** The bad frame reported is the first one: every frame before it passed. */
  lemma PredictReportsFirstBadFrame(svc: Service, classify: Classifier, body: Json)
    requires PredictSigns(svc, classify, body).PredictBad?
    requires PredictSigns(svc, classify, body).reason.FrameNotObject? || PredictSigns(svc, classify, body).reason.FrameMissingKeys?
    ensures
      && var items := GetOr(body, "landmarks", JNull).items;
      && var i := PredictSigns(svc, classify, body).reason.index;
      && i < |items| && !FrameShapeOk(items[i])
      && forall k :: 0 <= k < i ==> FrameShapeOk(items[k])
  {
    var items := GetOr(body, "landmarks", JNull).items;
    var r := FirstProblem(items, 0);
    var i :| 0 <= i < |items| && r == FrameProblem(i, items[i])
      && (forall k :: 0 <= k < i ==> FrameShapeOk(items[k])) && !FrameShapeOk(items[i]);
  }

  /** Too short a sequence is not a client error: it is a 200 reply with success false. */
  lemma ShortSequenceIsNotAnError(svc: Service, classify: Classifier, body: Json)
    requires body.JObj? && svc.loaded
    requires GetOr(body, "landmarks", JNull).JList?
    requires 0 < |GetOr(body, "landmarks", JNull).items| < MinFrames
    requires forall k :: 0 <= k < |GetOr(body, "landmarks", JNull).items| ==> FrameShapeOk(GetOr(body, "landmarks", JNull).items[k])
    ensures PredictSigns(svc, classify, body).PredictOk?
    ensures !PredictSigns(svc, classify, body).body.success
    ensures PredictSigns(svc, classify, body).body.message == TooShortMsg
  {
  }

  // ------------------------------------------------------------ speech

  datatype SpeechReply = SpeechOk(result: SpeakResult) | TextRequired | SpeechServerError

  /**
   * `TextToSpeechView.post`. A missing or falsy `text` is a 400; a truthy
   * non-string reaches `strip` outside any handler, which is a 500 unless
   * the service is unavailable and answers first.
   */
  function TextToSpeech(tts: Tts, body: Json): (res: (Tts, SpeechReply))
    ensures !body.JObj? ==> res == (tts, SpeechServerError)
    ensures body.JObj? && !PyTruthy(GetOr(body, "text", JStr(""))) ==> res == (tts, TextRequired)
    ensures res.1.SpeechOk? <==>
      body.JObj? && PyTruthy(GetOr(body, "text", JStr(""))) && (!tts.available || GetOr(body, "text", JStr("")).JStr?)
    ensures res.1.SpeechOk? && GetOr(body, "text", JStr("")).JStr? ==>
      res == (SpeakText(tts, GetOr(body, "text", JStr("")).s, GetOr(body, "priority", JStr("normal"))).0,
              SpeechOk(SpeakText(tts, GetOr(body, "text", JStr("")).s, GetOr(body, "priority", JStr("normal"))).1))
    ensures !res.1.SpeechOk? || !res.1.result.success ==> res.0 == tts
  {
    if !body.JObj? then (tts, SpeechServerError)
    else
      var text := GetOr(body, "text", JStr(""));
      var priority := GetOr(body, "priority", JStr("normal"));
      if !PyTruthy(text) then (tts, TextRequired)
      else if !tts.available then (tts, SpeechOk(Rejected(Unavailable)))
      else if !text.JStr? then (tts, SpeechServerError)
      else
        var (tts', result) := SpeakText(tts, text.s, priority);
        (tts', SpeechOk(result))
  }

  datatype SttReply = SttOk(result: Transcription) | AudioRequired

  /** `SpeechToTextView.post`: the uploaded file is required; the language is the service default. */
  function SpeechToText(stt: Stt, hasAudio: bool, outcome: Recognition): (r: SttReply)
    ensures r.AudioRequired? <==> !hasAudio
    ensures r.SttOk? ==> r.result == Transcribe(stt, None, outcome)
    ensures r.SttOk? && SttValid(stt) && stt.available ==> r.result.languageUsed == Some(stt.defaultLanguage)
  {
    if !hasAudio then AudioRequired else SttOk(Transcribe(stt, None, outcome))
  }

  // ------------------------------------------------------------ status

  datatype Health = Health(healthy: bool, translatorLoaded: bool, signsAvailable: nat)

  /** `HealthCheckView.get`: healthy exactly when the model is loaded. */
  function HealthCheck(svc: Service): (h: Health)
    ensures h.healthy <==> svc.loaded
    ensures h.translatorLoaded == svc.loaded
    ensures !svc.loaded ==> h.signsAvailable == 0
    ensures svc.loaded ==> h.signsAvailable == |svc.labels|
  {
    Health(svc.loaded, svc.loaded, if svc.loaded then |AvailableSigns(svc)| else 0)
  }

  datatype SignsReply = SignsReply(signs: seq<string>, count: nat, modelLoaded: bool)

  /** `AvailableSignsView.get`: the count always matches the list. */
  function AvailableSignsView(svc: Service): (r: SignsReply)
    ensures r.count == |r.signs|
    ensures r.modelLoaded == svc.loaded
    ensures !svc.loaded ==> r.signs == []
  {
    var signs := AvailableSigns(svc);
    SignsReply(signs, |signs|, svc.loaded)
  }

  datatype ReloadReply = Reloaded(signsCount: nat, signs: seq<string>) | ReloadFailed

  /** `ReloadModelView.post`: 200 with the new sign list, or 500 when the file could not be loaded. */
  function ReloadView(svc: Service, load: LoadResult): (res: (Service, ReloadReply))
    ensures res.1.Reloaded? <==> load.LoadedModel?
    ensures res.1.Reloaded? ==> (res.1.signsCount == |res.1.signs| && res.0.loaded
      && res.1.signs == AvailableSigns(res.0))
    ensures res.1.ReloadFailed? ==> !res.0.loaded
  {
    var (svc', ok) := ReloadModel(svc, load);
    if ok then
      var info := GetModelInfo(svc');
      (svc', Reloaded(info.signsCount, info.signs))
    else (svc', ReloadFailed)
  }
}

=== FILE: webrtc.dfy ===
/**
 * The browser's WebRTC call service (FRONTEND/src/services/webrtcService.js):
 * the bookkeeping of peer connections and remote streams, the call flags,
 * the user callbacks and the signalling messages the service sends. Peer
 * connections are reduced to their id and local description; RTCPeerConnection,
 * ICE and media tracks are left out. Operations return the new state and the
 * events they produce, in order.
 */
module WebRtc {
  import opened Wrappers
  import opened Json
  import opened Channels
  import Rooms
  import Consumer
  import WsClient

  /** A signalling message to one peer: its type, the peer, and the extra fields after `to_participant_id`. */
  datatype Signal = Signal(kind: string, to: string, extra: map<string, Json>)

  /** The data object passed to `sendSignalingMessage`. */
  function SignalData(s: Signal): map<string, Json> {
    map["to_participant_id" := JStr(s.to)] + s.extra
  }

  const SignalKinds: seq<string> := ["webrtc_call_request", "webrtc_call_response", "webrtc_offer",
    "webrtc_answer", "webrtc_ice_candidate", "webrtc_call_ended"]

  /** What an operation does that is visible outside the service's own state. */
  datatype Event =
    | Sent(signal: Signal)
    | RemoteStreamAdded(id: string)
    | RemoteStreamRemoved(id: string)
    | StateChanged(id: string, state: string)
    | CallStarted
    | CallEnded
    | Errored

  datatype Peer = Peer(id: string, localDescription: Option<Json>)

  /** A user callback: absent, `null`, or some function. */
  type Callbacks = map<string, Option<nat>>

  datatype Rtc = Rtc(
    hasLocalStream: bool,
    hasWs: bool,
    roomId: Option<string>,
    participantId: Option<string>,
    peers: seq<Peer>,
    streams: set<string>,
    callActive: bool,
    muted: bool,
    videoOff: bool,
    callbacks: Callbacks)

  const CallbackNames: seq<string> := ["onRemoteStream", "onRemoteStreamRemoved", "onConnectionStateChange",
    "onError", "onCallStarted", "onCallEnded"]

  function Initial(): Rtc {
    Rtc(false, false, None, None, [], {}, false, false, false, map name | name in CallbackNames :: None)
  }

  /** The ids of the peer map, in insertion order. */
  function Ids(peers: seq<Peer>): (ids: seq<string>)
    ensures |ids| == |peers| && forall k :: 0 <= k < |peers| ==> ids[k] == peers[k].id
  {
    seq(|peers|, k requires 0 <= k < |peers| => peers[k].id)
  }

  /** A JavaScript `Map` holds each key once. */
  predicate Distinct(peers: seq<Peer>) {
    forall i, j :: 0 <= i < j < |peers| ==> peers[i].id != peers[j].id
  }

  function Find(peers: seq<Peer>, id: string): (r: Option<Peer>)
    ensures r.Some? ==> r.value in peers && r.value.id == id
    ensures r.None? ==> forall p :: p in peers ==> p.id != id
    decreases |peers|
  {
    if peers == [] then None
    else if peers[0].id == id then Some(peers[0])
    else Find(peers[1..], id)
  }

  /** `Map.delete`. */
  function Remove(peers: seq<Peer>, id: string): (r: seq<Peer>)
    ensures forall p :: p in r <==> p in peers && p.id != id
    ensures |r| <= |peers|
    ensures Distinct(peers) ==> Distinct(r)
    decreases |peers|
  {
    if peers == [] then []
    else if peers[0].id == id then Remove(peers[1..], id)
    else
      var rest := Remove(peers[1..], id);
      assert forall p :: p in rest ==> p in peers[1..];
      [peers[0]] + rest
  }

  /** `Map.set`: replaces the entry in place, or appends a new one. */
  function Put(peers: seq<Peer>, p: Peer): (r: seq<Peer>)
    ensures p in r
    ensures forall q :: q in r ==> q == p || q in peers
    ensures forall q :: q in peers && q.id != p.id ==> q in r
    decreases |peers|
  {
    if peers == [] then [p]
    else if peers[0].id == p.id then [p] + peers[1..]
    else [peers[0]] + Put(peers[1..], p)
  }

  /** Whether a user callback is set to a function. */
  predicate Has(c: Callbacks, name: string) {
    name in c && c[name].Some?
  }

  function Fire(c: Callbacks, name: string, e: Event): (evs: seq<Event>)
    ensures evs == (if Has(c, name) then [e] else [])
  {
    if Has(c, name) then [e] else []
  }

  /** `sendSignalingMessage` as far as the service's own state goes: nothing leaves without a WebSocket service. */
  function Send(r: Rtc, s: Signal): (evs: seq<Event>)
    ensures evs == (if r.hasWs then [Sent(s)] else [])
  {
    if r.hasWs then [Sent(s)] else []
  }

  // --------------------------------------------------------- closing peers

  /**
   * `closePeerConnection`: forgets the peer and its stream, reporting the
   * stream's removal only when there was one; whenever no peer is left the
   * call is over, even if this id was never there.
   */
  function ClosePeer(r: Rtc, id: string): (res: (Rtc, seq<Event>))
    ensures forall p :: p in res.0.peers <==> p in r.peers && p.id != id
    ensures res.0.streams == r.streams - {id}
    ensures Distinct(r.peers) ==> Distinct(res.0.peers)
    ensures res.1 == (if id in r.streams then Fire(r.callbacks, "onRemoteStreamRemoved", RemoteStreamRemoved(id)) else [])
      + (if res.0.peers == [] then Fire(r.callbacks, "onCallEnded", CallEnded) else [])
    ensures res.0.callActive == (r.callActive && res.0.peers != [])
    ensures res.0.callbacks == r.callbacks && res.0.hasWs == r.hasWs && res.0.muted == r.muted
      && res.0.videoOff == r.videoOff && res.0.hasLocalStream == r.hasLocalStream
  {
    var peers := Remove(r.peers, id);
    var removed := if id in r.streams then Fire(r.callbacks, "onRemoteStreamRemoved", RemoteStreamRemoved(id)) else [];
    var r1 := r.(peers := peers, streams := r.streams - {id});
    if peers == [] then (r1.(callActive := false), removed + Fire(r.callbacks, "onCallEnded", CallEnded))
    else (r1, removed)
  }

  /** Closing a peer that is not there still ends an empty call. */
  lemma ClosingAbsentPeerOfEmptyMap(r: Rtc, id: string)
    requires r.peers == [] && id !in r.streams && Has(r.callbacks, "onCallEnded")
    ensures ClosePeer(r, id).1 == [CallEnded]
    ensures !ClosePeer(r, id).0.callActive
  {
  }

  /** Closing each id in turn, as the loop over the peer map does. */
  function CloseEach(r: Rtc, ids: seq<string>): (res: (Rtc, seq<Event>))
    decreases |ids|
  {
    if ids == [] then (r, [])
    else
      var first := ClosePeer(r, ids[0]);
      var rest := CloseEach(first.0, ids[1..]);
      (rest.0, first.1 + rest.1)
  }

  /** After closing `ids`, exactly the other peers and streams remain, and nothing else changed. */
  lemma {:induction false} CloseEachFacts(r: Rtc, ids: seq<string>)
    ensures var res := CloseEach(r, ids);
      && (forall p :: p in res.0.peers <==> p in r.peers && p.id !in ids)
      && res.0.streams == r.streams - (set i | i in ids)
      && (ids == [] ==> res == (r, []))
      && (ids != [] && res.0.peers == [] ==> !res.0.callActive)
    decreases |ids|
  {
    if ids != [] {
      var first := ClosePeer(r, ids[0]);
      CloseEachFacts(first.0, ids[1..]);
      assert (set i | i in ids) == {ids[0]} + (set i | i in ids[1..]);
    }
  }

  /** `closeAllConnections`: no peer is left, and their streams are gone. */
  function CloseAll(r: Rtc): (res: (Rtc, seq<Event>))
    ensures res.0.peers == []
    ensures res.0.streams == r.streams - (set p | p in r.peers :: p.id)
    ensures r.peers != [] ==> !res.0.callActive
    ensures r.peers == [] ==> res == (r, [])
  {
    var ids := Ids(r.peers);
    IdsCover(r.peers);
    var res := CloseEach(r, ids);
    CloseEachFacts(r, ids);
    NothingLeft(res.0.peers, set i | i in ids);
    res
  }

  /** A sequence whose every element both is and is not selected is empty. */
  lemma NothingLeft(s: seq<Peer>, ids: set<string>)
    requires forall p :: p in s ==> p.id !in ids
    requires forall p :: p in s ==> p.id in ids
    ensures s == []
  {
    if s != [] {
      HeadIn(s);
      assert false;
    }
  }

  lemma HeadIn(s: seq<Peer>)
    requires s != []
    ensures s[0] in s
  {
  }

  /** Every peer's id is among the map's ids. */
  lemma IdsCover(peers: seq<Peer>)
    ensures (set i | i in Ids(peers)) == (set p | p in peers :: p.id)
  {
    var ids := Ids(peers);
    forall p | p in peers ensures p.id in ids {
      var k :| 0 <= k < |peers| && peers[k] == p;
      assert ids[k] == p.id;
    }
  }

  /** The stream removals reported while closing `ids` in turn, given the streams present beforehand. */
  function Removals(c: Callbacks, streams: set<string>, ids: seq<string>): seq<Event>
    decreases |ids|
  {
    if ids == [] then []
    else
      var first := if ids[0] in streams then Fire(c, "onRemoteStreamRemoved", RemoteStreamRemoved(ids[0])) else [];
      first + Removals(c, streams, ids[1..])
  }

  /** Forgetting a stream not among `ids` changes nothing about their removals. */
  lemma {:induction false} RemovalsIgnore(c: Callbacks, streams: set<string>, x: string, ids: seq<string>)
    requires x !in ids
    ensures Removals(c, streams - {x}, ids) == Removals(c, streams, ids)
    decreases |ids|
  {
    if ids != [] {
      RemovalsIgnore(c, streams, x, ids[1..]);
    }
  }

  /**
   * Closing the whole map reports each stream's removal in map order, and
   * the end of the call once, after the last peer.
   */
  lemma {:induction false} CloseEachEvents(r: Rtc, ids: seq<string>)
    requires Distinct(r.peers) && r.peers != [] && ids == Ids(r.peers)
    ensures CloseEach(r, ids).1 == Removals(r.callbacks, r.streams, ids) + Fire(r.callbacks, "onCallEnded", CallEnded)
    decreases |ids|
  {
    var r1 := ClosePeer(r, ids[0]).0;
    CloseHeadRest(r);
    if |r.peers| == 1 {
      LastCloseEvents(r, ids);
    } else {
      CloseEachEvents(r1, ids[1..]);
      NextCloseEvents(r, ids);
    }
  }

  /** What is left after closing the first peer is again a map with distinct keys, holding the other ids. */
  lemma CloseHeadRest(r: Rtc)
    requires Distinct(r.peers) && r.peers != []
    ensures var r1 := ClosePeer(r, Ids(r.peers)[0]).0;
      && r1.peers == r.peers[1..] && Distinct(r1.peers) && Ids(r.peers)[1..] == Ids(r1.peers)
  {
    CloseHead(r);
    IdsTail(r.peers);
  }

  /** Closing the only peer reports its stream's removal, then the end of the call. */
  lemma LastCloseEvents(r: Rtc, ids: seq<string>)
    requires r.peers != [] && ids == Ids(r.peers) && r.peers[1..] == []
    ensures CloseEach(r, ids).1 == Removals(r.callbacks, r.streams, ids) + Fire(r.callbacks, "onCallEnded", CallEnded)
  {
    var id := ids[0];
    var removed := if id in r.streams then Fire(r.callbacks, "onRemoteStreamRemoved", RemoteStreamRemoved(id)) else [];
    var ended := Fire(r.callbacks, "onCallEnded", CallEnded);
    assert Distinct(r.peers);
    CloseHead(r);
    assert ids == [id];
    assert CloseEach(r, ids).1 == ClosePeer(r, id).1 == removed + ended;
    assert Removals(r.callbacks, r.streams, ids) == removed;
  }

  /** With peers left after the first, the first's removal comes before what closing the others reports. */
  lemma NextCloseEvents(r: Rtc, ids: seq<string>)
    requires Distinct(r.peers) && |r.peers| > 1 && ids == Ids(r.peers)
    requires var r1 := ClosePeer(r, ids[0]).0;
      CloseEach(r1, ids[1..]).1 == Removals(r1.callbacks, r1.streams, ids[1..]) + Fire(r1.callbacks, "onCallEnded", CallEnded)
    ensures CloseEach(r, ids).1 == Removals(r.callbacks, r.streams, ids) + Fire(r.callbacks, "onCallEnded", CallEnded)
  {
    var first := ClosePeer(r, ids[0]);
    var r1 := first.0;
    var removed := if ids[0] in r.streams then Fire(r.callbacks, "onRemoteStreamRemoved", RemoteStreamRemoved(ids[0])) else [];
    var rest := Removals(r.callbacks, r.streams, ids[1..]);
    var ended := Fire(r.callbacks, "onCallEnded", CallEnded);
    CloseHead(r);
    IdsTail(r.peers);
    assert first.1 == removed;
    RemovalsIgnore(r.callbacks, r.streams, ids[0], ids[1..]);
    assert CloseEach(r1, ids[1..]).1 == rest + ended;
    calc {
      CloseEach(r, ids).1;
      first.1 + CloseEach(r1, ids[1..]).1;
      removed + (rest + ended);
      (removed + rest) + ended;
    }
  }

  /** Closing the first peer of a map with distinct keys. */
  lemma CloseHead(r: Rtc)
    requires Distinct(r.peers) && r.peers != []
    ensures var id := r.peers[0].id;
      var first := ClosePeer(r, id);
      var removed := if id in r.streams then Fire(r.callbacks, "onRemoteStreamRemoved", RemoteStreamRemoved(id)) else [];
      && first.0.peers == r.peers[1..]
      && first.0.streams == r.streams - {id}
      && first.0.callbacks == r.callbacks
      && first.1 == removed + (if r.peers[1..] == [] then Fire(r.callbacks, "onCallEnded", CallEnded) else [])
  {
    RemoveHead(r.peers);
  }

  /** The ids after the first are the ids of the rest, and with distinct keys the first is not among them. */
  lemma IdsTail(peers: seq<Peer>)
    requires peers != []
    ensures Ids(peers)[1..] == Ids(peers[1..])
    ensures Distinct(peers) ==> Distinct(peers[1..]) && peers[0].id !in Ids(peers[1..])
  {
    if Distinct(peers) {
      forall k | 0 <= k < |peers| - 1 ensures Ids(peers[1..])[k] != peers[0].id {
        assert peers[1..][k] == peers[k + 1];
      }
    }
  }

  /** Removing the first id of a map with distinct keys leaves the rest in order. */
  lemma {:induction false} RemoveHead(peers: seq<Peer>)
    requires Distinct(peers) && peers != []
    ensures Remove(peers, peers[0].id) == peers[1..]
  {
    RemoveAbsent(peers[1..], peers[0].id);
  }

  lemma {:induction false} RemoveAbsent(peers: seq<Peer>, id: string)
    requires forall p :: p in peers ==> p.id != id
    ensures Remove(peers, id) == peers
    decreases |peers|
  {
    if peers != [] {
      RemoveAbsent(peers[1..], id);
    }
  }

  // --------------------------------------------------------------- calls

  /**
   * `endCall`: with an id, one `webrtc_call_ended` to it and that peer
   * closed; without, one to every current peer in map order, then all closed.
   */
  function EndCall(r: Rtc, target: Option<string>): (res: (Rtc, seq<Event>))
    ensures target.Some? && target.value != "" ==>
      && var close := ClosePeer(r, target.value);
      && res == (close.0, Send(r, Signal("webrtc_call_ended", target.value, map[])) + close.1)
    ensures !(target.Some? && target.value != "") ==>
      && var close := CloseAll(r);
      && res.0 == close.0
      && res.1 == EndedToEach(r, Ids(r.peers)) + close.1
  {
    if target.Some? && target.value != "" then
      var close := ClosePeer(r, target.value);
      (close.0, Send(r, Signal("webrtc_call_ended", target.value, map[])) + close.1)
    else
      var close := CloseAll(r);
      (close.0, EndedToEach(r, Ids(r.peers)) + close.1)
  }

  /** One `webrtc_call_ended` per id, in order. */
  function EndedToEach(r: Rtc, ids: seq<string>): (evs: seq<Event>)
    ensures !r.hasWs ==> evs == []
    ensures r.hasWs ==> |evs| == |ids| && forall k :: 0 <= k < |ids| ==> evs[k] == Sent(Signal("webrtc_call_ended", ids[k], map[]))
  {
    if r.hasWs then seq(|ids|, k requires 0 <= k < |ids| => Sent(Signal("webrtc_call_ended", ids[k], map[]))) else []
  }

  /** Ending every call leaves no peer, and every former peer was told. */
  lemma EndAllTellsEveryPeer(r: Rtc)
    requires r.hasWs
    ensures EndCall(r, None).0.peers == []
    ensures forall p :: p in r.peers ==> Sent(Signal("webrtc_call_ended", p.id, map[])) in EndCall(r, None).1
  {
    var ids := Ids(r.peers);
    forall p | p in r.peers ensures Sent(Signal("webrtc_call_ended", p.id, map[])) in EndCall(r, None).1 {
      var k :| 0 <= k < |r.peers| && r.peers[k] == p;
      assert EndedToEach(r, ids)[k] == Sent(Signal("webrtc_call_ended", p.id, map[]));
      assert EndCall(r, None).1[k] == EndedToEach(r, ids)[k];
    }
  }

  /** `createPeerConnection` as far as bookkeeping goes: the peer is (re)registered with no local description. */
  function CreatePeer(r: Rtc, id: string): (r': Rtc)
    ensures Find(r'.peers, id) == Some(Peer(id, None))
    ensures forall q :: q in r.peers && q.id != id ==> q in r'.peers
  {
    FindPut(r.peers, Peer(id, None));
    r.(peers := Put(r.peers, Peer(id, None)))
  }

  /** Looking up the id just set finds the new entry. */
  lemma {:induction false} FindPut(peers: seq<Peer>, p: Peer)
    ensures Find(Put(peers, p), p.id) == Some(p)
    decreases |peers|
  {
    if peers != [] && peers[0].id != p.id {
      FindPut(peers[1..], p);
    }
  }

  /**
   * `startCall`: without a local stream the error callback is the only
   * effect; otherwise the peer is registered holding the offer as its local
   * description and a `webrtc_call_request` goes to it.
   */
  function StartCall(r: Rtc, target: string, offer: Json): (res: (Rtc, seq<Event>))
    ensures !r.hasLocalStream ==> res == (r, Fire(r.callbacks, "onError", Errored))
    ensures r.hasLocalStream ==>
      && Find(res.0.peers, target) == Some(Peer(target, Some(offer)))
      && (forall q :: q in r.peers && q.id != target ==> q in res.0.peers)
      && res.1 == Send(r, Signal("webrtc_call_request", target, map[]))
      && res.0.callActive == r.callActive && res.0.callbacks == r.callbacks && res.0.hasWs == r.hasWs
  {
    if !r.hasLocalStream then (r, Fire(r.callbacks, "onError", Errored))
    else
      FindPut(Put(r.peers, Peer(target, None)), Peer(target, Some(offer)));
      var r1 := CreatePeer(r, target);
      (r1.(peers := Put(r1.peers, Peer(target, Some(offer)))), Send(r, Signal("webrtc_call_request", target, map[])))
  }

  /** `respondToCall`: answers, and on acceptance registers the caller and starts the call. */
  function RespondToCall(r: Rtc, from: string, accept: bool): (res: (Rtc, seq<Event>))
    ensures !accept ==> res == (r, Send(r, Signal("webrtc_call_response", from, map["accepted" := JBool(false)])))
    ensures accept ==>
      res.1 == Send(r, Signal("webrtc_call_response", from, map["accepted" := JBool(true)])) + Fire(r.callbacks, "onCallStarted", CallStarted)
    ensures accept ==> res.0.callActive && Peer(from, None) in res.0.peers
  {
    var answer := Send(r, Signal("webrtc_call_response", from, map["accepted" := JBool(accept)]));
    if accept then
      (CreatePeer(r, from).(callActive := true), answer + Fire(r.callbacks, "onCallStarted", CallStarted))
    else (r, answer)
  }

  /**
   * `handleCallResponse`: a refusal closes that peer; an acceptance sends
   * the stored offer and starts the call, but only when the peer exists and
   * has a local description.
   */
  function HandleCallResponse(r: Rtc, from: string, accepted: Json): (res: (Rtc, seq<Event>))
    ensures !JsTruthy(accepted) ==> res == ClosePeer(r, from)
    ensures JsTruthy(accepted) && (Find(r.peers, from).None? || Find(r.peers, from).value.localDescription.None?)
      ==> res == (r, [])
    ensures JsTruthy(accepted) && Find(r.peers, from).Some? && Find(r.peers, from).value.localDescription.Some? ==>
      && res.0 == r.(callActive := true)
      && res.1 == Send(r, Signal("webrtc_offer", from, map["offer" := Find(r.peers, from).value.localDescription.value]))
         + Fire(r.callbacks, "onCallStarted", CallStarted)
  {
    if !JsTruthy(accepted) then ClosePeer(r, from)
    else match Find(r.peers, from)
      case Some(Peer(_, Some(offer))) =>
        (r.(callActive := true),
         Send(r, Signal("webrtc_offer", from, map["offer" := offer])) + Fire(r.callbacks, "onCallStarted", CallStarted))
      case _ => (r, [])
  }

  /**
   * A call the other side accepts: the offer stored by `startCall` is sent
   * to that peer and the call starts.
   */
  lemma AcceptedCallSendsOffer(r: Rtc, target: string, offer: Json)
    requires r.hasLocalStream
    ensures var started := StartCall(r, target, offer).0;
      HandleCallResponse(started, target, JBool(true))
        == (started.(callActive := true),
            Send(r, Signal("webrtc_offer", target, map["offer" := offer])) + Fire(r.callbacks, "onCallStarted", CallStarted))
  {
  }

  /** A refused call closes the peer `startCall` registered. */
  lemma RefusedCallClosesPeer(r: Rtc, target: string, offer: Json)
    requires r.hasLocalStream
    ensures forall p :: p in HandleCallResponse(StartCall(r, target, offer).0, target, JBool(false)).0.peers ==> p.id != target
  {
  }

  /**
   * `handleOffer`: the peer is registered first when unknown; with a local
   * stream the answer becomes its local description and is sent back,
   * without one adding the tracks throws and the error callback fires.
   */
  function HandleOffer(r: Rtc, from: string, answer: Json): (res: (Rtc, seq<Event>))
    ensures Find(res.0.peers, from).Some?
    ensures forall q :: q in r.peers && q.id != from ==> q in res.0.peers
    ensures !r.hasLocalStream ==> res.1 == Fire(r.callbacks, "onError", Errored)
    ensures r.hasLocalStream ==>
      && Find(res.0.peers, from) == Some(Peer(from, Some(answer)))
      && res.1 == Send(r, Signal("webrtc_answer", from, map["answer" := answer]))
    ensures res.0.callActive == r.callActive && res.0.callbacks == r.callbacks
  {
    var r1 := if Find(r.peers, from).None? then CreatePeer(r, from) else r;
    if !r.hasLocalStream then
      FindPut(r.peers, Peer(from, None));
      (r1, Fire(r.callbacks, "onError", Errored))
    else
      FindPut(r1.peers, Peer(from, Some(answer)));
      (r1.(peers := Put(r1.peers, Peer(from, Some(answer)))),
       Send(r, Signal("webrtc_answer", from, map["answer" := answer])))
  }

  /** `ontrack`: the peer's stream is recorded and reported. */
  function OnTrack(r: Rtc, id: string): (res: (Rtc, seq<Event>))
    ensures res.0.streams == r.streams + {id}
    ensures res.1 == Fire(r.callbacks, "onRemoteStream", RemoteStreamAdded(id))
    ensures res.0.peers == r.peers && res.0.callActive == r.callActive
  {
    (r.(streams := r.streams + {id}), Fire(r.callbacks, "onRemoteStream", RemoteStreamAdded(id)))
  }

  /** `onicecandidate`: a candidate is forwarded to the peer; the end-of-candidates event sends nothing. */
  function OnIceCandidate(r: Rtc, id: string, candidate: Option<Json>): (evs: seq<Event>)
    ensures candidate.None? ==> evs == []
    ensures candidate.Some? ==> evs == Send(r, Signal("webrtc_ice_candidate", id, map["candidate" := candidate.value]))
  {
    if candidate.Some? then Send(r, Signal("webrtc_ice_candidate", id, map["candidate" := candidate.value])) else []
  }

  /** `onconnectionstatechange`: reported, and a failed or dropped connection is closed. */
  function OnConnectionState(r: Rtc, id: string, state: string): (res: (Rtc, seq<Event>))
    ensures state != "failed" && state != "disconnected" ==>
      res == (r, Fire(r.callbacks, "onConnectionStateChange", StateChanged(id, state)))
    ensures state == "failed" || state == "disconnected" ==>
      && res.0 == ClosePeer(r, id).0
      && res.1 == Fire(r.callbacks, "onConnectionStateChange", StateChanged(id, state)) + ClosePeer(r, id).1
    ensures forall p :: p in res.0.peers ==> p in r.peers
  {
    var reported := Fire(r.callbacks, "onConnectionStateChange", StateChanged(id, state));
    if state == "failed" || state == "disconnected" then
      var close := ClosePeer(r, id);
      (close.0, reported + close.1)
    else (r, reported)
  }

  /** `handleCallEnded`: the remote side hung up. */
  function HandleCallEnded(r: Rtc, from: string): (res: (Rtc, seq<Event>))
    ensures forall p :: p in res.0.peers ==> p.id != from
    ensures res == ClosePeer(r, from)
  {
    ClosePeer(r, from)
  }

  // ------------------------------------------------------ media and hooks

  /** The two local tracks `toggleMute` and `toggleVideo` switch. */
  datatype Track = Audio | Video

  /** The flag a track's toggle keeps: muted for audio, video off for video. */
  function TrackOff(r: Rtc, t: Track): bool {
    match t
    case Audio => r.muted
    case Video => r.videoOff
  }

  /**
   * `toggleMute(muted = !this.isMuted)` and `toggleVideo(videoOff = !this.isVideoOff)`:
   * only takes effect with a local stream, and returns the flag afterwards.
   */
  function Toggle(r: Rtc, t: Track, requested: Option<bool>): (res: (Rtc, bool))
    ensures !r.hasLocalStream ==> res == (r, TrackOff(r, t))
    ensures r.hasLocalStream ==> TrackOff(res.0, t) == requested.GetOr(!TrackOff(r, t))
    ensures res.0.(muted := r.muted, videoOff := r.videoOff) == r
    ensures forall u :: u != t ==> TrackOff(res.0, u) == TrackOff(r, u)
    ensures res.1 == TrackOff(res.0, t)
  {
    var value := requested.GetOr(!TrackOff(r, t));
    if !r.hasLocalStream then (r, TrackOff(r, t))
    else match t
      case Audio => (r.(muted := value), value)
      case Video => (r.(videoOff := value), value)
  }

  /** Toggling twice with no argument restores the flag. */
  lemma ToggleTwice(r: Rtc, t: Track)
    ensures Toggle(Toggle(r, t, None).0, t, None).0 == r
  {
  }

  /** `setCallbacks`: `{...this.callbacks, ...callbacks}`. */
  function SetCallbacks(r: Rtc, given: Callbacks): (r': Rtc)
    ensures forall name :: name in given ==> name in r'.callbacks && r'.callbacks[name] == given[name]
    ensures forall name :: name !in given ==> (name in r'.callbacks <==> name in r.callbacks)
    ensures forall name :: name !in given && name in r.callbacks ==> r'.callbacks[name] == r.callbacks[name]
    ensures r'.peers == r.peers && r'.callActive == r.callActive
  {
    r.(callbacks := r.callbacks + given)
  }

  // ---------------------------------------------------------- signalling

  function IdJson(id: Option<string>): Json {
    if id.Some? then JStr(id.value) else JNull
  }

  /** The message `sendSignalingMessage` puts on the WebSocket: `{type, room_id, participant_id, ...data}`. */
  function SignalingMessage(r: Rtc, s: Signal): (msg: Option<Json>)
    ensures msg.Some? <==> r.hasWs
    ensures msg.Some? ==> (msg.value.JObj? && msg.value.fields.Keys
      == {"type", "room_id", "participant_id", "to_participant_id"} + s.extra.Keys)
    ensures msg.Some? && "type" !in s.extra ==> Get(msg.value, "type") == Some(JStr(s.kind))
  {
    if r.hasWs then
      Some(JObj(map["type" := JStr(s.kind), "room_id" := IdJson(r.roomId), "participant_id" := IdJson(r.participantId)]
        + SignalData(s)))
    else None
  }

  /**
   * The server routes only `webrtc_signal`, so every signalling message
   * the service sends is dropped; and the client would not dispatch these
   * types either, so the `webrtc_*` listeners can never fire.
   */
  lemma SignalingDroppedByServer(r: Rtc, s: Signal)
    requires r.hasWs && s.kind in SignalKinds && "type" !in s.extra
    ensures Consumer.Classify(SignalingMessage(r, s)) == Consumer.Dropped
    ensures WsClient.HandleMessage(SignalingMessage(r, s).value).None?
  {
  }

  /** A concrete instance: hanging up on peer "B" reaches nobody. */
  lemma HangUpIsLost(r: Rtc)
    requires r.hasWs
    ensures Consumer.Classify(SignalingMessage(r, Signal("webrtc_call_ended", "B", map[]))) == Consumer.Dropped
  {
    SignalingDroppedByServer(r, Signal("webrtc_call_ended", "B", map[]));
  }

  /**
   * The message the service evidently means to send: a `webrtc_signal`
   * naming the peer as `target_participant`, with the signalling type and
   * data carried as `signal_type` and `signal_data`.
   */
  function RoutedSignal(r: Rtc, s: Signal): (msg: Option<Json>)
    ensures msg.Some? <==> r.hasWs
    ensures msg.Some? ==> (Get(msg.value, "type") == Some(JStr("webrtc_signal"))
      && Get(msg.value, "target_participant") == Some(JStr(s.to)))
  {
    if r.hasWs then
      Some(JObj(map["type" := JStr("webrtc_signal"), "signal_type" := JStr(s.kind),
                    "signal_data" := JObj(SignalData(s)), "target_participant" := JStr(s.to),
                    "sender_id" := IdJson(r.participantId)]))
    else None
  }

  /** The messages a sequence of events puts on the WebSocket, in the corrected form. */
  function Outgoing(r: Rtc, evs: seq<Event>): (out: seq<Json>)
    ensures |out| <= |evs|
    ensures forall k :: 0 <= k < |out| ==> Get(out[k], "type") == Some(JStr("webrtc_signal"))
    decreases |evs|
  {
    if evs == [] then []
    else
      var rest := Outgoing(r, evs[1..]);
      match evs[0]
      case Sent(s) => (match RoutedSignal(r, s) case Some(m) => [m] + rest case None => rest)
      case _ => rest
  }

  /** What a client does with a delivered `webrtc_signal`: recovers the signalling type and data. */
  function ReceivedSignal(wire: Json): Option<(Json, Json)> {
    if Get(wire, "type") == Some(JStr("webrtc_signal")) then
      Some((GetOr(wire, "signal_type", JNull), GetOr(wire, "signal_data", JNull)))
    else None
  }

  /**
   * The corrected message is routed as a targeted signal, reaches exactly
   * the connections of the named peer, is dispatched there as
   * `webrtc_signal`, and gives back the signalling type and data that were sent.
   */
  lemma RoutedSignalReachesTarget(r: Rtc, s: Signal, st: Rooms.Store, l: Layer,
                                  conns: map<Channel, Consumer.Conn>, conn: Consumer.Conn)
    requires r.hasWs && s.to != ""
    ensures var msg := RoutedSignal(r, s).value;
      && Consumer.Classify(Some(msg)) == Consumer.WebrtcSignal
      && var ev := Consumer.HandleSignal(st, conn, msg).toGroup.value;
      && ev == Consumer.Targeted(Consumer.SignalMsg(JStr(s.kind), JObj(SignalData(s)), IdJson(r.participantId)), JStr(s.to))
      && (forall c :: c in Consumer.GroupSend(l, conns, Consumer.GroupName(conn.rawRoomId), ev) <==>
            c in Members(l, Consumer.GroupName(conn.rawRoomId)) && c in conns && conns[c].participantId == s.to)
      && WsClient.HandleMessage(Consumer.Wire(ev.msg)) == Some("webrtc_signal")
      && ReceivedSignal(Consumer.Wire(ev.msg)) == Some((JStr(s.kind), JObj(SignalData(s))))
  {
    var msg := RoutedSignal(r, s).value;
    assert Get(msg, "signal_type") == Some(JStr(s.kind));
    assert Get(msg, "signal_data") == Some(JObj(SignalData(s)));
    assert Get(msg, "sender_id") == Some(IdJson(r.participantId));
    var ev := Consumer.HandleSignal(st, conn, msg).toGroup.value;
    Consumer.TargetedReachesOnlyTarget(l, conns, Consumer.GroupName(conn.rawRoomId), ev.msg, JStr(s.to));
    WsClient.ServerMessagesAreHandled(ev.msg);
  }

  datatype Status = Status(isCallActive: bool, isMuted: bool, isVideoOff: bool, connectedParticipants: nat,
                           hasLocalStream: bool)

  function GetStatus(r: Rtc): (s: Status)
    ensures s.connectedParticipants == |r.peers|
    ensures s.isCallActive == r.callActive && s.isMuted == r.muted && s.isVideoOff == r.videoOff
  {
    Status(r.callActive, r.muted, r.videoOff, |r.peers|, r.hasLocalStream)
  }

  /** `cleanup`: ends every call (telling each peer), then forgets the stream and the signalling link. */
  function Cleanup(r: Rtc): (res: (Rtc, seq<Event>))
    ensures res.0.peers == [] && !res.0.hasWs && !res.0.hasLocalStream
    ensures res.0.roomId.None? && res.0.participantId.None?
  {
    var ended := EndCall(r, None);
    var closed := CloseAll(ended.0);
    (closed.0.(hasLocalStream := false, hasWs := false, roomId := None, participantId := None), ended.1 + closed.1)
  }
}

=== FILE: wrappers.dfy ===
/** Failure-compatible wrapper shared by every module of the model. */
module Wrappers {

  /** A value that may be absent: Python's `None`, a JavaScript `null`/`undefined`. */
  datatype Option<+T> = None | Some(value: T) {

    /** The wrapped value, or `default` when there is none (Python's `d.get(k, default)`). */
    function GetOr(default: T): (r: T)
      ensures Some? ==> r == value
      ensures None? ==> r == default
    {
      match this
      case Some(v) => v
      case None => default
    }
  }
}

=== FILE: ws_client.dfy ===
/**
 * The browser's WebSocket service (FRONTEND/src/services/websocket.js): the
 * listener registry, dispatch of server messages to listeners, the send
 * guard, the reconnection counter and the three HelloHand envelopes. The
 * socket itself, timers and the console are left out; a callback is an
 * opaque token, equal only to itself, as JavaScript's `!==` compares
 * functions by identity.
 */
module WsClient {
  import opened Wrappers
  import opened Json
  import opened Text
  import Consumer

  type Callback = nat

  datatype Client = Client(
    hasSocket: bool,
    connected: bool,
    roomId: Option<string>,
    participantId: Option<string>,
    listeners: map<string, seq<Callback>>,
    reconnectAttempts: nat)

  const MaxReconnectAttempts: nat := 5
  const ReconnectStepMs: nat := 2000

  function Initial(): Client {
    Client(false, false, None, None, map[], 0)
  }

  /** The callbacks registered for an event, in registration order. */
  function Listeners(c: Client, event: string): seq<Callback> {
    if event in c.listeners then c.listeners[event] else []
  }

  // ----------------------------------------------------------- listeners

  /** `on`: appends the callback, even when it is already registered. */
  function On(c: Client, event: string, cb: Callback): (c': Client)
    ensures Listeners(c', event) == Listeners(c, event) + [cb]
    ensures forall e :: e != event ==> Listeners(c', e) == Listeners(c, e)
    ensures c'.connected == c.connected && c'.roomId == c.roomId && c'.participantId == c.participantId
  {
    c.(listeners := c.listeners[event := Listeners(c, event) + [cb]])
  }

  /** `filter(cb => cb !== callback)`. */
  function Without(s: seq<Callback>, cb: Callback): (r: seq<Callback>)
    ensures cb !in r
    ensures forall x :: x != cb ==> multiset(r)[x] == multiset(s)[x]
    decreases |s|
  {
    if s == [] then []
    else
      var init := Without(s[..|s| - 1], cb);
      var last := s[|s| - 1];
      assert s == s[..|s| - 1] + [last];
      if last == cb then init else init + [last]
  }

  /** Without keeps the order of what remains: it distributes over concatenation. */
  lemma {:induction false} WithoutAppend(s: seq<Callback>, t: seq<Callback>, cb: Callback)
    ensures Without(s + t, cb) == Without(s, cb) + Without(t, cb)
    decreases |t|
  {
    if t == [] {
      assert s + t == s;
    } else {
      var n := |t| - 1;
      assert (s + t)[..|s + t| - 1] == s + t[..n];
      assert (s + t)[|s + t| - 1] == t[n];
      WithoutAppend(s, t[..n], cb);
      var tail := if t[n] == cb then [] else [t[n]];
      assert Without(t, cb) == Without(t[..n], cb) + tail;
      assert Without(s + t, cb) == Without(s + t[..n], cb) + tail;
    }
  }

  /** A sequence without the callback is left as it is. */
  lemma {:induction false} WithoutAbsent(s: seq<Callback>, cb: Callback)
    requires cb !in s
    ensures Without(s, cb) == s
    decreases |s|
  {
    if s != [] {
      var n := |s| - 1;
      assert s == s[..n] + [s[n]];
      assert cb !in s[..n];
      WithoutAbsent(s[..n], cb);
    }
  }

  /** `off`: removes every registration of the callback for that event only. */
  function Off(c: Client, event: string, cb: Callback): (c': Client)
    ensures Listeners(c', event) == Without(Listeners(c, event), cb)
    ensures forall e :: e != event ==> Listeners(c', e) == Listeners(c, e)
    ensures c'.connected == c.connected && c'.roomId == c.roomId && c'.participantId == c.participantId
  {
    if event in c.listeners then c.(listeners := c.listeners[event := Without(c.listeners[event], cb)])
    else c
  }

  /** Removing a callback that was registered once undoes its registration. */
  lemma OffUndoesOn(c: Client, event: string, cb: Callback)
    requires cb !in Listeners(c, event)
    ensures Listeners(Off(On(c, event, cb), event, cb), event) == Listeners(c, event)
  {
    var s := Listeners(c, event);
    WithoutAppend(s, [cb], cb);
    WithoutAbsent(s, cb);
    assert Without([cb], cb) == [] by { assert [cb][..0] == []; }
  }

  /** The callbacks among `s` that throw, in the order they are called. */
  function Throwing(s: seq<Callback>, throws: set<Callback>): seq<Callback>
    decreases |s|
  {
    if s == [] then []
    else
      var last := s[|s| - 1];
      Throwing(s[..|s| - 1], throws) + (if last in throws then [last] else [])
  }

  /**
   * `_emit`: calls every listener of the event in order; a listener that
   * throws is reported and the rest are still called.
   */
  method Emit(c: Client, event: string, throws: set<Callback>) returns (called: seq<Callback>, reported: seq<Callback>)
    ensures called == Listeners(c, event)
    ensures reported == Throwing(called, throws)
    ensures forall i :: 0 <= i < |reported| ==> reported[i] in throws && reported[i] in called
  {
    var ls := Listeners(c, event);
    called := [];
    reported := [];
    var i := 0;
    while i < |ls|
      invariant 0 <= i <= |ls|
      invariant called == ls[..i]
      invariant reported == Throwing(called, throws)
      invariant forall k :: 0 <= k < |reported| ==> reported[k] in throws && reported[k] in called
    {
      var cb := ls[i];
      assert ls[..i + 1] == called + [cb];
      assert (called + [cb])[..|called|] == called;
      called := called + [cb];
      if cb in throws {
        reported := reported + [cb];
      }
      i := i + 1;
    }
    assert ls[..i] == ls;
  }

  // ------------------------------------------------------------ messages

  const KnownTypes: seq<string> := ["participant_joined", "participant_left", "chat_message",
    "translation_result", "webrtc_signal", "participant_status_update", "error"]

  /**
   * `_handleMessage`: the event a parsed server message is emitted under;
   * None for an unknown or missing `type`. A message that is not an object
   * has no `type` to switch on.
   */
  function HandleMessage(data: Json): (event: Option<string>)
    ensures event.Some? <==> (Get(data, "type").Some? && Get(data, "type").value.JStr?
      && Get(data, "type").value.s in KnownTypes)
    ensures event.Some? ==> Get(data, "type") == Some(JStr(event.value))
  {
    match Get(data, "type")
    case Some(JStr(t)) => if t in KnownTypes then Some(t) else None
    case _ => None
  }

  /** Every message the room consumer sends reaches the client's listeners under its own type. */
  lemma ServerMessagesAreHandled(m: Consumer.ClientMessage)
    ensures HandleMessage(Consumer.Wire(m)) == Some(Consumer.TypeTag(m))
  {
  }

  // ---------------------------------------------------------- connection

  /**
   * `connect`: records the ids and opens a new socket. The connected flag is
   * left as it was: a client that connects again without disconnecting first
   * still counts as connected while the new socket is opening.
   */
  function Connect(c: Client, roomId: string, participantId: string): (c': Client)
    ensures c'.hasSocket && c'.connected == c.connected
    ensures c'.roomId == Some(roomId) && c'.participantId == Some(participantId)
    ensures c'.listeners == c.listeners && c'.reconnectAttempts == c.reconnectAttempts
  {
    c.(hasSocket := true, roomId := Some(roomId), participantId := Some(participantId))
  }

  /**
   * Connecting to a second room without disconnecting keeps the client
   * connected, so `send` hands the message to the socket that is still
   * opening rather than refusing it.
   */
  lemma SwitchingRoomsStaysConnected(c: Client, roomId: string, participantId: string, message: Json)
    requires c.connected
    ensures Connect(c, roomId, participantId).connected
    ensures Send(Connect(c, roomId, participantId), message).Some?
  {
  }

  /** The path and query the socket is opened with. */
  function Path(roomId: string): string {
    "/ws/room/" + roomId + "/"
  }

  function Query(participantId: string): string {
    "participant_id=" + participantId
  }

  /** The consumer reads back the participant id the client put in the query, provided it holds no `&`. */
  lemma QueryRoundTrip(participantId: string)
    requires '&' !in participantId
    ensures "participant_id" in Consumer.ParseQuery(Query(participantId))
    ensures Consumer.ParseQuery(Query(participantId))["participant_id"] == participantId
  {
    var q := Query(participantId);
    assert '&' !in q by {
      assert forall k :: 0 <= k < |q| ==> q[k] != '&' by {
        forall k | 0 <= k < |q| ensures q[k] != '&' {
          if k >= 15 { assert q[k] == participantId[k - 15]; }
        }
      }
    }
    assert Split(q, '&') == [q];
    assert q[14] == '=';
    var i := IndexOf(q, '=');
    assert i == 14;
    assert q[..14] == "participant_id";
    assert q[15..] == participantId;
    assert Consumer.ParamsOf([q]) == Consumer.ParamsOf([])[Consumer.ParamKey(q) := Consumer.ParamValue(q)];
  }

  /** `onopen`: connected, and the reconnection counter starts over. */
  function OnOpen(c: Client): (c': Client)
    ensures c'.connected && c'.reconnectAttempts == 0
    ensures c'.roomId == c.roomId && c'.participantId == c.participantId && c'.listeners == c.listeners
  {
    c.(connected := true, reconnectAttempts := 0)
  }

  /** JavaScript truthiness of an id that is null or a string. */
  predicate IdSet(id: Option<string>) {
    id.Some? && id.value != ""
  }

  /**
   * `onclose` followed by `_handleDisconnection`: not connected, the
   * `disconnected` listeners are called, and a reconnection is scheduled
   * after 2000 ms times the new attempt number while fewer than five have
   * been made and both ids are set.
   */
  function OnClose(c: Client): (res: (Client, Option<nat>))
    ensures !res.0.connected
    ensures res.1.Some? <==> c.reconnectAttempts < MaxReconnectAttempts && IdSet(c.roomId) && IdSet(c.participantId)
    ensures res.1.Some? ==> (res.0.reconnectAttempts == c.reconnectAttempts + 1
      && res.1.value == ReconnectStepMs * res.0.reconnectAttempts)
    ensures res.1.None? ==> res.0.reconnectAttempts == c.reconnectAttempts
    ensures res.0.roomId == c.roomId && res.0.participantId == c.participantId && res.0.listeners == c.listeners
  {
    var closed := c.(connected := false);
    if c.reconnectAttempts < MaxReconnectAttempts && IdSet(c.roomId) && IdSet(c.participantId) then
      (closed.(reconnectAttempts := c.reconnectAttempts + 1), Some(ReconnectStepMs * (c.reconnectAttempts + 1)))
    else (closed, None)
  }

  /** The counter never passes five, whatever sequence of closes happens. */
  lemma AttemptsBounded(c: Client)
    requires c.reconnectAttempts <= MaxReconnectAttempts
    ensures OnClose(c).0.reconnectAttempts <= MaxReconnectAttempts
    ensures OnClose(c).1.Some? ==> OnClose(c).1.value <= 10000
  {
  }

  /** The number of reconnections `OnClose` schedules over `n` closes with no successful open between them. */
  function Closes(c: Client, n: nat): (res: (Client, nat))
    decreases n
  {
    if n == 0 then (c, 0)
    else
      var step := OnClose(c);
      var rest := Closes(step.0, n - 1);
      (rest.0, rest.1 + (if step.1.Some? then 1 else 0))
  }

  /** Without a successful open in between, at most five reconnections are ever scheduled. */
  lemma {:induction false} AtMostFiveRetries(c: Client, n: nat)
    requires c.reconnectAttempts <= MaxReconnectAttempts
    ensures Closes(c, n).1 <= MaxReconnectAttempts - c.reconnectAttempts
    ensures Closes(c, n).0.reconnectAttempts == c.reconnectAttempts + Closes(c, n).1
    decreases n
  {
    if n > 0 {
      AtMostFiveRetries(OnClose(c).0, n - 1);
    }
  }

  /** `disconnect`: closes the socket and forgets both ids. */
  function Disconnect(c: Client): (c': Client)
    ensures !c'.hasSocket && !c'.connected && c'.roomId.None? && c'.participantId.None?
    ensures c'.listeners == c.listeners
  {
    c.(hasSocket := false, connected := false, roomId := None, participantId := None)
  }

  /** The close that follows a deliberate disconnect never schedules a reconnection. */
  lemma DisconnectStopsReconnecting(c: Client)
    ensures OnClose(Disconnect(c)).1.None?
  {
  }

  /** `send`: the message goes out only while connected with a socket. */
  function Send(c: Client, message: Json): (out: Option<Json>)
    ensures out.Some? <==> c.connected && c.hasSocket
    ensures out.Some? ==> out.value == message
  {
    if c.connected && c.hasSocket then Some(message) else None
  }

  // ----------------------------------------------------------- envelopes

  /** `this.participantId`, which is `null` before `connect` and after `disconnect`. */
  function SelfId(c: Client): Json {
    if c.participantId.Some? then JStr(c.participantId.value) else JNull
  }

  /** `{type, <field>: value, participant_id}`, the shape of `sendChatMessage` and `sendTranslationRequest`. */
  function Envelope(c: Client, kind: string, field: string, value: Json): (j: Json)
    ensures j.JObj? && j.fields.Keys == {"type", field, "participant_id"}
    ensures field != "type" ==> Get(j, "type") == Some(JStr(kind))
    ensures field != "participant_id" ==> Get(j, "participant_id") == Some(SelfId(c))
    ensures field != "type" && field != "participant_id" ==> Get(j, field) == Some(value)
  {
    JObj(map["type" := JStr(kind), field := value, "participant_id" := SelfId(c)])
  }

  function ChatEnvelope(c: Client, message: Json): Json {
    Envelope(c, "chat_message", "message", message)
  }

  function TranslationEnvelope(c: Client, landmarks: Json): Json {
    Envelope(c, "translation_request", "landmarks", landmarks)
  }

  /** `{type, participant_id, ...status}`: keys of `status` override the two fixed ones. */
  function StatusEnvelope(c: Client, status: map<string, Json>): (j: Json)
    ensures j.JObj? && j.fields.Keys == status.Keys + {"type", "participant_id"}
    ensures forall k :: k in status ==> j.fields[k] == status[k]
    ensures "type" !in status ==> j.fields["type"] == JStr("participant_status")
    ensures "participant_id" !in status ==> j.fields["participant_id"] == SelfId(c)
  {
    JObj(map["type" := JStr("participant_status"), "participant_id" := SelfId(c)] + status)
  }

  /** The server routes each envelope to the handler it is meant for. */
  lemma EnvelopesAreRouted(c: Client, message: Json, landmarks: Json, status: map<string, Json>)
    ensures Consumer.Classify(Some(ChatEnvelope(c, message))) == Consumer.ChatMessage
    ensures Consumer.Classify(Some(TranslationEnvelope(c, landmarks))) == Consumer.TranslationRequest
    ensures "type" !in status ==> Consumer.Classify(Some(StatusEnvelope(c, status))) == Consumer.ParticipantStatus
  {
  }

  /** A status object carrying its own `type` overrides the envelope's, and the server then drops it. */
  lemma StatusTypeOverridden(c: Client, status: map<string, Json>)
    requires "type" in status && status["type"] == JStr("camera")
    ensures Consumer.Classify(Some(StatusEnvelope(c, status))) == Consumer.Dropped
  {
  }
}
